=== FILE: README.md ===
# admin-ept: the test store, its handlers, editors and previews, in Dafny

admin-ept is an English placement-test administration site. It keeps its
data in a spreadsheet of five tables:

- `Tests`: one row per test, columns A to G: id, type, title, description, creation time, test date, total points. Column H holds the submission count.
- `Questions`: one row per reading or listening question.
- `WritingPrompts`: one row per writing prompt.
- `Submissions`: one row per student attempt.
- `AdminAuth`: the admin credentials.

This project models the following in Dafny:

- **The store.** Each table is a sequence of rows in the `Store.TableStore` class. Reads clip to the column range the code asks for, appends go at the end, and a single cell can be written.
- **The API handlers that read and write the store:**
  - test creation (`CreateTest`);
  - test duplication (`DuplicateTest`);
  - test delivery (`Delivery`);
  - the test listing (`Listing`);
  - submission intake (`Submissions`).
- **The helpers those handlers use:**
  - the points and scheduling validators (`Points`, `Schedule`);
  - the admin and submission helpers (`Sheets`);
  - execution monitoring (`Monitoring`).
- **The client-side logic:**
  - the decoders that rebuild sections and prompts from stored rows (`RowCodec`, `PreviewDecode`);
  - the content editors (`Editors`, over the pure operations in `Content`);
  - the admin creation forms (`Forms`);
  - the preview modal with its navigation, countdown and word count (`Preview`);
  - the admin test list that groups tests by day and marks their status (`AdminTests`).

Shared pieces:

- `Text` holds the number and date formatting, `parseInt`, and the string-array JSON used for question options.
- `Sorting` holds a stable insertion sort.
- `Wrappers` holds `Option` and `Result`.

The store, the editors, the forms and the preview modal change state in place, so they are classes with `modifies` clauses. The handlers are pure decisions (`Decide`, `Precheck`, `Locate`), and each has a method that carries out the decision on a `TableStore` and is proved to write exactly what the decision says. The model is checked against those decisions throughout:

- Rows written by creation decode back to the content that was submitted.
- A duplicate's rows decode exactly as the source test's rows do, when every content row belongs to a stored test (`DuplicateTest.DuplicatedQuestionsDecodeAlike`, `DuplicateTest.DuplicatedPromptsDecodeAlike`).
- A duplicate made for today is the test delivery finds for today, on a server whose time zone is at or east of UTC (see `AdminTests.DuplicateFoundOnDelivery` under "## Left out").
- A second creation for the same day and type is refused.

A second identical creation is refused as a schedule conflict, because the handler checks for conflicts (pages/api/test.js:104-112) before it checks for a duplicate id; see `CreateTest.SecondCreateConflicts`.

## Model

| member | source | states |
|---|---|---|
| Text.ParseNatToString | pages/api/test.js:162 | `parseInt` reads back the decimal text `toString` writes for a natural number |
| Text.ParseIntToString | pages/api/test.js:147 | `parseInt` reads back the decimal text of any integer, negative ones included |
| Text.NatToStringInjective | pages/admin/create-test.js:252 | distinct numbers have distinct decimal texts |
| Text.IsoDateWithoutDashes | pages/api/test-delivery.js:31-32 | removing the dashes from a `YYYY-MM-DD` date gives the year, two-digit month and two-digit day run together |
| Text.StrLessIsStrictTotalOrder | components/PreviewModal.js:65-67 | the string order the default array sort uses is asymmetric, transitive and total on distinct strings |
| Text.ParseInt | pages/api/test.js:147 | `parseInt` of the empty string is not a number; a string starting with a digit parses to a number of at least 0; a negative result comes only from a leading `-` |
| Text.EncodeStrings | pages/api/test.js:167 | the encoding of a string array is bracketed by `[` and `]` |
| Text.DecodeStrings | components/QuestionTestEditor.js:21 | only text starting with `[` parses as a string array |
| Text.DecodeEncodeStrings | pages/api/test.js:167 | parsing the JSON text of a string array gives back the array |
| Sorting.SortBy | pages/admin/tests.js:49-52 | the sort returns a permutation of its input |
| Sorting.SortByIncreasing | pages/admin/tests.js:49-52 | with a strict total order on distinct elements, the sorted sequence is strictly increasing |
| Sorting.SortByOfIncreasing | components/PreviewModal.js:65-67 | an already increasing sequence is left as it is |
| Content.NewSection | pages/admin/create-test.js:30-35 | a new section has the given title, empty content and one default question |
| Content.RemoveAt | components/QuestionTestEditor.js:88-92 | removing index i keeps every other element in order; an index out of range removes nothing |
| Content.UpdateSection | components/QuestionTestEditor.js:40-48 | only section i changes, and only the edited field |
| Content.UpdateQuestion | components/QuestionTestEditor.js:50-58 | only question j of section i changes, and every other question and section is kept |
| Content.SelectAnswer | pages/admin/create-test.js:160-163 | the chosen option becomes the correct answer of that question only |
| Content.AddQuestion | components/QuestionTestEditor.js:76-86 | section i gains one default question at its end; nothing else changes |
| Content.RemoveQuestion | components/QuestionTestEditor.js:94-110 | a missing section gives nothing; otherwise the question goes and an emptied section gets one default question back |
| Content.UpdatePrompt | components/WritingTestEditor.js:18-26 | only prompt i changes, and only the edited field |
| Content.AddPrompt | components/WritingTestEditor.js:28-36 | a default prompt is added below the cap of three; at the cap nothing changes |
| Content.AddPromptCapped | components/WritingTestEditor.js:29 | however many times a prompt is added, there are never more than three |
| RowCodec.QuestionRow | pages/api/test.js:161-171 | a question row has nine cells: the test id, the section ordinal, title and passage, the question ordinal, text, options as JSON, answer and points, in that order |
| RowCodec.QuestionRowReadsBack | pages/api/test.js:160-172 | the section ordinal, question ordinal, options and points of a question row parse back to the values written |
| RowCodec.QuestionRows | pages/api/test.js:160-172 | there is one row per question, every row carries the test id, and the count is the sum of the section sizes |
| RowCodec.QuestionRowsAt | pages/api/test.js:160-172 | question j of section s is written at the number of questions before section s, plus j |
| RowCodec.QuestionRowsPrefix | pages/api/test.js:160-172 | the rows of the first n sections are a prefix of the rows of all sections |
| RowCodec.PromptRow | pages/api/test.js:182-188 | a prompt row has five cells, with the test id, the prompt type and the text in their columns |
| RowCodec.PromptRowReadsBack | pages/api/test.js:182-188 | the prompt ordinal, counted from 1, and the word limit parse back |
| RowCodec.PromptRows | pages/api/test.js:175-190 | there is one row per prompt, in order, and each carries the test id |
| RowCodec.DecodePrompts | components/WritingTestEditor.js:7-13 | decoding gives one prompt per row, taken from columns C to E |
| RowCodec.DecodePromptRows | components/WritingTestEditor.js:7-13 | decoding the rows written for some prompts gives those prompts back |
| RowCodec.DecodePromptIgnoresOrdinal | components/WritingTestEditor.js:8 | the prompt decoder ignores the stored ordinal and keeps the row order |
| RowCodec.Assign | components/QuestionTestEditor.js:19 | assigning past the end pads with holes; the slot is set and every other slot is kept |
| RowCodec.Index | components/QuestionTestEditor.js:11 | the section index is the parsed ordinal minus one; it is absent when the ordinal does not parse or is below 1 |
| RowCodec.StrictStep | components/QuestionTestEditor.js:10-25 | a row fails exactly when its options cell is not the JSON text of a string array |
| RowCodec.StrictDecode | components/QuestionTestEditor.js:7 | missing or empty content decodes to no sections |
| RowCodec.StrictFoldFails | components/QuestionTestEditor.js:21 | the decode fails exactly when some row has malformed options |
| RowCodec.StrictFoldHoles | components/QuestionTestEditor.js:11-18 | a section slot holds a section exactly when some row names it; every other slot stays a hole |
| RowCodec.DecodeQuestionRows | components/QuestionTestEditor.js:7-35 | decoding the rows written for sections with no empty section gives those sections back |
| PreviewDecode.OptionsOf | components/PreviewModal.js:41-46 | an empty or unparsable options cell gives the empty list; a valid one gives its strings |
| PreviewDecode.Place | components/PreviewModal.js:48-61 | a question lands at its ordinal, after the list is padded to reach it; the other questions are kept |
| PreviewDecode.LenientStep | components/PreviewModal.js:20-31 | an item that is not an array, or whose section ordinal is falsy, is skipped |
| PreviewDecode.InKeyOrder | components/PreviewModal.js:65-67 | one section per key, taken in the sorted order of the keys |
| PreviewDecode.Transform | components/PreviewModal.js:7-12 | content that is absent or not an array gives no sections; writing content passes through; otherwise one section per section key |
| PreviewDecode.TransformAsWritten | components/PreviewModal.js:7-71 | with the default string sort: no type or non-array content gives no sections, writing content passes through, and otherwise there is one section per section key |
| PreviewDecode.TransformCorrected | components/PreviewModal.js:7-71 | the same three cases, with ordinals compared as numbers |
| PreviewDecode.PlaceQuestion | components/PreviewModal.js:48-61 | the padding loop ends with the list long enough, and the question at its ordinal |
| PreviewDecode.VisitItem | components/PreviewModal.js:20-61 | one pass of the item loop is one decoding step |
| PreviewDecode.TransformContent | components/PreviewModal.js:7-71 | the loop over the items, then the sort, computes the decoded sections |
| PreviewDecode.SkippedItemsIgnored | components/PreviewModal.js:21-31 | skipped items change nothing: decoding gives what decoding only the usable items gives |
| PreviewDecode.SectionKeys | components/PreviewModal.js:31-39 | the decoded sections are exactly the ordinals some usable row names |
| PreviewDecode.FirstRowWins | components/PreviewModal.js:33-39 | a section's title and passage come from the first usable row naming it |
| PreviewDecode.OrdinalCovered | components/PreviewModal.js:48-55 | a section holds at least as many slots as the highest question ordinal it is given |
| PreviewDecode.SectionsInStringOrder | components/PreviewModal.js:65-67 | the keys are sorted into a permutation that is strictly increasing in string order |
| PreviewDecode.PreviewRoundTrip | components/PreviewModal.js:17-67 | with a sort that leaves the stored ordinals in place, the preview of stored rows gives the stored sections back |
| PreviewDecode.PreviewRoundTripFewSections | components/PreviewModal.js:65-67 | with at most nine sections the preview shows them in their stored order |
| PreviewDecode.TenthSectionShownSecond | components/PreviewModal.js:66 | with ten or more sections, the tenth is shown second |
| PreviewDecode.TenSectionsMisordered | components/PreviewModal.js:66 | with ten or more sections, the preview does not show them in stored order |
| PreviewDecode.PreviewRoundTripCorrected | components/PreviewModal.js:65-67 | sorting the ordinals as numbers shows any number of sections in stored order |
| Preview.ClockStopsAtZero | components/PreviewModal.js:115 | the timer shows `00:00` exactly when no time is left |
| Preview.TickClock | components/PreviewModal.js:117-126 | one tick takes one second off the remaining time, borrowing a minute at zero seconds, and 0:00 stays 0:00 |
| Preview.Countdown | components/PreviewModal.js:113-130 | after t ticks the clock shows the starting total less t seconds, floored at zero |
| Preview.ViewPrompt | components/PreviewModal.js:272-274 | the shown type and word limit are never empty; an item that is not a row shows the default prompt |
| Preview.PromptRowShown | components/PreviewModal.js:272-274 | a stored prompt row is shown with its own type, text and word limit |
| Preview.UntypedPromptRowShown | components/PreviewModal.js:272 | a row with an empty type is shown as an essay |
| Preview.WordCountAsWritten | components/PreviewModal.js:297 | the count as written is never below 1 |
| Preview.BlankEssayCountsOne | components/PreviewModal.js:297 | as written, an empty or all-blank essay counts as one word |
| Preview.WordCount | components/PreviewModal.js:297 | the corrected count is never above the count as written, and equals it whenever it is not zero |
| Preview.WordCountIsWords | components/PreviewModal.js:297 | the corrected count counts the whitespace-separated words of the trimmed text |
| Preview.NoWordsIffBlank | components/PreviewModal.js:297 | a text has no words exactly when it is all whitespace |
| Preview.CountsAgreeOnWords | components/PreviewModal.js:297 | the written and corrected counts agree on every text that has a word |
| Preview.PreviewModal.Total | components/PreviewModal.js:94 | there is always at least one page: the number of sections or prompts, or 1 |
| Preview.PreviewModal.constructor | components/PreviewModal.js:91-102 | a writing test shows its prompts; the others show the sections decoded as written, with keys in default string order; the clock starts at 45:00 or 60:00 on page 0 |
| Preview.PreviewModal.Corrected | components/PreviewModal.js:91-102 | the same start, with the sections decoded with ordinals compared as numbers |
| Preview.PreviewModal.CurrentContent | components/PreviewModal.js:154-160 | the page shows the current section or prompt, or the blank default when there is none |
| Preview.PreviewModal.Previous | components/PreviewModal.js:218 | the page goes back one, stopping at 0 |
| Preview.PreviewModal.Next | components/PreviewModal.js:227-233 | the page goes forward one; on the last page it closes |
| Preview.PreviewModal.Tick | components/PreviewModal.js:113-130 | each second takes one second off the clock and changes nothing else |
| Store.Cell | pages/api/tests.js:14-20 | a cell past the end of a short row is absent |
| Store.Rendered | pages/api/duplicate-test.js:52-55 | in a template literal, a cell past the end of the row reads `undefined` and any other cell its own text |
| Store.Clip | pages/api/tests.js:10 | a range read keeps at most the requested number of cells, and each of them reads as before |
| Store.RowsOf | utils/googleSheets.js:106-107 | no more rows than the table has, and none when no row carries the id |
| Store.RowsOfMembers | utils/googleSheets.js:106-107 | a row is kept exactly when it is in the table and its first cell is the id |
| Store.RowsOfConcat | utils/googleSheets.js:106-107 | filtering the concatenation of two tables concatenates their filters |
| Store.ClippedRowsOf | utils/googleSheets.js:101-107 | filtering the clipped rows is clipping the filtered rows |
| Store.FindIndex | utils/googleSheets.js:118-119 | the first row whose first cell is the id, or none when no row has it |
| Store.ClippedFindIndex | pages/api/test.js:118-124 | clipping the read does not change which row the id is found in |
| Store.SetField | utils/googleSheets.js:122-129 | a cell write pads a short row and changes that cell only |
| Store.AppendedConcat | pages/api/test.js:134-190 | the rows a list of appends adds to a table are those of the first part, then those of the rest |
| Store.TableStore.GetRange | utils/googleSheets.js:101-104 | a read returns the table's rows clipped to the range and changes nothing |
| Store.TableStore.AppendRows | utils/googleSheets.js:77-83 | an append adds the rows at the end of its table and leaves the other tables unchanged |
| Store.TableStore.AppendAll | pages/api/test.js:134-190 | a list of appends, in order, adds to each table what the list holds for it |
| Store.TableStore.SetCell | utils/googleSheets.js:122-129 | a cell write changes one cell of one row of one table |
| Points.FirstLow | utils/pointsValidation.js:25-29 | the first question with points below 1, or none when there is none |
| Points.FirstInvalid | utils/pointsValidation.js:24-30 | a question found is in range, has points below 1, and every question before it, in section then question order, has at least 1 |
| Points.FirstInvalidNone | utils/pointsValidation.js:24-30 | no question is found exactly when every question has at least 1 point |
| Points.ValidateScored | utils/pointsValidation.js:13-31 | a reading or listening test fails with a mismatch, carrying the stored and the computed totals, exactly when the stored total is not the sum of the question points; a pass always returns true |
| Points.ScoredAccepted | utils/pointsValidation.js:19-30 | with matching totals, the test passes exactly when every question has at least 1 point |
| Points.ValidateTestPoints | utils/pointsValidation.js:2-36 | writing passes exactly at 50 points and otherwise fails naming the stored total; reading and listening are decided by the points check of those types; other types pass |
| Points.FirstLowQuestionReported | utils/pointsValidation.js:24-30 | the error names the section and question, counted from 1, of the first low question |
| Points.FirstInvalidIs | utils/pointsValidation.js:24-30 | a question below 1 point with every earlier question at 1 or more is the one found |
| Points.TotalAtLeastCount | utils/pointsValidation.js:15-17 | when every question has at least 1 point, the total is at least the question count |
| Points.AcceptedTotalBound | utils/pointsValidation.js:15-30 | an accepted reading or listening test's total is at least its number of questions |
| Schedule.ValidateTestScheduling | utils/scheduleValidation.js:2-16 | the date must be after now, at most 21 days ahead, and on a Friday (`getDay() === 5`); the conflict flag is always true |
| Schedule.ConflictingTests | utils/scheduleValidation.js:25-34 | no more reports than rows |
| Schedule.ConflictingTestsMembers | utils/scheduleValidation.js:25-34 | a conflict is reported exactly when it describes a row with the same date and type |
| Schedule.ConflictingTestsNone | utils/scheduleValidation.js:25-34 | nothing is reported exactly when no row has the same date and type |
| Schedule.CheckScheduleConflicts | utils/scheduleValidation.js:18-36 | a conflict is reported exactly when some row has the same date and type |
| Schedule.ConflictingTestsConcat | utils/scheduleValidation.js:25-26 | the conflicts of two tables concatenated are the conflicts of each, concatenated |
| Schedule.ClippedConflicts | utils/scheduleValidation.js:20-26 | clipping the read to columns A to G does not change the conflicts |
| CreateTest.TestId | pages/api/test.js:115 | the id is the type, an underscore, then only digits |
| CreateTest.Resolve | pages/api/test.js:104-196 | a schedule conflict exactly when some row has the same date and type, listing those rows; otherwise 409 `duplicate_test` when the id is taken; otherwise the test is created with its id, writing its Tests row and then its content rows; a refusal writes nothing |
| CreateTest.TestsRow | pages/api/test.js:140-148 | the Tests row has seven cells, carrying the id, type and date, and a total that parses back |
| CreateTest.ContentRows | pages/api/test.js:153-190 | every content row carries the test id in column A |
| CreateTest.Precheck | pages/api/test.js:7-102 | each refusal in the source's order: 405 for a method other than POST; 400 `missing_required_fields`, `invalid_test_type`, `invalid_date_format`, then `too_many_prompts` for a writing test or `invalid_questions` for the others; 500 when the points check fails; 400 `invalid_date`, `date_too_far`, `invalid_day` from the schedule check; the plan is accepted exactly when every check passes, never creates anything when refused, and an accepted plan's Tests row carries the id, type, title and date |
| CreateTest.Decide | pages/api/test.js:7-196 | the handler writes something exactly when it creates the test |
| CreateTest.HandleCreate | pages/api/test.js:6-197 | the handler's reply is the decision's, and each table gains exactly the rows the decision appends |
| CreateTest.Commit | pages/api/test.js:114-196 | after the conflict check and the duplicate check, the Tests row and then the content rows are appended |
| CreateTest.TestIdDeterminesDate | pages/api/test.js:115 | two dates with the same test id for a type are the same calendar day |
| CreateTest.CheckedRequestCreated | pages/api/test.js:7-196 | a POST request that passes every check, with no schedule conflict and an id not yet in Tests, is created under the id its type and date give |
| CreateTest.CreatedWrites | pages/api/test.js:19-190 | a created test passed every check (a date in the window on a Friday, no conflict, a new id) and writes its Tests row, then its content rows, and the reply carries its id |
| CreateTest.PointsFailureIsLowQuestion | pages/api/test.js:80 | a well-formed reading or listening request is refused with 500 exactly when some question is worth less than 1 point |
| CreateTest.WritingPointsAccepted | pages/api/test.js:68-80 | a writing test's fixed total of 50 always passes the points check |
| CreateTest.SecondCreateConflicts | pages/api/test.js:104-131 | after a test is created, the same request is refused as a schedule conflict that lists the new test, and writes nothing |
| CreateTest.SecondResolveConflicts | pages/api/test.js:104-131 | a plan resolved again against the table holding its own Tests row is a schedule conflict that lists it |
| CreateTest.CreatedQuestionsDecode | pages/api/test.js:153-174 | the question rows of a created test decode, in the editor, to the submitted sections |
| CreateTest.StoredRowsDecode | pages/api/test.js:160-172 | the rows of one test, filtered from a table holding others, decode to that test's sections |
| CreateTest.CreatedPromptsDecode | pages/api/test.js:175-190 | the prompt rows of a created writing test, read back by id, decode to the submitted prompts |
| DuplicateTest.Rewrite | pages/api/duplicate-test.js:98-108 | a copied row has the read width, the new id in column A and every other cell of the source |
| DuplicateTest.RewriteAll | pages/api/duplicate-test.js:98-108 | every copied row is rewritten, in order |
| DuplicateTest.RewriteFullRow | pages/api/duplicate-test.js:131-137 | rewriting a full prompt row by field is rewriting its id |
| DuplicateTest.Copy | pages/api/duplicate-test.js:93-108 | one copied row per source row, each carrying the new id in column A |
| DuplicateTest.CopyContent | pages/api/duplicate-test.js:86-148 | the copy fails exactly when the whole content table read for the type is empty; otherwise it appends to that table, and only to it, exactly the copy of the source's rows under the new id; when the table holds no row of the source it appends nothing; any other type copies nothing |
| DuplicateTest.Locate | pages/api/duplicate-test.js:36-64 | an empty Tests read gives 500; a source id with no row gives 404 `source_test_not_found`; otherwise the new id comes from the source's type cell, rendered as `undefined` when the row has none, and the new date, and it is refused with 409 `duplicate_test` exactly when that id is in the table; on success the copy's row takes the new id and date |
| DuplicateTest.Decide | pages/api/duplicate-test.js:5-156 | a method other than POST gives 405, a missing field 400 `missing_required_fields`, an invalid date 400 `invalid_date_format`; then the outcome is the source lookup's refusal, writing nothing, or the copy it leads to; the first write is always one Tests row |
| DuplicateTest.Finish | pages/api/duplicate-test.js:66-156 | the Tests row is written first; a failed content copy leaves only that row and replies 500 |
| DuplicateTest.HandleDuplicate | pages/api/duplicate-test.js:5-157 | the handler's reply is the decision's, and each table gains exactly the rows the decision appends |
| DuplicateTest.WriteCopy | pages/api/duplicate-test.js:66-148 | the Tests append, then the content copy, as the decision lists them |
| DuplicateTest.CopyStoredContent | pages/api/duplicate-test.js:86-148 | the store gains exactly the appends `CopyContent` lists: the source's rows under the new id in the type's content table, or nothing when the whole content table is empty and the copy fails |
| DuplicateTest.CopiedRows | pages/api/duplicate-test.js:93-108 | the copied rows are the source's rows with their ids replaced, in order |
| DuplicateTest.CopiedQuestionsDecodeAlike | pages/api/duplicate-test.js:93-117 | the copy's question rows decode exactly as the source's do |
| DuplicateTest.CopiedPromptsDecodeAlike | pages/api/duplicate-test.js:126-146 | the copy's prompt rows decode exactly as the source's do |
| DuplicateTest.FinishCopies | pages/api/duplicate-test.js:66-148 | once the source is located and the copy succeeds, the reply is the new id and the content table of the type gains exactly the copied rows, the other one nothing |
| DuplicateTest.DuplicateCopiesContent | pages/api/duplicate-test.js:5-148 | a successful duplication chose an id not in Tests, and appends exactly the copy of the source's rows to the type's content table and nothing to the other |
| DuplicateTest.DuplicatedQuestionsDecodeAlike | pages/api/duplicate-test.js:86-118 | after a reading or listening duplication, the question rows read back under the new id decode exactly as the source's, provided every question row belongs to a stored test |
| DuplicateTest.DuplicatedPromptsDecodeAlike | pages/api/duplicate-test.js:119-147 | after a writing duplication, the prompt rows read back under the new id decode exactly as the source's, provided every prompt row belongs to a stored test |
| DuplicateTest.LocatedRow | pages/api/duplicate-test.js:42-83 | a located copy takes its type, id, title, description and total from the source's row of the whole Tests table, the id rendering a missing type as `undefined` |
| DuplicateTest.DuplicateWrites | pages/api/duplicate-test.js:42-83 | a duplicate that writes found its source in Tests and writes one row with the new id and date and the source's type, title, description and total; a failed copy leaves only that row |
| DuplicateTest.DuplicateIgnoresSchedule | pages/api/duplicate-test.js:3 | the decision depends only on the calendar day of the new date: its weekday and distance from now, which creation checks, do not matter |
| Delivery.DeliveryId | pages/api/test-delivery.js:31-32 | the id is the type, an underscore, then the date with no dash left in it |
| Delivery.DeliveryIdIsTestId | pages/api/test-delivery.js:31-32 | the id delivery looks up for a type and date is the id creation gives that test |
| Delivery.Deliver | pages/api/test-delivery.js:4-94 | wrong method gives 405 and a missing parameter 400; no Tests row with the id gives 404 `test_not_found`; a submission from the student gives 403; no content rows give 404 `content_not_found`; otherwise the test is delivered with its id, type, content rows and the total from column G |
| Delivery.StoredTestDelivered | pages/api/test-delivery.js:66-94 | a stored test the student has not taken, with content rows, is delivered with exactly its rows from its content table, clipped to the read width, and its stored total |
| Delivery.SubmittedIsRefused | pages/api/test-delivery.js:45-64 | a student with a Submissions row for an existing test is refused with 403 |
| Delivery.DeliveredContent | pages/api/test-delivery.js:66-80 | the delivered content is the test's rows from its content table, in table order |
| Sheets.Matches | utils/googleSheets.js:44 | a row matches exactly when its first two cells are the username and password |
| Sheets.FindAdmin | utils/googleSheets.js:43-54 | an admin found carries the username asked for |
| Sheets.FindAdminNone | utils/googleSheets.js:43-54 | no admin is found exactly when no row has both the username and the password |
| Sheets.FindAdminFirst | utils/googleSheets.js:43-54 | the admin found is the one on the first row whose username and password both match, with that row's role |
| Sheets.FirstAdminWins | utils/googleSheets.js:44 | rows after a match never change the admin found |
| Sheets.VerifyAdminCredentials | utils/googleSheets.js:34-59 | the read of `AdminAuth!A2:C` and the lookup, returning the username and role of the first match |
| Sheets.ClippedAdmin | utils/googleSheets.js:38-44 | clipping the read to three columns does not change the match |
| Sheets.SubmissionRow | utils/googleSheets.js:67-74 | a Submissions row has six cells: the ids, a score that parses back, `true` exactly for a completed attempt, the responses and the timestamp |
| Sheets.CompletedRows | utils/googleSheets.js:110 | no more rows than the table has |
| Sheets.CompletedMembers | utils/googleSheets.js:110 | a row counts exactly when it is in the table and its completion cell is `true` |
| Sheets.RecordedRowCounted | utils/googleSheets.js:77-110 | a recorded submission is appended to its test's rows, and adds one to the completed count exactly when completed |
| Sheets.UpdateTestStats | utils/googleSheets.js:96-133 | the test's column H becomes the number of its submissions; an unknown test or an empty table changes nothing |
| Sheets.RecordSubmission | utils/googleSheets.js:61-93 | the row is appended to Submissions, then the test's column H is set to its submission count with that row included |
| Sheets.CountAfterRecordPositive | utils/googleSheets.js:106-127 | the count written after recording parses back as the test's row count, which is at least 1 |
| Monitoring.ScoreOf | utils/testMonitoring.js:26 | the score is column C parsed as an integer, or 0 when it does not parse |
| Monitoring.Scores | utils/testMonitoring.js:24-26 | one score per row, parsed from column C, with 0 for text that does not parse |
| Monitoring.RoundedMean | utils/testMonitoring.js:28-30 | the nearest integer to the mean, halves rounded up, or 0 when there are no scores |
| Monitoring.SumBounds | utils/testMonitoring.js:29 | scores within a range sum to between n times its bounds |
| Monitoring.MeanWithinScores | utils/testMonitoring.js:28-30 | the average never leaves the range of the scores |
| Monitoring.MonitorTestExecution | utils/testMonitoring.js:2-38 | the statistics count the test's submissions and its completed ones, and average the completed scores |
| Monitoring.ClippedCompleted | utils/testMonitoring.js:13-22 | reading columns A to F keeps the same completed rows |
| Monitoring.ClippedScores | utils/testMonitoring.js:13-26 | reading columns A to F keeps the same scores |
| Monitoring.MonitorAsWritten | utils/testMonitoring.js:12 | as written, every call ends with zero statistics and one error, even for a test with submissions |
| Listing.ListTests | pages/api/tests.js:4-30 | any method other than GET gives 405; a GET lists one test object per row, in order, from columns A to G |
| Listing.ClippedSummary | pages/api/tests.js:10-21 | the columns past G never show in a test object |
| Listing.ListingIgnoresCount | pages/api/tests.js:10-21 | writing a submission count into column H leaves the listing unchanged |
| Listing.CreatedTestListed | pages/api/tests.js:13-21 | a created test lists with its id, type, title, description, creation time, date and total |
| Submissions.Filter | pages/api/submissions.js:14 | the kept names are exactly those the predicate flags, in their order |
| Submissions.MissingFieldsAsWritten | pages/api/submissions.js:13-14 | as written, nothing is missing only when both ids are non-empty, the score is non-zero, the attempt is completed and responses are present |
| Submissions.NoneMissing | pages/api/submissions.js:16 | the missing list is empty exactly when none of the five fields is flagged |
| Submissions.ZeroScoreRefused | pages/api/submissions.js:14 | as written, a score of 0 is reported as missing |
| Submissions.IncompleteRefused | pages/api/submissions.js:14 | as written, `completed: false` is reported as missing |
| Submissions.MissingFields | pages/api/submissions.js:13-14 | nothing is missing exactly when both ids are non-empty and the score, completion and responses are present |
| Submissions.MissingFieldsAgree | pages/api/submissions.js:13-14 | every field the corrected check reports is reported as written too; the two agree unless the score is 0 or the attempt is incomplete |
| Submissions.CheckSubmission | pages/api/submissions.js:4-20 | as written: wrong method gives 405, a falsy field gives 400 naming the fields, and otherwise the body is accepted as it is, so an accepted body has a non-zero score and is completed |
| Submissions.CompleteBodyRecorded | pages/api/submissions.js:13-22 | as written, a body with every field present is accepted exactly when its score is non-zero and it is completed |
| Submissions.FalsyBodyRefused | pages/api/submissions.js:14 | as written, a score of 0 or `completed: false` is refused with 400 |
| Submissions.HandleSubmission | pages/api/submissions.js:4-24 | as written: a refused body changes nothing; an accepted one adds one Submissions row, sets column H of the test's first Tests row to the test's submission count including the new row (utils/googleSheets.js:118-129), leaves Tests unchanged when the test has no row, and touches no other table |
| Submissions.CheckSubmissionCorrected | pages/api/submissions.js:4-20 | with only absent fields missing: 405, 400 naming the fields, or the body accepted as it is |
| Submissions.CompleteBodyRecordedCorrected | pages/api/submissions.js:13-22 | with only absent fields missing, a body with every field present is accepted, whatever its score and completion |
| Submissions.CorrectedAcceptsMore | pages/api/submissions.js:13-20 | every body the check as written accepts is accepted, unchanged, by the corrected check |
| Submissions.HandleSubmissionCorrected | pages/api/submissions.js:4-24 | the handler over the corrected check: a refused body changes nothing; an accepted one adds one Submissions row, sets column H of the test's first Tests row to the test's submission count including the new row, leaves Tests unchanged when the test has no row, and touches no other table |
| Editors.RemovedRowsDecode | components/QuestionTestEditor.js:112-124 | the rows reported after a question removal decode, in the editor, to the sections it keeps |
| Editors.QuestionEditor.constructor | components/QuestionTestEditor.js:36 | the editor starts with the decoded sections and no change reported |
| Editors.QuestionEditor.UpdateSection | components/QuestionTestEditor.js:40-48 | the section edit is applied and the new sections are reported |
| Editors.QuestionEditor.UpdateQuestion | components/QuestionTestEditor.js:50-58 | the question edit is applied and the new sections are reported |
| Editors.QuestionEditor.AddSection | components/QuestionTestEditor.js:60-74 | a blank section with one question is added, with no report |
| Editors.QuestionEditor.AddQuestion | components/QuestionTestEditor.js:76-86 | a default question is added to the section and the sections are reported |
| Editors.QuestionEditor.RemoveSection | components/QuestionTestEditor.js:88-92 | the section is removed and the sections are reported |
| Editors.QuestionEditor.RemoveQuestion | components/QuestionTestEditor.js:94-129 | nothing happens for a missing section; otherwise the question is removed and the flat rows are reported; no section is ever left empty |
| Editors.WritingEditor.constructor | components/WritingTestEditor.js:15 | the editor starts with the decoded prompts and no change reported |
| Editors.WritingEditor.UpdatePrompt | components/WritingTestEditor.js:18-26 | the prompt edit is applied and the prompts are reported |
| Editors.WritingEditor.AddPrompt | components/WritingTestEditor.js:28-36 | a default prompt is added and reported below three prompts; at three nothing happens |
| Editors.WritingEditor.RemovePrompt | components/WritingTestEditor.js:38-42 | the prompt is removed and the prompts are reported |
| Forms.RecordingTitle | pages/admin/create-test.js:252 | a new listening section is titled `Recording ` followed by its position, counted from 1 |
| Forms.RecordingTitlesDistinct | pages/admin/create-test.js:248-258 | sections added at different positions get different titles |
| Forms.FormPassesShapeChecks | pages/api/test.js:19-77 | a well-shaped form payload is never refused for a missing field, an unknown type, an empty section or a fourth prompt |
| Forms.SectionForm.Reading | pages/admin/create-test.js:9-18 | the reading form starts with empty metadata and one untitled section |
| Forms.SectionForm.Listening | pages/admin/create-test.js:230-237 | the listening form starts with empty metadata and one section titled `First Recording` |
| Forms.SectionForm.SetMetadata | pages/admin/create-test.js:59-80 | a metadata edit changes that field only |
| Forms.SectionForm.AddSection | pages/admin/create-test.js:30-35 | a new section is appended: untitled for reading, titled by its position for listening |
| Forms.SectionForm.AddQuestion | pages/admin/create-test.js:37-46 | a default question is appended to the section |
| Forms.SectionForm.EditSection | pages/admin/create-test.js:98-115 | a section field edit changes that section only |
| Forms.SectionForm.EditQuestion | pages/admin/create-test.js:133-179 | a question field edit changes that question only |
| Forms.SectionForm.ChooseAnswer | pages/admin/create-test.js:160-163 | the chosen option becomes that question's answer |
| Forms.SectionForm.Submit | pages/admin/create-test.js:20-27 | the submitted payload is the type, the metadata and the sections as they stand, and is well shaped |
| Forms.WritingForm.constructor | pages/admin/create-test.js:416-425 | the writing form starts with empty metadata and one default prompt |
| Forms.WritingForm.SetMetadata | pages/admin/create-test.js:447-468 | a metadata edit changes that field only |
| Forms.WritingForm.AddPrompt | pages/admin/create-test.js:536-548 | below three prompts a default prompt is appended and the metadata is kept |
| Forms.WritingForm.EditPrompt | pages/admin/create-test.js:486-523 | a prompt field edit changes that prompt only |
| Forms.WritingForm.Submit | pages/admin/create-test.js:427-434 | the submitted payload is `writing`, the metadata and the prompts as they stand, and is well shaped |
| AdminTests.StatusOf | pages/admin/tests.js:33-40 | a past test is completed; a present or future one is active on today's local day and upcoming otherwise |
| AdminTests.FindGroup | pages/admin/tests.js:42 | the index of the day's group, or none when no group has that day |
| AdminTests.Members | pages/admin/tests.js:29-45 | a day's tests are drawn from the list, so there are never more of them than tests |
| AdminTests.AddTest | pages/admin/tests.js:41-45 | one reduce step adds a group only for a new day, keeps every day and every other day's group, and puts the test last in its day's group |
| AdminTests.Grouped | pages/admin/tests.js:28-46 | there are never more groups than tests |
| AdminTests.GroupedGroups | pages/admin/tests.js:29-47 | the reduce gives one group per day, each holding exactly that day's tests in fetch order, and a group for every day that has a test |
| AdminTests.AddTestGroups | pages/admin/tests.js:42-45 | one reduce step keeps that grouping |
| AdminTests.GroupOrder | pages/admin/tests.js:49-52 | groups with distinct days are strictly ordered by day |
| AdminTests.GroupTests | pages/admin/tests.js:29-47 | the reduce loop computes the grouping |
| AdminTests.FetchTests | pages/admin/tests.js:22-60 | an invalid date gives the error; otherwise the groups are in strictly ascending day order, each is non-empty and holds exactly its day's tests, and every day that has a test has a group |
| AdminTests.MembersOfOtherDay | pages/admin/tests.js:29-45 | a test is shown in its own day's group, and a day with no tests cannot be its day |
| AdminTests.DuplicateDate | pages/admin/tests.js:75-80 | with its dashes removed, the date is the local year, then the two-digit month and day |
| AdminTests.DuplicateFoundOnDelivery | pages/admin/tests.js:75-81 | a duplicate made for today gets the id delivery computes from today's date |

## Left out

- The spreadsheet client, its credentials and the network are left out. The tables are an in-memory `Store.TableStore`. The exceptions the client can throw, and the 500/503 replies they lead to, are not modelled; only failures the code raises itself are.
- The clock is a parameter, and so are `new Date()`, `toISOString` and creation timestamps. A date string is given already parsed: either its year, month and day (`DateInfo`, `ParsedDate`) or nothing when it is invalid. Time zones appear only as the separate UTC and local days of `AdminTests.ParsedDate`.
- JSON covers only what the stored data needs:
  - Question options are a string array, with an encoder and a parser of that form.
  - The submitted responses object is an opaque string.
  - Request bodies arrive as already-parsed datatypes.
- Text.EncodeStrings escapes only `"` and `\`. `JSON.stringify` also escapes control characters such as a newline (`\n`), so the two differ on options that hold them.
- Text.DecodeStrings accepts only the compact form `EncodeStrings` writes. `JSON.parse` also accepts spaces between tokens (`[ "a" ]`) and the other escapes (`"\u0041"`, `"\n"`), which the model rejects as unparsable. It also accepts any other JSON value, such as `5`, `null`, `{}` or `[1,2]`; the editor (components/QuestionTestEditor.js:21) and the preview (components/PreviewModal.js:43) keep such a value as the question's options, while the model treats it as unparsable, so `RowCodec.StrictStep`, `RowCodec.StrictFoldFails` and `PreviewDecode.OptionsOf` do not cover it.
- `parseInt` is modelled as an optional sign followed by leading decimal digits. Whitespace, other radixes and `NaN` arithmetic are left out. Points, word limits and scores are integers, never fractions.
- Monitoring.RoundedMean: the JavaScript mean is a float passed to `Math.round`. The model rounds the exact rational mean, halves up, so floating-point rounding error is not captured.
- Logging, `alert`, `confirm`, routing, `sessionStorage`, rendering and the statistics page components are left out.
- Some source files are not part of this model:
  - `pages/api/auth.js`;
  - `pages/api/tests/[testId].js` (editing and deleting a test);
  - `pages/api/test-stats/[testId].js`;
  - `pages/admin/edit-test/[testId].js`.
- Schedule.ValidateTestScheduling: the 21-day window is a fixed number of milliseconds (21 times 86 400 000). The source adds 21 local calendar days with `setDate` (utils/scheduleValidation.js:5-6), which follows daylight saving, so the two windows differ by the daylight-saving shift, usually one hour, when a change falls inside them.
- AdminTests.DuplicateFoundOnDelivery assumes that the server's `DateInfo` for a `YYYY-MM-DD` string is that calendar day. The source parses such a string as UTC midnight (pages/api/duplicate-test.js:27, pages/api/test.js:37) and then reads the local getters (pages/api/duplicate-test.js:55, pages/api/test.js:115, utils/scheduleValidation.js:11). On a server west of UTC that gives the previous day, so the id differs from the one delivery builds from the string (pages/api/test-delivery.js:31-32) and delivery replies 404. The same assumption holds for the `DateInfo` that creation, duplication and the schedule check receive.
- DuplicateTest.DuplicatedQuestionsDecodeAlike and DuplicateTest.DuplicatedPromptsDecodeAlike require every content row to carry the id of a stored test. The source does not enforce it: a leftover row that already carries the new id, with no Tests row, is read back together with the copy.
- Preview.WordCount and Preview.WordCountAsWritten: `IsSpace` covers the ASCII whitespace characters only. JavaScript's `trim` and `\s` also match Unicode spaces such as the no-break space, which the model counts as word characters.
- Concurrency is not modelled. Two creations can interleave between the conflict read and the append, but each handler here runs alone against the store.
- Preview.PreviewModal.Tick: `setInterval` is modelled as one call per second. The cleanup and the auto-submit at zero are left out.
- Preview.PreviewModal.constructor: the test type must be non-empty, and writing content must be an array. Only an empty or missing type renders the error modal (components/PreviewModal.js:255-259). Writing content that is not an array reaches `ModalContent` unchanged (components/PreviewModal.js:93), where `null` throws on `.length` and a string counts its characters as sections; neither is modelled.
- Editors.QuestionEditor.UpdateSection, UpdateQuestion and AddQuestion require an index in range. The page only calls them for sections and questions it renders.
- Editors.QuestionEditor.constructor and Editors.WritingEditor.constructor: the editors start from a sequence of whole sections or prompts. A hole the strict decoder leaves for a section no row names, and question points that would be `NaN`, cannot be given to them, so the editing of such content is not modelled.
- Editors.QuestionEditor.RemoveQuestion: the null id the editor writes in column A of the flat rows is modelled as the empty string.
- Editors: the source copies its arrays shallowly, so a nested question array can be shared with the previous state. The model replaces values, and that aliasing is not captured.
- Forms.SectionForm and Forms.WritingForm: the edit methods require indices in range, and Forms.WritingForm.AddPrompt requires fewer than three prompts. The page renders the controls only under those conditions.
- Listening sections have no `content` field, and the model stores the empty string that creation writes for them. An absent description is likewise modelled as the empty string.
- Store.Field reads a cell past the end of a row as the empty string, where JavaScript reads `undefined`. The copied Tests row and the reply of DuplicateTest.Locate and DuplicateTest.Decide carry such a cell (type, title, description, total) as the empty string; the Sheets client is taken to write `undefined` as an empty cell, and the reply's `undefined` field, which JSON leaves out, is modelled as empty. The new id is the exception: it renders a missing type as `undefined` (`Store.Rendered`), giving `undefined_YYYYMMDD` as the source does (pages/api/duplicate-test.js:52,55).
- An append whose value list is empty (a writing test with no prompts) is modelled as appending no rows.
- Monitoring.MonitorTestExecution: the statistics' start time and the time of each error are not modelled.
- AdminTests.FetchTests:
  - The request to `/api/tests` and its `Failed to fetch tests` error are left out.
  - The tests are grouped by day value rather than by the `YYYY-MM-DD` key string. For valid calendar dates the two coincide.
  - The page reads the current time once per test, but the model uses one clock for the whole list.
- Sheets.UpdateTestStats: the completed count is computed but never stored, so it does not appear in the new state. A failure inside the update is swallowed, and the only one modelled is an empty Tests table.

## Findings

| source | as written | input that shows it | evidently intended | confidence | as-written member | corrected member |
|---|---|---|---|---|---|---|
| components/PreviewModal.js:66 | section keys are ordered with the default array sort, which compares strings | a test with ten sections: key `10` sorts before `2`, so the tenth section is shown second | sections shown in their stored order, keys compared as numbers | high; not executed | PreviewDecode.TenSectionsMisordered | PreviewDecode.PreviewRoundTripCorrected |
| components/PreviewModal.js:297 | the word count is the number of pieces of the trimmed essay split on whitespace | an empty essay `""` splits into `[""]` and counts one word | a blank essay counts zero words | high; not executed | Preview.BlankEssayCountsOne | Preview.WordCountIsWords |
| utils/testMonitoring.js:12 | `getGoogleSheets` is called but never imported into the file | any test id, for example one with three submissions: the call throws, and the statistics stay at zero with one error | the client is imported and the statistics are computed | high; not executed | Monitoring.MonitorAsWritten | Monitoring.MonitorTestExecution |
| pages/api/submissions.js:14 | a required field counts as missing when it is falsy | a complete body with `score: 0` or `completed: false` is refused with 400 | only absent fields are missing, so zero scores and unfinished attempts are recorded | medium; not executed | Submissions.FalsyBodyRefused | Submissions.CheckSubmissionCorrected |

=== FILE: admin_tests.dfy ===
/**
 * The admin test list: the listed tests are grouped by the calendar day of
 * their test date (the `YYYY-MM-DD` key of its ISO form), each marked
 * completed, active or upcoming against the current time, and the groups
 * are shown in ascending date order. The page also builds today's date as
 * `YYYY-MM-DD` for duplicating a test.
 *
 * Dates are abstract: a parsed date carries its instant, its UTC day (the
 * group key) and its local day (what `toDateString` compares).
 */
module AdminTests {
  import opened Wrappers
  import opened Text
  import opened Sorting
  import opened Schedule
  import opened CreateTest
  import opened Listing

  datatype Day = Day(year: nat, month: nat, day: nat)

  /** `new Date(test.test_date)` when the date is valid. */
  datatype ParsedDate = ParsedDate(instant: int, utcDay: Day, localDay: Day)

  /** `new Date()`: the current instant and the local day it falls on. */
  datatype Clock = Clock(instant: int, localDay: Day)

  datatype Status = Completed | Active | Upcoming

  /** A listed test with its parsed date; `None` is an invalid date. */
  datatype DatedTest = DatedTest(test: TestSummary, date: Option<ParsedDate>)

  /** `{ ...test, status }`. */
  datatype ShownTest = ShownTest(test: TestSummary, status: Status)

  /** The tests of one day, under the day's ISO key. */
  datatype Group = Group(day: Day, tests: seq<ShownTest>)

  function Key(d: Day): string
  {
    IsoDate(d.year, d.month, d.day)
  }

  /** Past instants are completed; otherwise today's are active and later ones upcoming. */
  function StatusOf(d: ParsedDate, now: Clock): (s: Status)
    ensures s == Completed <==> d.instant < now.instant
    ensures s == Active <==> now.instant <= d.instant && d.localDay == now.localDay
    ensures s == Upcoming <==> now.instant <= d.instant && d.localDay != now.localDay
  {
    if d.instant < now.instant then Completed
    else if d.localDay == now.localDay then Active
    else Upcoming
  }

  predicate AllDated(ts: seq<DatedTest>)
  {
    forall k :: 0 <= k < |ts| ==> ts[k].date.Some?
  }

  function Shown(t: DatedTest, now: Clock): ShownTest
    requires t.date.Some?
  {
    ShownTest(t.test, StatusOf(t.date.value, now))
  }

  /** The tests dated `day`, in fetch order, as the page shows them. */
  function Members(ts: seq<DatedTest>, day: Day, now: Clock): (r: seq<ShownTest>)
    ensures |r| <= |ts|
  {
    if ts == [] then []
    else
      var last := ts[|ts| - 1];
      Members(ts[..|ts| - 1], day, now) +
        (if last.date.Some? && last.date.value.utcDay == day then [Shown(last, now)] else [])
  }

  /** The index of the group for `day`, if there is one. */
  function FindGroup(gs: seq<Group>, day: Day): (r: Option<nat>)
    ensures r.Some? ==> r.value < |gs| && gs[r.value].day == day
    ensures r.None? ==> forall i :: 0 <= i < |gs| ==> gs[i].day != day
  {
    if gs == [] then None
    else if gs[0].day == day then Some(0)
    else match FindGroup(gs[1..], day)
      case None => None
      case Some(i) => Some(i + 1)
  }

  /** One step of the reduce: push the test onto its day's list, opening the list if needed. */
  function AddTest(gs: seq<Group>, day: Day, s: ShownTest): (r: seq<Group>)
    ensures |r| == if FindGroup(gs, day).Some? then |gs| else |gs| + 1
    ensures forall i :: 0 <= i < |gs| ==> r[i].day == gs[i].day
    ensures forall i :: 0 <= i < |gs| && gs[i].day != day ==> r[i] == gs[i]
    ensures exists i :: 0 <= i < |r| && r[i].day == day && r[i].tests != [] && r[i].tests[|r[i].tests| - 1] == s
  {
    match FindGroup(gs, day)
    case Some(i) => gs[i := gs[i].(tests := gs[i].tests + [s])]
    case None =>
      var r := gs + [Group(day, [s])];
      assert r[|gs|].tests == [s];
      r
  }

  /** The groups in the order their days were first seen. */
  function Grouped(ts: seq<DatedTest>, now: Clock): (gs: seq<Group>)
    requires AllDated(ts)
    ensures |gs| <= |ts|
  {
    if ts == [] then []
    else
      var last := ts[|ts| - 1];
      AddTest(Grouped(ts[..|ts| - 1], now), last.date.value.utcDay, Shown(last, now))
  }

  /**
   * `gs` groups `ts`: one group per day, each holding exactly that day's
   * tests in fetch order, and every test's day has its group.
   */
  ghost predicate GroupsOf(gs: seq<Group>, ts: seq<DatedTest>, now: Clock)
  {
    && (forall i, j :: 0 <= i < j < |gs| ==> gs[i].day != gs[j].day)
    && (forall i :: 0 <= i < |gs| ==> gs[i].tests == Members(ts, gs[i].day, now) && gs[i].tests != [])
    && (forall day :: Members(ts, day, now) != [] ==> exists i :: 0 <= i < |gs| && gs[i].day == day)
  }

  lemma {:induction false} GroupedGroups(ts: seq<DatedTest>, now: Clock)
    requires AllDated(ts)
    ensures GroupsOf(Grouped(ts, now), ts, now)
  {
    if ts != [] {
      var init, last := ts[..|ts| - 1], ts[|ts| - 1];
      assert ts == init + [last];
      GroupedGroups(init, now);
      AddTestGroups(Grouped(init, now), init, last, now);
    }
  }

  /** A test appended to the list falls into its own day's tests only. */
  lemma MembersSnoc(init: seq<DatedTest>, last: DatedTest, day: Day, now: Clock)
    requires last.date.Some?
    ensures Members(init + [last], day, now) ==
      Members(init, day, now) + (if last.date.value.utcDay == day then [Shown(last, now)] else [])
  {
    assert (init + [last])[..|init|] == init;
  }

  /** One step of the reduce keeps the grouping. */
  lemma AddTestGroups(gs0: seq<Group>, init: seq<DatedTest>, last: DatedTest, now: Clock)
    requires last.date.Some? && GroupsOf(gs0, init, now)
    ensures GroupsOf(AddTest(gs0, last.date.value.utcDay, Shown(last, now)), init + [last], now)
  {
    match FindGroup(gs0, last.date.value.utcDay)
    case Some(i) => AddToGroup(gs0, init, last, now, i);
    case None => OpenGroup(gs0, init, last, now);
  }

  /** A test of a day that has its group joins the end of that group. */
  lemma AddToGroup(gs0: seq<Group>, init: seq<DatedTest>, last: DatedTest, now: Clock, i: nat)
    requires last.date.Some? && GroupsOf(gs0, init, now)
    requires i < |gs0| && gs0[i].day == last.date.value.utcDay
    ensures GroupsOf(gs0[i := gs0[i].(tests := gs0[i].tests + [Shown(last, now)])], init + [last], now)
  {
    var d, s := last.date.value.utcDay, Shown(last, now);
    var ts, gs := init + [last], gs0[i := gs0[i].(tests := gs0[i].tests + [s])];
    forall j | 0 <= j < |gs|
      ensures gs[j].tests == Members(ts, gs[j].day, now) && gs[j].tests != []
    {
      MembersSnoc(init, last, gs[j].day, now);
    }
    forall day | Members(ts, day, now) != []
      ensures exists j :: 0 <= j < |gs| && gs[j].day == day
    {
      MembersSnoc(init, last, day, now);
      if day == d {
        assert gs[i].day == day;
      } else {
        var j :| 0 <= j < |gs0| && gs0[j].day == day;
        assert gs[j].day == day;
      }
    }
  }

  /** A test of a day without a group opens a new group at the end. */
  lemma OpenGroup(gs0: seq<Group>, init: seq<DatedTest>, last: DatedTest, now: Clock)
    requires last.date.Some? && GroupsOf(gs0, init, now)
    requires forall j :: 0 <= j < |gs0| ==> gs0[j].day != last.date.value.utcDay
    ensures GroupsOf(gs0 + [Group(last.date.value.utcDay, [Shown(last, now)])], init + [last], now)
  {
    var d, s := last.date.value.utcDay, Shown(last, now);
    var ts, gs := init + [last], gs0 + [Group(d, [s])];
    assert Members(init, d, now) == [];
    forall j | 0 <= j < |gs|
      ensures gs[j].tests == Members(ts, gs[j].day, now) && gs[j].tests != []
    {
      MembersSnoc(init, last, gs[j].day, now);
    }
    forall day | Members(ts, day, now) != []
      ensures exists j :: 0 <= j < |gs| && gs[j].day == day
    {
      MembersSnoc(init, last, day, now);
      if day == d {
        assert gs[|gs0|].day == day;
      } else {
        var j :| 0 <= j < |gs0| && gs0[j].day == day;
        assert gs[j].day == day;
      }
    }
  }

  /** The group order: ascending calendar day. */
  predicate DayBefore(a: Day, b: Day)
  {
    a.year < b.year || (a.year == b.year && (a.month < b.month || (a.month == b.month && a.day < b.day)))
  }

  function GroupBefore(a: Group, b: Group): bool
  {
    DayBefore(a.day, b.day)
  }

  /** Groups with distinct days are strictly ordered by their days. */
  lemma GroupOrder(gs: seq<Group>)
    requires forall i, j :: 0 <= i < j < |gs| ==> gs[i].day != gs[j].day
    ensures StrictTotalOn(GroupBefore, gs)
    ensures Distinct(gs)
  {
    forall a, b | a in gs && b in gs && a != b
      ensures GroupBefore(a, b) || GroupBefore(b, a)
    {
      var i :| 0 <= i < |gs| && gs[i] == a;
      var j :| 0 <= j < |gs| && gs[j] == b;
      assert a.day != b.day by {
        if i < j {
        } else {
          assert j < i;
        }
      }
    }
  }

  /**
   * The reduce of `fetchTests`, pushing each test onto its day's list in
   * fetch order.
   */
  method GroupTests(ts: seq<DatedTest>, now: Clock) returns (groups: seq<Group>)
    requires AllDated(ts)
    ensures groups == Grouped(ts, now)
  {
    groups := [];
    for i := 0 to |ts|
      invariant groups == Grouped(ts[..i], now)
    {
      var t := ts[i];
      var day := t.date.value.utcDay;
      assert ts[..i + 1][..i] == ts[..i];
      match FindGroup(groups, day)
      case Some(k) =>
        groups := groups[k := groups[k].(tests := groups[k].tests + [Shown(t, now)])];
      case None =>
        groups := groups + [Group(day, [Shown(t, now)])];
    }
    assert ts[..|ts|] == ts;
  }

  /**
   * `fetchTests` after the listing arrives: an invalid date makes the ISO
   * conversion throw and the page shows the error; otherwise the groups,
   * one per day, each with that day's tests in fetch order, sorted by day.
   */
  method FetchTests(ts: seq<DatedTest>, now: Clock) returns (r: Result<seq<Group>, string>)
    ensures r.Err? <==> !AllDated(ts)
    ensures r.Ok? ==> forall i, j :: 0 <= i < j < |r.value| ==> DayBefore(r.value[i].day, r.value[j].day)
    ensures r.Ok? ==> forall i :: 0 <= i < |r.value| ==> r.value[i].tests == Members(ts, r.value[i].day, now)
    ensures r.Ok? ==> forall i :: 0 <= i < |r.value| ==> r.value[i].tests != []
    ensures r.Ok? ==> forall day :: Members(ts, day, now) != [] ==>
      exists i :: 0 <= i < |r.value| && r.value[i].day == day
  {
    if !AllDated(ts) {
      return Err("Invalid time value");
    }
    var groups := GroupTests(ts, now);
    GroupedGroups(ts, now);
    GroupOrder(groups);
    SortByIncreasing(groups, GroupBefore);
    var sorted := SortBy(groups, GroupBefore);
    assert multiset(sorted) == multiset(groups);
    forall i | 0 <= i < |sorted|
      ensures sorted[i].tests == Members(ts, sorted[i].day, now) && sorted[i].tests != []
    {
      assert sorted[i] in multiset(groups);
    }
    forall day | Members(ts, day, now) != []
      ensures exists i :: 0 <= i < |sorted| && sorted[i].day == day
    {
      var j :| 0 <= j < |groups| && groups[j].day == day;
      assert groups[j] in multiset(sorted);
    }
    r := Ok(sorted);
  }

  /** Each test is shown in its own day's group, and a day with no tests is no test's day. */
  lemma {:induction false} MembersOfOtherDay(ts: seq<DatedTest>, day: Day, now: Clock, k: nat)
    requires k < |ts| && ts[k].date.Some?
    ensures ts[k].date.value.utcDay == day ==> Shown(ts[k], now) in Members(ts, day, now)
    ensures Members(ts, day, now) == [] ==> ts[k].date.value.utcDay != day
  {
    if k < |ts| - 1 {
      MembersOfOtherDay(ts[..|ts| - 1], day, now, k);
    }
  }

  /** `duplicateTest`'s target date: today, as `YYYY-MM-DD`. */
  function DuplicateDate(now: Clock): (s: string)
    ensures Without(s, '-') == NatToString(now.localDay.year) + Pad2(now.localDay.month) + Pad2(now.localDay.day)
  {
    var d := now.localDay;
    IsoDateWithoutDashes(d.year, d.month, d.day);
    Key(d)
  }

  /**
   * The test a duplicate to today creates is the one delivery finds for
   * today's date string.
   */
  lemma DuplicateFoundOnDelivery(testType: string, now: Clock, parsed: DateInfo)
    requires parsed.year == now.localDay.year && parsed.month == now.localDay.month && parsed.day == now.localDay.day
    ensures TestId(testType, parsed) == testType + "_" + Without(DuplicateDate(now), '-')
  {
    IsoDateWithoutDashes(parsed.year, parsed.month, parsed.day);
  }
}

=== FILE: content.dfy ===
/**
 * The nested test content the editors and forms work on: sections of
 * multiple-choice questions (reading and listening) and writing prompts,
 * with the pure list edits they share.
 */
module Content {
  import opened Wrappers

  datatype Question = Question(text: string, options: seq<string>, correctAnswer: string, points: int)

  datatype Section = Section(title: string, content: string, questions: seq<Question>)

  datatype Prompt = Prompt(promptType: string, text: string, wordLimit: int)

  /** The question every "add" creates: empty text, four empty options, one point. */
  const DefaultQuestion := Question("", ["", "", "", ""], "", 1)

  /** The prompt every "add prompt" creates. */
  const DefaultPrompt := Prompt("argumentative", "", 500)

  /** A writing test has at most this many prompts. */
  const MaxPrompts := 3

  /** A new section: the given title, no passage, one default question. */
  function NewSection(title: string): (s: Section)
    ensures s.title == title && s.content == "" && s.questions == [DefaultQuestion]
  {
    Section(title, "", [DefaultQuestion])
  }

  /** No section has been left without questions. */
  predicate NoEmptySection(ss: seq<Section>)
  {
    forall k :: 0 <= k < |ss| ==> ss[k].questions != []
  }

  /** A `{ ...section, [field]: value }` edit. */
  datatype SectionEdit = SetTitle(title: string) | SetContent(content: string)

  /** A `{ ...question, [field]: value }` edit; `SetOption` writes one existing option. */
  datatype QuestionEdit =
    | SetText(text: string)
    | SetOptions(options: seq<string>)
    | SetOption(index: nat, option: string)
    | SetCorrectAnswer(answer: string)
    | SetPoints(points: int)

  datatype PromptEdit = SetType(promptType: string) | SetPromptText(text: string) | SetWordLimit(wordLimit: int)

  function ApplySectionEdit(s: Section, e: SectionEdit): Section
  {
    match e
    case SetTitle(t) => s.(title := t)
    case SetContent(c) => s.(content := c)
  }

  /** An edit that applies to `q` (an option edit needs that option to exist). */
  predicate Applies(q: Question, e: QuestionEdit)
  {
    e.SetOption? ==> e.index < |q.options|
  }

  function ApplyQuestionEdit(q: Question, e: QuestionEdit): Question
    requires Applies(q, e)
  {
    match e
    case SetText(t) => q.(text := t)
    case SetOptions(o) => q.(options := o)
    case SetOption(k, o) => q.(options := q.options[k := o])
    case SetCorrectAnswer(a) => q.(correctAnswer := a)
    case SetPoints(p) => q.(points := p)
  }

  function ApplyPromptEdit(p: Prompt, e: PromptEdit): Prompt
  {
    match e
    case SetType(t) => p.(promptType := t)
    case SetPromptText(t) => p.(text := t)
    case SetWordLimit(w) => p.(wordLimit := w)
  }

  /** `xs.filter((_, k) => k !== i)`: every element except the one at index `i`. */
  function RemoveAt<T>(xs: seq<T>, i: int): (r: seq<T>)
    ensures 0 <= i < |xs| ==> r == xs[..i] + xs[i + 1..]
    ensures !(0 <= i < |xs|) ==> r == xs
  {
    if xs == [] then []
    else
      var init, last := xs[..|xs| - 1], xs[|xs| - 1];
      assert xs == init + [last];
      RemoveAt(init, i) + (if i == |xs| - 1 then [] else [last])
  }

  /** `updateSection`: one field of section `i` changes; nothing else does. */
  function UpdateSection(ss: seq<Section>, i: nat, e: SectionEdit): (r: seq<Section>)
    requires i < |ss|
    ensures |r| == |ss|
    ensures forall k :: 0 <= k < |ss| && k != i ==> r[k] == ss[k]
    ensures r[i].questions == ss[i].questions
    ensures r[i].title == (if e.SetTitle? then e.title else ss[i].title)
    ensures r[i].content == (if e.SetContent? then e.content else ss[i].content)
  {
    ss[i := ApplySectionEdit(ss[i], e)]
  }

  /** `updateQuestion`: one field of question `j` of section `i` changes; nothing else does. */
  function UpdateQuestion(ss: seq<Section>, i: nat, j: nat, e: QuestionEdit): (r: seq<Section>)
    requires i < |ss| && j < |ss[i].questions|
    requires Applies(ss[i].questions[j], e)
    ensures |r| == |ss|
    ensures forall k :: 0 <= k < |ss| && k != i ==> r[k] == ss[k]
    ensures r[i].title == ss[i].title && r[i].content == ss[i].content
    ensures |r[i].questions| == |ss[i].questions|
    ensures forall k :: 0 <= k < |ss[i].questions| && k != j ==> r[i].questions[k] == ss[i].questions[k]
    ensures var q, q' := ss[i].questions[j], r[i].questions[j];
      && q'.text == (if e.SetText? then e.text else q.text)
      && q'.correctAnswer == (if e.SetCorrectAnswer? then e.answer else q.correctAnswer)
      && q'.points == (if e.SetPoints? then e.points else q.points)
      && q'.options == (match e
                        case SetOptions(o) => o
                        case SetOption(k, o) => q.options[k := o]
                        case _ => q.options)
  {
    var s := ss[i];
    ss[i := s.(questions := s.questions[j := ApplyQuestionEdit(s.questions[j], e)])]
  }

  /** Choosing option `k` as the answer copies that option's current text. */
  function SelectAnswer(ss: seq<Section>, i: nat, j: nat, k: nat): (r: seq<Section>)
    requires i < |ss| && j < |ss[i].questions| && k < |ss[i].questions[j].options|
    ensures |r| == |ss| && |r[i].questions| == |ss[i].questions|
    ensures r[i].title == ss[i].title && r[i].content == ss[i].content
    ensures forall k' :: 0 <= k' < |ss| && k' != i ==> r[k'] == ss[k']
    ensures forall q :: 0 <= q < |ss[i].questions| && q != j ==> r[i].questions[q] == ss[i].questions[q]
    ensures r[i].questions[j] == ss[i].questions[j].(correctAnswer := ss[i].questions[j].options[k])
  {
    UpdateQuestion(ss, i, j, SetCorrectAnswer(ss[i].questions[j].options[k]))
  }

  /** `addQuestion`: one default question at the end of section `i` only. */
  function AddQuestion(ss: seq<Section>, i: nat): (r: seq<Section>)
    requires i < |ss|
    ensures |r| == |ss|
    ensures forall k :: 0 <= k < |ss| && k != i ==> r[k] == ss[k]
    ensures r[i].title == ss[i].title && r[i].content == ss[i].content
    ensures r[i].questions == ss[i].questions + [DefaultQuestion]
  {
    ss[i := ss[i].(questions := ss[i].questions + [DefaultQuestion])]
  }

  /**
   * `removeQuestion`: `None` when there is no section `i` (the call does
   * nothing); otherwise question `j` is gone from section `i`, and a section
   * left empty gets one default question back.
   */
  function RemoveQuestion(ss: seq<Section>, i: int, j: int): (r: Option<seq<Section>>)
    ensures r.Some? <==> 0 <= i < |ss|
    ensures r.Some? ==> |r.value| == |ss|
    ensures r.Some? ==> forall k :: 0 <= k < |ss| && k != i ==> r.value[k] == ss[k]
    ensures r.Some? ==> r.value[i].title == ss[i].title && r.value[i].content == ss[i].content
    ensures r.Some? ==> 1 <= |r.value[i].questions|
    ensures r.Some? && 0 <= j < |ss[i].questions| && 1 < |ss[i].questions| ==>
      r.value[i].questions == ss[i].questions[..j] + ss[i].questions[j + 1..]
    ensures r.Some? && !(0 <= j < |ss[i].questions|) && ss[i].questions != [] ==>
      r.value[i].questions == ss[i].questions
    ensures r.Some? && |ss[i].questions| <= 1 && (ss[i].questions == [] || j == 0) ==>
      r.value[i].questions == [DefaultQuestion]
  {
    if 0 <= i < |ss| then
      var kept := RemoveAt(ss[i].questions, j);
      var questions := if |kept| == 0 then [DefaultQuestion] else kept;
      Some(ss[i := ss[i].(questions := questions)])
    else None
  }

  /** `updatePrompt`: one field of prompt `i` changes; nothing else does. */
  function UpdatePrompt(ps: seq<Prompt>, i: nat, e: PromptEdit): (r: seq<Prompt>)
    requires i < |ps|
    ensures |r| == |ps|
    ensures forall k :: 0 <= k < |ps| && k != i ==> r[k] == ps[k]
    ensures r[i].promptType == (if e.SetType? then e.promptType else ps[i].promptType)
    ensures r[i].text == (if e.SetPromptText? then e.text else ps[i].text)
    ensures r[i].wordLimit == (if e.SetWordLimit? then e.wordLimit else ps[i].wordLimit)
  {
    ps[i := ApplyPromptEdit(ps[i], e)]
  }

  /** `addPrompt`: a default prompt is added only below the cap of three. */
  function AddPrompt(ps: seq<Prompt>): (r: seq<Prompt>)
    ensures |ps| < MaxPrompts ==> r == ps + [DefaultPrompt]
    ensures MaxPrompts <= |ps| ==> r == ps
    ensures |r| <= if |ps| < MaxPrompts then MaxPrompts else |ps|
  {
    if |ps| >= MaxPrompts then ps else ps + [DefaultPrompt]
  }

  /** Starting at or below the cap, no sequence of additions exceeds it. */
  lemma {:induction false} AddPromptCapped(ps: seq<Prompt>, n: nat)
    requires |ps| <= MaxPrompts
    ensures |AddPromptTimes(ps, n)| <= MaxPrompts
    ensures n >= MaxPrompts - |ps| ==> |AddPromptTimes(ps, n)| == MaxPrompts
  {
    if n > 0 {
      AddPromptCapped(ps, n - 1);
    }
  }

  function AddPromptTimes(ps: seq<Prompt>, n: nat): seq<Prompt>
  {
    if n == 0 then ps else AddPrompt(AddPromptTimes(ps, n - 1))
  }
}

=== FILE: create.dfy ===
/**
 * The create-test endpoint: a request passes a cascade of checks (method,
 * required fields, type, date, content shape, points, schedule, conflicts,
 * duplicate id) and, only when all pass, one row goes to Tests and the
 * content rows go to Questions or WritingPrompts.
 */
module CreateTest {
  import opened Wrappers
  import opened Text
  import opened Store
  import opened Content
  import opened RowCodec
  import opened Points
  import opened Schedule

  /**
   * `testMetadata`: title and description (an absent description is the
   * empty string), the date as sent, and the date parsed from it (`None`
   * for an invalid date).
   */
  datatype Metadata = Metadata(title: string, description: string, testDate: string, parsedDate: Option<DateInfo>)

  /** The `sections` array: sections of questions or writing prompts. */
  datatype Body = SectionList(sections: seq<Section>) | PromptList(prompts: seq<Prompt>)

  /** The request body; an absent or empty `type` is the empty string. */
  datatype CreateRequest = CreateRequest(testType: string, metadata: Option<Metadata>, body: Option<Body>)

  datatype CreateReply =
    | Created(testId: string)
    | Refused(status: nat, error: string)
    | ScheduleConflict(conflicts: seq<Conflict>)

  /** The reply and the appends, in call order, that one request causes. */
  datatype CreateOutcome = CreateOutcome(reply: CreateReply, writes: seq<Append>)

  predicate IsTestType(t: string)
  {
    t == "reading" || t == "listening" || t == "writing"
  }

  /** The body as a list of sections; a prompt has no `questions`. */
  function AsSections(body: Body): (r: seq<Section>)
    ensures body.SectionList? ==> r == body.sections
    ensures body.PromptList? ==> |r| == |body.prompts| && forall k :: 0 <= k < |r| ==> r[k].questions == []
  {
    match body
    case SectionList(ss) => ss
    case PromptList(ps) => seq(|ps|, _ => Section("", "", []))
  }

  function BodyLength(body: Body): nat
  {
    match body
    case SectionList(ss) => |ss|
    case PromptList(ps) => |ps|
  }

  /** Some section lacks questions. */
  predicate HasEmptySection(ss: seq<Section>)
  {
    exists k :: 0 <= k < |ss| && ss[k].questions == []
  }

  /** The id of a test: its type, an underscore and the date as YYYYMMDD. */
  function TestId(testType: string, d: DateInfo): (id: string)
    ensures |testType| < |id| && id[..|testType|] == testType && id[|testType|] == '_'
    ensures forall i :: |testType| < i < |id| ==> IsDigit(id[i])
  {
    testType + "_" + DateDigits(d)
  }

  /** `YYYYMMDD`: the year, then the zero-padded month and day. */
  function DateDigits(d: DateInfo): string
  {
    NatToString(d.year) + Pad2(d.month) + Pad2(d.day)
  }

  /** The Tests row: id, type, title, description, creation time, date, total points. */
  function TestsRow(id: string, testType: string, m: Metadata, createdAt: string, total: int): (r: Row)
    ensures |r| == 7 && r[0] == id && r[1] == testType && r[5] == m.testDate
    ensures ParseInt(r[6]) == Some(total)
  {
    ParseIntToString(total);
    [id, testType, m.title, m.description, createdAt, m.testDate, IntToString(total)]
  }

  /** The prompt row the writing branch builds from an element that is not a prompt: only id and ordinal. */
  function BlankPromptRow(id: string, k: nat): Row
  {
    [id, NatToString(k + 1), "", "", ""]
  }

  /** The content rows of a test of `testType` (one of the three types). */
  function ContentRows(id: string, testType: string, body: Body): (r: seq<Row>)
    ensures forall k :: 0 <= k < |r| ==> Field(r[k], 0) == id
  {
    if testType == "writing" then
      match body
      case PromptList(ps) => PromptRows(id, ps)
      case SectionList(ss) => seq(|ss|, k requires 0 <= k < |ss| => BlankPromptRow(id, k))
    else QuestionRows(id, AsSections(body))
  }

  function ContentTable(testType: string): Table
  {
    if testType == "writing" then WritingPrompts else Questions
  }

  /** What a request that passes every check made before the store is read will write. */
  datatype Plan = Plan(testType: string, testDate: string, testId: string, testsRow: Row, content: Append)

  /** The type, the metadata and the sections are all sent. */
  predicate FieldsPresent(req: CreateRequest)
  {
    req.testType != "" && req.metadata.Some? && req.body.Some?
  }

  /** The request names one of the three types and a date that parses. */
  predicate TypeAndDateValid(req: CreateRequest)
  {
    FieldsPresent(req) && IsTestType(req.testType) && req.metadata.value.parsedDate.Some?
  }

  /** No empty section for a reading or listening test, at most three prompts for a writing test. */
  predicate ContentShaped(req: CreateRequest)
    requires FieldsPresent(req)
  {
    if req.testType == "writing" then BodyLength(req.body.value) <= MaxPrompts
    else !HasEmptySection(AsSections(req.body.value))
  }

  /** The total the handler stores: 50 for writing, otherwise the sum of the question points. */
  function PlanTotal(req: CreateRequest): int
    requires FieldsPresent(req)
  {
    if req.testType == "writing" then WritingTotal else TotalPoints(AsSections(req.body.value))
  }

  /** The points validation of the content with the total the handler computed. */
  predicate PointsValid(req: CreateRequest)
    requires FieldsPresent(req)
  {
    var content := if req.testType == "writing" then [] else AsSections(req.body.value);
    ValidateTestPoints(req.testType, PlanTotal(req), content).Ok?
  }

  /** The scheduling flags of the parsed date. */
  function Flags(req: CreateRequest, now: int): ScheduleFlags
    requires TypeAndDateValid(req)
  {
    ValidateTestScheduling(req.metadata.value.parsedDate.value, now)
  }

  /** Every check before the store is read passes. */
  predicate PassesChecks(httpMethod: string, req: CreateRequest, now: int)
  {
    && httpMethod == "POST" && TypeAndDateValid(req) && ContentShaped(req) && PointsValid(req)
    && Flags(req, now).isInFuture && Flags(req, now).isWithinThreeWeeks && Flags(req, now).isOnValidDay
  }

  /**
   * The checks before the store is read, in the handler's order. A
   * points failure is thrown and surfaces as a 500.
   */
  function Precheck(httpMethod: string, req: CreateRequest, now: int, createdAt: string): (r: Result<Plan, CreateReply>)
    ensures httpMethod != "POST" ==> r == Err(Refused(405, "method_not_allowed"))
    ensures httpMethod == "POST" && !FieldsPresent(req) ==> r == Err(Refused(400, "missing_required_fields"))
    ensures httpMethod == "POST" && FieldsPresent(req) && !IsTestType(req.testType) ==>
      r == Err(Refused(400, "invalid_test_type"))
    ensures httpMethod == "POST" && FieldsPresent(req) && IsTestType(req.testType) && req.metadata.value.parsedDate.None? ==>
      r == Err(Refused(400, "invalid_date_format"))
    ensures httpMethod == "POST" && TypeAndDateValid(req) && !ContentShaped(req) ==>
      r == Err(Refused(400, if req.testType == "writing" then "too_many_prompts" else "invalid_questions"))
    ensures httpMethod == "POST" && TypeAndDateValid(req) && ContentShaped(req) && !PointsValid(req) ==>
      r == Err(Refused(500, "internal_server_error"))
    ensures httpMethod == "POST" && TypeAndDateValid(req) && ContentShaped(req) && PointsValid(req) ==>
      var flags := Flags(req, now);
      && (!flags.isInFuture ==> r == Err(Refused(400, "invalid_date")))
      && (flags.isInFuture && !flags.isWithinThreeWeeks ==> r == Err(Refused(400, "date_too_far")))
      && (flags.isInFuture && flags.isWithinThreeWeeks && !flags.isOnValidDay ==> r == Err(Refused(400, "invalid_day")))
    ensures r.Ok? <==> PassesChecks(httpMethod, req, now)
    ensures r.Err? ==> !r.error.Created?
    ensures r.Ok? ==> var row := r.value.testsRow;
      && req.metadata.Some?
      && |row| == 7 && row[0] == r.value.testId && row[1] == r.value.testType
      && row[2] == req.metadata.value.title && row[5] == r.value.testDate
  {
    if httpMethod != "POST" then Err(Refused(405, "method_not_allowed"))
    else if !FieldsPresent(req) then Err(Refused(400, "missing_required_fields"))
    else if !IsTestType(req.testType) then Err(Refused(400, "invalid_test_type"))
    else if req.metadata.value.parsedDate.None? then Err(Refused(400, "invalid_date_format"))
    else
      var t, m, body := req.testType, req.metadata.value, req.body.value;
      var date := m.parsedDate.value;
      if t != "writing" && HasEmptySection(AsSections(body)) then Err(Refused(400, "invalid_questions"))
      else if t == "writing" && BodyLength(body) > MaxPrompts then Err(Refused(400, "too_many_prompts"))
      else if !PointsValid(req) then Err(Refused(500, "internal_server_error"))
      else
        var flags := Flags(req, now);
        if !flags.isInFuture then Err(Refused(400, "invalid_date"))
        else if !flags.isWithinThreeWeeks then Err(Refused(400, "date_too_far"))
        else if !flags.isOnValidDay then Err(Refused(400, "invalid_day"))
        else
          var id := TestId(t, date);
          Ok(Plan(t, m.testDate, id, TestsRow(id, t, m, createdAt, PlanTotal(req)),
                  Append(ContentTable(t), ContentRows(id, t, body))))
  }

  /** The store checks for a request that passed the prechecks, against the Tests table as it stands. */
  function Resolve(tests: seq<Row>, plan: Plan): (o: CreateOutcome)
    ensures o.reply.ScheduleConflict? <==>
      exists k :: 0 <= k < |tests| && ConflictsWith(tests[k], plan.testDate, plan.testType)
    ensures o.reply.ScheduleConflict? ==> o.reply.conflicts == ConflictingTests(tests, plan.testDate, plan.testType)
    ensures o.reply.Refused? ==> o.reply == Refused(409, "duplicate_test") && FindIndex(tests, plan.testId).Some?
    ensures o.reply.Created? <==> !o.reply.ScheduleConflict? && FindIndex(tests, plan.testId).None?
    ensures o.reply.Created? ==>
      o.reply.testId == plan.testId && o.writes == [Append(Tests, [plan.testsRow]), plan.content]
    ensures !o.reply.Created? ==> o.writes == []
  {
    var report := CheckScheduleConflicts(tests, plan.testDate, plan.testType);
    if report.hasConflict then CreateOutcome(ScheduleConflict(report.conflictingTests), [])
    else if FindIndex(tests, plan.testId).Some? then CreateOutcome(Refused(409, "duplicate_test"), [])
    else CreateOutcome(Created(plan.testId), [Append(Tests, [plan.testsRow]), plan.content])
  }

  /** The whole request against the Tests table as it stands. */
  function Decide(tests: seq<Row>, httpMethod: string, req: CreateRequest, now: int, createdAt: string): (r: CreateOutcome)
    ensures r.writes == [] <==> !r.reply.Created?
  {
    match Precheck(httpMethod, req, now, createdAt)
    case Err(reply) => CreateOutcome(reply, [])
    case Ok(plan) => Resolve(tests, plan)
  }

  /**
   * The handler: the checks, two reads of `Tests!A2:G`, then the Tests
   * append and the content append. `now` and `createdAt` are the clock.
   */
  method HandleCreate(store: TableStore, httpMethod: string, req: CreateRequest, now: int, createdAt: string)
    returns (reply: CreateReply)
    modifies store
    ensures var d := Decide(old(store.Rows(Tests)), httpMethod, req, now, createdAt);
      && reply == d.reply
      && forall t :: store.Rows(t) == old(store.Rows(t)) + Appended(d.writes, t)
  {
    var pre := Precheck(httpMethod, req, now, createdAt);
    if pre.Err? {
      return pre.error;
    }
    reply := Commit(store, pre.value);
  }

  /**
   * The part of the handler that touches the store: the conflict lookup
   * and the duplicate lookup over `Tests!A2:G`, then the two appends.
   */
  method Commit(store: TableStore, plan: Plan) returns (reply: CreateReply)
    modifies store
    ensures var d := Resolve(old(store.Rows(Tests)), plan);
      && reply == d.reply
      && forall t :: store.Rows(t) == old(store.Rows(t)) + Appended(d.writes, t)
  {
    var rows := store.GetRange(Tests, 7);
    assert rows == ClipAll(store.Rows(Tests), 7);
    ClippedConflicts(store.Rows(Tests), plan.testDate, plan.testType);
    var conflicts := CheckScheduleConflicts(rows, plan.testDate, plan.testType);
    if conflicts.hasConflict {
      return ScheduleConflict(conflicts.conflictingTests);
    }
    var existing := store.GetRange(Tests, 7);
    assert existing == ClipAll(store.Rows(Tests), 7);
    ClippedFindIndex(store.Rows(Tests), plan.testId, 7);
    if FindIndex(existing, plan.testId).Some? {
      return Refused(409, "duplicate_test");
    }
    store.AppendAll([Append(Tests, [plan.testsRow]), plan.content]);
    reply := Created(plan.testId);
  }

  /** `padStart(2, '0')` of a month or day number gives exactly two digits. */
  lemma Pad2Length(n: nat)
    requires n < 100
    ensures |Pad2(n)| == 2
  {
    if n >= 10 {
      assert NatToString(n) == NatToString(n / 10) + [DigitChar(n % 10)];
    }
  }

  /**
   * Two tests of one type get the same id only on the same calendar day:
   * the id determines the year, month and day.
   */
  lemma TestIdDeterminesDate(testType: string, d1: DateInfo, d2: DateInfo)
    requires d1.month < 100 && d1.day < 100 && d2.month < 100 && d2.day < 100
    requires TestId(testType, d1) == TestId(testType, d2)
    ensures d1.year == d2.year && d1.month == d2.month && d1.day == d2.day
  {
    Pad2Length(d1.month);
    Pad2Length(d1.day);
    Pad2Length(d2.month);
    Pad2Length(d2.day);
    var p := testType + "_";
    var y1, y2 := NatToString(d1.year), NatToString(d2.year);
    var m1, m2, e1, e2 := Pad2(d1.month), Pad2(d2.month), Pad2(d1.day), Pad2(d2.day);
    assert DateDigits(d1) == TestId(testType, d1)[|p|..];
    assert DateDigits(d2) == TestId(testType, d2)[|p|..];
    SplitDateDigits(y1, m1, e1, y2, m2, e2);
    NatToStringInjective(d1.year, d2.year);
  }

  /** Two year-month-day strings with two-character months and days split the same way. */
  lemma SplitDateDigits(y1: string, m1: string, e1: string, y2: string, m2: string, e2: string)
    requires |m1| == |m2| == |e1| == |e2| == 2
    requires y1 + m1 + e1 == y2 + m2 + e2
    ensures y1 == y2 && m1 == m2 && e1 == e2
  {
    var a, b := y1 + m1 + e1, y2 + m2 + e2;
    assert |y1| == |y2|;
    assert y1 == a[..|y1|] && y2 == b[..|y2|];
    assert m1 == a[|y1|..|y1| + 2] && m2 == b[|y2|..|y2| + 2];
    assert e1 == a[|y1| + 2..] && e2 == b[|y2| + 2..];
  }

  /**
   * A created test passed every check, and the handler appended exactly one
   * seven-cell Tests row for it, then its content rows, all under its id
   * `type_YYYYMMDD`.
   */
  lemma CreatedWrites(tests: seq<Row>, httpMethod: string, req: CreateRequest, now: int, createdAt: string)
    requires Decide(tests, httpMethod, req, now, createdAt).reply.Created?
    ensures httpMethod == "POST" && IsTestType(req.testType)
    ensures req.metadata.Some? && req.body.Some? && req.metadata.value.parsedDate.Some?
    ensures var m, d := req.metadata.value, req.metadata.value.parsedDate.value;
      && now < d.instant <= WindowEnd(now) && d.weekday == Friday
      && !CheckScheduleConflicts(tests, m.testDate, req.testType).hasConflict
      && FindIndex(tests, TestId(req.testType, d)).None?
    ensures req.testType != "writing" ==> !HasEmptySection(AsSections(req.body.value))
    ensures req.testType == "writing" ==> BodyLength(req.body.value) <= MaxPrompts
    ensures var o, m, t := Decide(tests, httpMethod, req, now, createdAt), req.metadata.value, req.testType;
      var id := TestId(t, m.parsedDate.value);
      && o.reply.testId == id
      && |o.writes| == 2
      && o.writes[0].table == Tests && |o.writes[0].rows| == 1
      && o.writes[0].rows[0] == TestsRow(id, t, m, createdAt,
                                         if t == "writing" then WritingTotal else TotalPoints(AsSections(req.body.value)))
      && o.writes[1] == Append(ContentTable(t), ContentRows(id, t, req.body.value))
  {
  }

  /**
   * The converse of `CreatedWrites`: a request that passes every check,
   * against a Tests table with no conflict and without its id, is created.
   */
  lemma CheckedRequestCreated(tests: seq<Row>, httpMethod: string, req: CreateRequest, now: int, createdAt: string)
    requires PassesChecks(httpMethod, req, now)
    requires !CheckScheduleConflicts(tests, req.metadata.value.testDate, req.testType).hasConflict
    requires FindIndex(tests, TestId(req.testType, req.metadata.value.parsedDate.value)).None?
    ensures Decide(tests, httpMethod, req, now, createdAt).reply == Created(TestId(req.testType, req.metadata.value.parsedDate.value))
  {
    var plan := Precheck(httpMethod, req, now, createdAt).value;
    assert plan.testDate == req.metadata.value.testDate && plan.testType == req.testType;
    assert plan.testId == TestId(req.testType, req.metadata.value.parsedDate.value);
    DecideResolves(tests, httpMethod, req, now, createdAt);
  }

  /**
   * The sum check inside the points validation never fails on creation,
   * because the handler computes the total from the same content; a
   * reading or listening request that reaches it is refused with a 500
   * exactly when some question is worth less than one point.
   */
  lemma PointsFailureIsLowQuestion(httpMethod: string, req: CreateRequest, now: int, createdAt: string)
    requires httpMethod == "POST" && req.metadata.Some? && req.body.Some?
    requires req.testType == "reading" || req.testType == "listening"
    requires req.metadata.value.parsedDate.Some?
    requires !HasEmptySection(AsSections(req.body.value))
    ensures var ss := AsSections(req.body.value);
      Precheck(httpMethod, req, now, createdAt) == Err(Refused(500, "internal_server_error")) <==>
        exists s, q :: 0 <= s < |ss| && 0 <= q < |ss[s].questions| && ss[s].questions[q].points < 1
  {
    var ss := AsSections(req.body.value);
    var v := ValidateTestPoints(req.testType, TotalPoints(ss), ss);
    assert v == ValidateScored(TotalPoints(ss), ss);
    ScoredAccepted(TotalPoints(ss), ss);
  }

  /** A writing request is never refused for its points: its total is fixed at 50. */
  lemma WritingPointsAccepted(httpMethod: string, req: CreateRequest, now: int, createdAt: string)
    requires req.testType == "writing"
    ensures Precheck(httpMethod, req, now, createdAt) != Err(Refused(500, "internal_server_error"))
  {
  }

  /**
   * Creating the same test twice: once the first request's rows are
   * stored, the same request is refused as a schedule conflict that lists
   * the test just created.
   */
  lemma SecondCreateConflicts(tests: seq<Row>, httpMethod: string, req: CreateRequest, now: int, createdAt: string)
    requires Decide(tests, httpMethod, req, now, createdAt).reply.Created?
    ensures var o := Decide(tests, httpMethod, req, now, createdAt);
      var again := Decide(tests + o.writes[0].rows, httpMethod, req, now, createdAt);
      && again.reply.ScheduleConflict?
      && again.writes == []
      && Conflict(o.reply.testId, req.testType, req.metadata.value.title) in again.reply.conflicts
  {
    var pre := Precheck(httpMethod, req, now, createdAt);
    assert pre.Ok?;
    var plan := pre.value;
    var o := Decide(tests, httpMethod, req, now, createdAt);
    DecideResolves(tests, httpMethod, req, now, createdAt);
    assert o.writes[0].rows == [plan.testsRow] && o.reply.testId == plan.testId;
    DecideResolves(tests + [plan.testsRow], httpMethod, req, now, createdAt);
    SecondResolveConflicts(tests, plan);
  }

  /** Past the checks, the outcome is the store-side resolution of the plan. */
  lemma DecideResolves(tests: seq<Row>, httpMethod: string, req: CreateRequest, now: int, createdAt: string)
    requires Precheck(httpMethod, req, now, createdAt).Ok?
    ensures Decide(tests, httpMethod, req, now, createdAt) == Resolve(tests, Precheck(httpMethod, req, now, createdAt).value)
  {
  }

  lemma SecondResolveConflicts(tests: seq<Row>, plan: Plan)
    requires Resolve(tests, plan).reply.Created?
    requires |plan.testsRow| == 7 && plan.testsRow[0] == plan.testId
    requires plan.testsRow[1] == plan.testType && plan.testsRow[5] == plan.testDate
    ensures var again := Resolve(tests + [plan.testsRow], plan);
      && again.reply.ScheduleConflict? && again.writes == []
      && Conflict(plan.testId, plan.testType, plan.testsRow[2]) in again.reply.conflicts
  {
    var row := plan.testsRow;
    var after := tests + [row];
    assert after[|tests|] == row;
    assert ConflictsWith(after[|tests|], plan.testDate, plan.testType);
    assert ConflictOf(row) == Conflict(plan.testId, plan.testType, row[2]);
  }

  /**
   * The stored questions of a reading or listening test decode, in the
   * question editor, to the sections sent, provided every section has a
   * question (as creation demands) and no earlier Questions rows carry the id.
   */
  lemma CreatedQuestionsDecode(id: string, testType: string, ss: seq<Section>, questions: seq<Row>)
    requires testType != "writing" && !HasEmptySection(ss)
    requires forall k :: 0 <= k < |questions| ==> Field(questions[k], 0) != id
    ensures ContentTable(testType) == Questions
    ensures StrictDecode(Some(RowsOf(questions + ContentRows(id, testType, SectionList(ss)), id))) ==
      Ok(StoredSectionsOf(ss))
  {
    assert ContentRows(id, testType, SectionList(ss)) == QuestionRows(id, ss);
    assert forall s :: 0 <= s < |ss| ==> ss[s].questions != [];
    StoredRowsDecode(id, ss, questions);
  }

  lemma StoredRowsDecode(id: string, ss: seq<Section>, questions: seq<Row>)
    requires forall s :: 0 <= s < |ss| ==> ss[s].questions != []
    requires forall k :: 0 <= k < |questions| ==> Field(questions[k], 0) != id
    ensures StrictDecode(Some(RowsOf(questions + QuestionRows(id, ss), id))) == Ok(StoredSectionsOf(ss))
  {
    var rows := QuestionRows(id, ss);
    RowsOfConcat(questions, rows, id);
    RowsOfAllMatch(rows, id);
    assert RowsOf(questions, id) == [];
    assert RowsOf(questions + rows, id) == rows;
    DecodeQuestionRows(id, ss);
  }

  /**
   * The stored prompts of a writing test decode, in the writing editor,
   * to the prompts sent, provided no earlier WritingPrompts rows carry the id.
   */
  lemma CreatedPromptsDecode(id: string, ps: seq<Prompt>, prompts: seq<Row>)
    requires forall k :: 0 <= k < |prompts| ==> Field(prompts[k], 0) != id
    ensures ContentTable("writing") == WritingPrompts
    ensures var got := DecodePrompts(RowsOf(prompts + ContentRows(id, "writing", PromptList(ps)), id));
      && |got| == |ps|
      && forall k :: 0 <= k < |ps| ==> got[k] == StoredPromptOf(ps[k])
  {
    var rows := PromptRows(id, ps);
    assert ContentRows(id, "writing", PromptList(ps)) == rows;
    RowsOfAppendOwn(prompts, rows, id);
    DecodePromptRows(id, ps);
  }
}

=== FILE: delivery.dfy ===
/**
 * The test-delivery endpoint: a student asks for the test of a type on a
 * date; the test is looked up by the id built from the two, refused if the
 * student already submitted it, and returned as its raw content rows.
 */
module Delivery {
  import opened Text
  import opened Store
  import opened Schedule
  import opened CreateTest

  /** The query; an absent or empty parameter is the empty string. */
  datatype DeliveryQuery = DeliveryQuery(date: string, testType: string, studentId: string)

  datatype DeliveryReply =
    | Delivered(testId: string, testType: string, content: seq<Row>, totalPoints: string)
    | Failed(status: nat, error: string)

  /** `${type}_${date.split('-').join('')}`. */
  function DeliveryId(testType: string, date: string): (id: string)
    ensures |testType| < |id| && id[..|testType|] == testType && id[|testType|] == '_'
    ensures '-' !in id[|testType| + 1..]
  {
    testType + "_" + Without(date, '-')
  }

  /** The id a date written `YYYY-MM-DD` is looked up by is the id creation gave that day's test. */
  lemma DeliveryIdIsTestId(testType: string, d: DateInfo)
    ensures DeliveryId(testType, IsoDate(d.year, d.month, d.day)) == TestId(testType, d)
  {
    IsoDateWithoutDashes(d.year, d.month, d.day);
  }

  /** The student has a Submissions row for the test. */
  predicate HasSubmitted(submissions: seq<Row>, testId: string, studentId: string)
  {
    exists k :: 0 <= k < |submissions| && Field(submissions[k], 0) == testId && Field(submissions[k], 1) == studentId
  }

  /** The rows of `Table!A2:<width>` that belong to the test, in table order. */
  function ContentOf(rows: seq<Row>, testId: string, width: nat): seq<Row>
  {
    RowsOf(ClipAll(rows, width), testId)
  }

  /**
   * The handler over the four tables as they stand. The id is never empty,
   * so comparing it with a missing cell and with an empty cell agree.
   */
  function Deliver(tests: seq<Row>, submissions: seq<Row>, prompts: seq<Row>, questions: seq<Row>,
                   httpMethod: string, q: DeliveryQuery): (r: DeliveryReply)
    ensures httpMethod != "GET" ==> r == Failed(405, "method_not_allowed")
    ensures httpMethod == "GET" && (q.date == "" || q.testType == "" || q.studentId == "") ==>
      r == Failed(400, "missing_params")
    ensures httpMethod == "GET" && q.date != "" && q.testType != "" && q.studentId != "" ==>
      var id := DeliveryId(q.testType, q.date);
      var content := if q.testType == "writing" then ContentOf(prompts, id, 5) else ContentOf(questions, id, 9);
      && (FindIndex(tests, id).None? ==> r == Failed(404, "test_not_found"))
      && (FindIndex(tests, id).Some? && HasSubmitted(submissions, id, q.studentId) ==>
            r == Failed(403, "already_submitted"))
      && (FindIndex(tests, id).Some? && !HasSubmitted(submissions, id, q.studentId) && content == [] ==>
            r == Failed(404, "content_not_found"))
      && (FindIndex(tests, id).Some? && !HasSubmitted(submissions, id, q.studentId) && content != [] ==>
            r == Delivered(id, q.testType, content, Field(tests[FindIndex(tests, id).value], 6)))
    ensures r.Delivered? ==> r.testId == DeliveryId(q.testType, q.date) && r.testType == q.testType
    ensures r.Delivered? ==>
      exists i :: 0 <= i < |tests| && Field(tests[i], 0) == r.testId && r.totalPoints == Field(tests[i], 6)
    ensures r.Delivered? ==> !HasSubmitted(submissions, r.testId, q.studentId)
    ensures r.Delivered? ==> r.content != []
    ensures r.Delivered? ==>
      r.content == (if q.testType == "writing" then ContentOf(prompts, r.testId, 5) else ContentOf(questions, r.testId, 9))
  {
    if httpMethod != "GET" then Failed(405, "method_not_allowed")
    else if q.date == "" || q.testType == "" || q.studentId == "" then Failed(400, "missing_params")
    else
      var id := DeliveryId(q.testType, q.date);
      var rows := ClipAll(tests, 7);
      ClippedFindIndex(tests, id, 7);
      match FindIndex(rows, id)
      case None => Failed(404, "test_not_found")
      case Some(i) =>
        var read := ClipAll(submissions, 7);
        if exists k :: 0 <= k < |read| && Field(read[k], 0) == id && Field(read[k], 1) == q.studentId then
          Failed(403, "already_submitted")
        else
          assert forall k :: 0 <= k < |read| ==> Field(read[k], 0) == Field(submissions[k], 0) &&
                                                  Field(read[k], 1) == Field(submissions[k], 1);
          var content := if q.testType == "writing" then ContentOf(prompts, id, 5) else ContentOf(questions, id, 9);
          if content == [] then Failed(404, "content_not_found")
          else
            assert Field(rows[i], 6) == Field(tests[i], 6) && Field(rows[i], 0) == Field(tests[i], 0);
            Delivered(id, q.testType, content, Field(rows[i], 6))
  }

  /**
   * A test that is on the Tests sheet, not yet submitted by the student and
   * with rows stored for it is delivered with those rows, read as columns A
   * to E of WritingPrompts or A to I of Questions.
   */
  lemma StoredTestDelivered(tests: seq<Row>, submissions: seq<Row>, prompts: seq<Row>, questions: seq<Row>,
                            q: DeliveryQuery)
    requires q.date != "" && q.testType != "" && q.studentId != ""
    requires FindIndex(tests, DeliveryId(q.testType, q.date)).Some?
    requires !HasSubmitted(submissions, DeliveryId(q.testType, q.date), q.studentId)
    requires RowsOf(if q.testType == "writing" then prompts else questions, DeliveryId(q.testType, q.date)) != []
    ensures var id := DeliveryId(q.testType, q.date);
      var table, width := if q.testType == "writing" then prompts else questions, if q.testType == "writing" then 5 else 9;
      Deliver(tests, submissions, prompts, questions, "GET", q) ==
        Delivered(id, q.testType, ClipAll(RowsOf(table, id), width), Field(tests[FindIndex(tests, id).value], 6))
  {
    var id := DeliveryId(q.testType, q.date);
    ClippedRowsOf(prompts, id, 5);
    ClippedRowsOf(questions, id, 9);
  }

  /** A student who has submitted a test is refused it, whatever the content. */
  lemma SubmittedIsRefused(tests: seq<Row>, submissions: seq<Row>, prompts: seq<Row>, questions: seq<Row>,
                           q: DeliveryQuery)
    requires q.date != "" && q.testType != "" && q.studentId != ""
    requires exists i :: 0 <= i < |tests| && Field(tests[i], 0) == DeliveryId(q.testType, q.date)
    requires HasSubmitted(submissions, DeliveryId(q.testType, q.date), q.studentId)
    ensures Deliver(tests, submissions, prompts, questions, "GET", q) == Failed(403, "already_submitted")
  {
    var id := DeliveryId(q.testType, q.date);
    var read := ClipAll(submissions, 7);
    ClippedFindIndex(tests, id, 7);
    var k :| 0 <= k < |submissions| && Field(submissions[k], 0) == id && Field(submissions[k], 1) == q.studentId;
    assert Field(read[k], 0) == id && Field(read[k], 1) == q.studentId;
  }

  /** The delivered content is every stored row of the test, in table order, and nothing else. */
  lemma DeliveredContent(tests: seq<Row>, submissions: seq<Row>, prompts: seq<Row>, questions: seq<Row>,
                         q: DeliveryQuery)
    requires Deliver(tests, submissions, prompts, questions, "GET", q).Delivered?
    ensures var r := Deliver(tests, submissions, prompts, questions, "GET", q);
      var table, width := if q.testType == "writing" then prompts else questions, if q.testType == "writing" then 5 else 9;
      r.content == ClipAll(RowsOf(table, r.testId), width)
  {
    var r := Deliver(tests, submissions, prompts, questions, "GET", q);
    ClippedRowsOf(prompts, r.testId, 5);
    ClippedRowsOf(questions, r.testId, 9);
  }
}

=== FILE: duplicate.dfy ===
/**
 * The duplicate-test endpoint: a stored test is copied to a new date. The
 * new id is built from the source's type and the new date; the Tests row
 * keeps the source's title, description and total; the content rows are
 * the source's rows with only the id cell changed. No scheduling rule is
 * applied to the new date.
 */
module DuplicateTest {
  import opened Wrappers
  import opened Store
  import opened RowCodec
  import opened Schedule
  import opened CreateTest

  /** The request body; an absent or empty field is the empty string. */
  datatype DuplicateRequest = DuplicateRequest(sourceTestId: string, newTestDate: string, parsedDate: Option<DateInfo>)

  datatype DuplicateReply =
    | Duplicated(originalId: string, newId: string, testType: string, testDate: string)
    | Failed(status: nat, error: string)

  datatype DuplicateOutcome = DuplicateOutcome(reply: DuplicateReply, writes: seq<Append>)

  /** Columns read from Questions (A to I) and from WritingPrompts (A to E). */
  const QuestionWidth := 9
  const PromptWidth := 5

  /** A copied row: the new id, then cells 1 to `width - 1` of the source row. */
  function Rewrite(row: Row, id: string, width: nat): (r: Row)
    requires 1 <= width
    ensures |r| == width && r[0] == id
    ensures forall i :: 1 <= i < width ==> r[i] == Field(row, i)
  {
    [id] + seq(width - 1, i requires 0 <= i < width - 1 => Field(row, i + 1))
  }

  function RewriteAll(rows: seq<Row>, id: string, width: nat): (r: seq<Row>)
    requires 1 <= width
    ensures |r| == |rows|
    ensures forall k :: 0 <= k < |rows| ==> r[k] == Rewrite(rows[k], id, width)
  {
    seq(|rows|, k requires 0 <= k < |rows| => Rewrite(rows[k], id, width))
  }

  /** A full-width row is copied with only its id cell changed. */
  lemma RewriteFullRow(row: Row, id: string, width: nat)
    requires 1 <= width && |row| == width
    ensures Rewrite(row, id, width) == row[0 := id]
  {
  }

  /** The source's rows of a content table, read `width` columns wide, rewritten under the new id. */
  function Copy(rows: seq<Row>, sourceId: string, newId: string, width: nat): (r: seq<Row>)
    requires 1 <= width
    ensures |r| == |RowsOf(rows, sourceId)|
    ensures forall k :: 0 <= k < |r| ==> Field(r[k], 0) == newId
  {
    ClippedRowsOf(rows, sourceId, width);
    RewriteAll(RowsOf(ClipAll(rows, width), sourceId), newId, width)
  }

  /** A single append of `rows` to `table`, or none when there are no rows. */
  function AppendIfAny(table: Table, rows: seq<Row>): (r: seq<Append>)
    ensures forall t :: Appended(r, t) == if t == table then rows else []
  {
    if |rows| > 0 then
      assert Appended([Append(table, rows)], table) == [] + rows;
      [Append(table, rows)]
    else []
  }

  /**
   * The content copy for a source of type `testType`: `None` when the
   * content table is read while empty (the sheet then returns no values and
   * the filter throws), otherwise the append it makes, if any.
   */
  function CopyContent(testType: string, questions: seq<Row>, prompts: seq<Row>,
                       sourceId: string, newId: string): (r: Option<seq<Append>>)
    ensures r.Some? ==> |r.value| <= 1
    ensures r.None? <==>
      ((testType == "reading" || testType == "listening") && questions == []) ||
      (testType == "writing" && prompts == [])
    ensures r.Some? && (testType == "reading" || testType == "listening") ==>
      forall t :: Appended(r.value, t) == if t == Questions then Copy(questions, sourceId, newId, QuestionWidth) else []
    ensures r.Some? && testType == "writing" ==>
      forall t :: Appended(r.value, t) == if t == WritingPrompts then Copy(prompts, sourceId, newId, PromptWidth) else []
    ensures r.Some? && RowsOf(if testType == "writing" then prompts else questions, sourceId) == [] ==> r.value == []
    ensures testType != "reading" && testType != "listening" && testType != "writing" ==> r == Some([])
  {
    if testType == "reading" || testType == "listening" then
      if questions == [] then None
      else Some(AppendIfAny(Questions, Copy(questions, sourceId, newId, QuestionWidth)))
    else if testType == "writing" then
      if prompts == [] then None
      else Some(AppendIfAny(WritingPrompts, Copy(prompts, sourceId, newId, PromptWidth)))
    else Some([])
  }

  /** The source test found in the rows of `Tests!A2:G`, and the Tests row of its copy. */
  datatype Located = Located(testType: string, newId: string, testsRow: Row)

  /**
   * The lookups over the rows of `Tests!A2:G`: an empty table throws, an
   * unknown source is a 404, an id already taken is a 409.
   */
  function Locate(rows: seq<Row>, req: DuplicateRequest, createdAt: string): (r: Result<Located, DuplicateReply>)
    requires req.parsedDate.Some?
    ensures rows == [] ==> r == Err(Failed(500, "internal_server_error"))
    ensures rows != [] && FindIndex(rows, req.sourceTestId).None? ==> r == Err(Failed(404, "source_test_not_found"))
    ensures rows != [] && FindIndex(rows, req.sourceTestId).Some? ==>
      var newId := TestId(Rendered(rows[FindIndex(rows, req.sourceTestId).value], 1), req.parsedDate.value);
      && (r.Err? <==> FindIndex(rows, newId).Some?)
      && (r.Err? ==> r == Err(Failed(409, "duplicate_test")))
    ensures r.Ok? ==> exists i ::
      && 0 <= i < |rows| && Field(rows[i], 0) == req.sourceTestId
      && r.value.testType == Field(rows[i], 1)
      && r.value.newId == TestId(Rendered(rows[i], 1), req.parsedDate.value)
      && r.value.testsRow == [r.value.newId, Field(rows[i], 1), Field(rows[i], 2), Field(rows[i], 3), createdAt,
                              req.newTestDate, Field(rows[i], 6)]
    ensures r.Ok? && r.value.testType != "" ==> r.value.newId == TestId(r.value.testType, req.parsedDate.value)
    ensures r.Ok? ==> forall k :: 0 <= k < |rows| ==> Field(rows[k], 0) != r.value.newId
  {
    if rows == [] then Err(Failed(500, "internal_server_error"))
    else match FindIndex(rows, req.sourceTestId)
      case None => Err(Failed(404, "source_test_not_found"))
      case Some(i) =>
        var source := rows[i];
        var testType := Field(source, 1);
        var newId := TestId(Rendered(source, 1), req.parsedDate.value);
        if FindIndex(rows, newId).Some? then Err(Failed(409, "duplicate_test"))
        else Ok(Located(testType, newId, [newId, testType, Field(source, 2), Field(source, 3), createdAt,
                                          req.newTestDate, Field(source, 6)]))
  }

  /** The whole request against the tables as they stand; `createdAt` is the clock. */
  function Decide(tests: seq<Row>, questions: seq<Row>, prompts: seq<Row>,
                  httpMethod: string, req: DuplicateRequest, createdAt: string): (o: DuplicateOutcome)
    ensures httpMethod != "POST" ==> o == DuplicateOutcome(Failed(405, "method_not_allowed"), [])
    ensures httpMethod == "POST" && (req.sourceTestId == "" || req.newTestDate == "") ==>
      o == DuplicateOutcome(Failed(400, "missing_required_fields"), [])
    ensures httpMethod == "POST" && req.sourceTestId != "" && req.newTestDate != "" && req.parsedDate.None? ==>
      o == DuplicateOutcome(Failed(400, "invalid_date_format"), [])
    ensures httpMethod == "POST" && req.sourceTestId != "" && req.newTestDate != "" && req.parsedDate.Some? ==>
      var l := Locate(ClipAll(tests, 7), req, createdAt);
      && (l.Err? ==> o == DuplicateOutcome(l.error, []))
      && (l.Ok? ==> o == Finish(questions, prompts, req, l.value))
    ensures o.writes != [] ==> o.writes[0].table == Tests && |o.writes[0].rows| == 1
  {
    if httpMethod != "POST" then DuplicateOutcome(Failed(405, "method_not_allowed"), [])
    else if req.sourceTestId == "" || req.newTestDate == "" then
      DuplicateOutcome(Failed(400, "missing_required_fields"), [])
    else if req.parsedDate.None? then DuplicateOutcome(Failed(400, "invalid_date_format"), [])
    else match Locate(ClipAll(tests, 7), req, createdAt)
      case Err(reply) => DuplicateOutcome(reply, [])
      case Ok(l) => Finish(questions, prompts, req, l)
  }

  /** The writes once the source is located: the Tests row first, then the content copy. */
  function Finish(questions: seq<Row>, prompts: seq<Row>, req: DuplicateRequest, l: Located): (o: DuplicateOutcome)
    ensures |o.writes| >= 1 && o.writes[0] == Append(Tests, [l.testsRow])
    ensures o.reply.Failed? <==> CopyContent(l.testType, questions, prompts, req.sourceTestId, l.newId).None?
    ensures o.reply.Failed? ==> o.reply == Failed(500, "internal_server_error") && |o.writes| == 1
  {
    var head := [Append(Tests, [l.testsRow])];
    match CopyContent(l.testType, questions, prompts, req.sourceTestId, l.newId)
    case None => DuplicateOutcome(Failed(500, "internal_server_error"), head)
    case Some(more) =>
      DuplicateOutcome(Duplicated(req.sourceTestId, l.newId, l.testType, req.newTestDate), head + more)
  }

  /** The handler: the checks, the Tests lookups, the Tests append, then the content copy. */
  method HandleDuplicate(store: TableStore, httpMethod: string, req: DuplicateRequest, createdAt: string)
    returns (reply: DuplicateReply)
    modifies store
    ensures var d := Decide(old(store.Rows(Tests)), old(store.Rows(Questions)), old(store.Rows(WritingPrompts)),
                            httpMethod, req, createdAt);
      && reply == d.reply
      && forall t :: store.Rows(t) == old(store.Rows(t)) + Appended(d.writes, t)
  {
    if httpMethod != "POST" {
      return Failed(405, "method_not_allowed");
    }
    if req.sourceTestId == "" || req.newTestDate == "" {
      return Failed(400, "missing_required_fields");
    }
    if req.parsedDate.None? {
      return Failed(400, "invalid_date_format");
    }
    var rows := store.GetRange(Tests, 7);
    assert rows == ClipAll(store.Rows(Tests), 7);
    var located := Locate(rows, req, createdAt);
    if located.Err? {
      return located.error;
    }
    reply := WriteCopy(store, req, located.value);
  }

  /** The writes of the handler: the Tests append, then the content copy. */
  method WriteCopy(store: TableStore, req: DuplicateRequest, l: Located) returns (reply: DuplicateReply)
    modifies store
    ensures var d := Finish(old(store.Rows(Questions)), old(store.Rows(WritingPrompts)), req, l);
      && reply == d.reply
      && forall t :: store.Rows(t) == old(store.Rows(t)) + Appended(d.writes, t)
  {
    var head := [Append(Tests, [l.testsRow])];
    store.AppendAll(head);
    assert Appended(head, Questions) == [] && Appended(head, WritingPrompts) == [];
    assert store.Rows(Questions) == old(store.Rows(Questions)) + [] == old(store.Rows(Questions));
    assert store.Rows(WritingPrompts) == old(store.Rows(WritingPrompts)) + [] == old(store.Rows(WritingPrompts));
    ghost var c := CopyContent(l.testType, store.Rows(Questions), store.Rows(WritingPrompts),
                               req.sourceTestId, l.newId);
    ghost var more := if c.Some? then c.value else [];
    label Mid:
    var ok := CopyStoredContent(store, l.testType, req.sourceTestId, l.newId);
    AppendedConcat(head, more);
    forall t
      ensures store.Rows(t) == old(store.Rows(t)) + Appended(head + more, t)
    {
      ConcatAssoc(old(store.Rows(t)), Appended(head, t), Appended(more, t));
    }
    FinishWrites(old(store.Rows(Questions)), old(store.Rows(WritingPrompts)), req, l);
    reply := if ok then Duplicated(req.sourceTestId, l.newId, l.testType, req.newTestDate)
             else Failed(500, "internal_server_error");
  }

  /** The outcome of `Finish`, with the content rows appended after the Tests row. */
  lemma FinishWrites(questions: seq<Row>, prompts: seq<Row>, req: DuplicateRequest, l: Located)
    ensures var c := CopyContent(l.testType, questions, prompts, req.sourceTestId, l.newId);
      var o := Finish(questions, prompts, req, l);
      && o.writes == [Append(Tests, [l.testsRow])] + (if c.Some? then c.value else [])
      && o.reply == if c.Some? then Duplicated(req.sourceTestId, l.newId, l.testType, req.newTestDate)
                    else Failed(500, "internal_server_error")
  {
    var head: seq<Append> := [Append(Tests, [l.testsRow])];
    assert head + [] == head;
  }

  /** The content half of the handler: read the content table and append the rewritten rows. */
  method CopyStoredContent(store: TableStore, testType: string, sourceId: string, newId: string)
    returns (ok: bool)
    modifies store
    ensures var c := CopyContent(testType, old(store.Rows(Questions)), old(store.Rows(WritingPrompts)), sourceId, newId);
      && ok == c.Some?
      && forall t :: store.Rows(t) == old(store.Rows(t)) + Appended(if c.Some? then c.value else [], t)
  {
    var table, width;
    if testType == "reading" || testType == "listening" {
      table, width := Questions, QuestionWidth;
    } else if testType == "writing" {
      table, width := WritingPrompts, PromptWidth;
    } else {
      return true;
    }
    var rows := store.GetRange(table, width);
    if rows == [] {
      return false;
    }
    assert rows == ClipAll(store.Rows(table), width);
    var source := RowsOf(rows, sourceId);
    if |source| > 0 {
      store.AppendAll([Append(table, RewriteAll(source, newId, width))]);
    }
    return true;
  }

  /** Cells `from` to `to - 1` of two rows agree. */
  predicate SameCells(a: Row, b: Row, from: nat, to: nat)
  {
    forall i :: from <= i < to ==> Field(a, i) == Field(b, i)
  }

  /**
   * The copied rows are the source's rows in order, with the new id in the
   * first cell and every other cell read kept.
   */
  lemma CopiedRows(rows: seq<Row>, sourceId: string, newId: string, width: nat)
    requires 1 <= width
    ensures var source, copied := RowsOf(rows, sourceId), Copy(rows, sourceId, newId, width);
      && |copied| == |source|
      && forall k :: 0 <= k < |copied| ==> copied[k][0] == newId && SameCells(copied[k], source[k], 1, width)
  {
    ClippedRowsOf(rows, sourceId, width);
  }

  lemma StrictStepSameCells(acc: Decoded, a: Row, b: Row)
    requires SameCells(a, b, 1, QuestionWidth)
    ensures StrictStep(acc, a) == StrictStep(acc, b)
  {
    assert Field(a, 1) == Field(b, 1) && Field(a, 2) == Field(b, 2) && Field(a, 3) == Field(b, 3);
    assert Field(a, 4) == Field(b, 4) && Field(a, 5) == Field(b, 5) && Field(a, 6) == Field(b, 6);
    assert Field(a, 7) == Field(b, 7) && Field(a, 8) == Field(b, 8);
  }

  /** The question editor's decoder reads only cells 1 to 8: rows that agree there decode alike. */
  lemma {:induction false} StrictFoldSameCells(start: Result<Decoded, string>, xs: seq<Row>, ys: seq<Row>)
    requires |xs| == |ys|
    requires forall k :: 0 <= k < |xs| ==> SameCells(xs[k], ys[k], 1, QuestionWidth)
    ensures StrictFold(start, xs) == StrictFold(start, ys)
  {
    if xs != [] {
      var n := |xs| - 1;
      StrictFoldSameCells(start, xs[..n], ys[..n]);
      match StrictFold(start, xs[..n])
      case Err(_) =>
      case Ok(acc) => StrictStepSameCells(acc, xs[n], ys[n]);
    }
  }

  /**
   * The copy of a reading or listening test decodes, in the question
   * editor, exactly as the source does, provided no earlier Questions rows
   * carry the new id.
   */
  lemma CopiedQuestionsDecodeAlike(questions: seq<Row>, sourceId: string, newId: string)
    requires forall k :: 0 <= k < |questions| ==> Field(questions[k], 0) != newId
    ensures var copied := Copy(questions, sourceId, newId, QuestionWidth);
      StrictDecode(Some(RowsOf(questions + copied, newId))) == StrictDecode(Some(RowsOf(questions, sourceId)))
  {
    var copied := Copy(questions, sourceId, newId, QuestionWidth);
    CopiedRows(questions, sourceId, newId, QuestionWidth);
    CopiedCarryId(copied, newId);
    RowsOfAppendOwn(questions, copied, newId);
    StrictFoldSameCells(Ok([]), copied, RowsOf(questions, sourceId));
  }

  /**
   * The copy of a writing test decodes, in the writing editor, to the
   * source's prompts, provided no earlier WritingPrompts rows carry the new id.
   */
  lemma CopiedPromptsDecodeAlike(prompts: seq<Row>, sourceId: string, newId: string)
    requires forall k :: 0 <= k < |prompts| ==> Field(prompts[k], 0) != newId
    ensures var copied := Copy(prompts, sourceId, newId, PromptWidth);
      DecodePrompts(RowsOf(prompts + copied, newId)) == DecodePrompts(RowsOf(prompts, sourceId))
  {
    var copied := Copy(prompts, sourceId, newId, PromptWidth);
    CopiedRows(prompts, sourceId, newId, PromptWidth);
    CopiedCarryId(copied, newId);
    RowsOfAppendOwn(prompts, copied, newId);
    DecodePromptsSameCells(copied, RowsOf(prompts, sourceId));
  }

  /**
   * What a successful duplicate appends to the content tables: the source's
   * rows of its own type's table under the new id, and nothing to the
   * other; the new id is in no Tests row.
   */
  lemma DuplicateCopiesContent(tests: seq<Row>, questions: seq<Row>, prompts: seq<Row>,
                               httpMethod: string, req: DuplicateRequest, createdAt: string)
    requires Decide(tests, questions, prompts, httpMethod, req, createdAt).reply.Duplicated?
    ensures var o := Decide(tests, questions, prompts, httpMethod, req, createdAt);
      var newId, testType := o.reply.newId, o.reply.testType;
      && FindIndex(tests, newId).None?
      && ((testType == "reading" || testType == "listening") ==>
            Appended(o.writes, Questions) == Copy(questions, req.sourceTestId, newId, QuestionWidth)
            && Appended(o.writes, WritingPrompts) == [])
      && (testType == "writing" ==>
            Appended(o.writes, WritingPrompts) == Copy(prompts, req.sourceTestId, newId, PromptWidth)
            && Appended(o.writes, Questions) == [])
  {
    var l := DecidedByFinish(tests, questions, prompts, httpMethod, req, createdAt);
    FinishCopies(questions, prompts, req, l);
  }

  /** A successful duplicate located its source, and its outcome is that of `Finish` with a content copy made. */
  lemma DecidedByFinish(tests: seq<Row>, questions: seq<Row>, prompts: seq<Row>,
                        httpMethod: string, req: DuplicateRequest, createdAt: string) returns (l: Located)
    requires Decide(tests, questions, prompts, httpMethod, req, createdAt).reply.Duplicated?
    ensures Decide(tests, questions, prompts, httpMethod, req, createdAt) == Finish(questions, prompts, req, l)
    ensures CopyContent(l.testType, questions, prompts, req.sourceTestId, l.newId).Some?
    ensures FindIndex(tests, l.newId).None?
  {
    assert httpMethod == "POST" && req.sourceTestId != "" && req.newTestDate != "" && req.parsedDate.Some?;
    var located := Locate(ClipAll(tests, 7), req, createdAt);
    assert located.Ok?;
    l := located.value;
    ClippedFindIndex(tests, l.newId, 7);
  }

  /** With a content copy made, `Finish` replies with the copy and appends the source's rows to its type's table only. */
  lemma FinishCopies(questions: seq<Row>, prompts: seq<Row>, req: DuplicateRequest, l: Located)
    requires CopyContent(l.testType, questions, prompts, req.sourceTestId, l.newId).Some?
    ensures var o := Finish(questions, prompts, req, l);
      && o.reply == Duplicated(req.sourceTestId, l.newId, l.testType, req.newTestDate)
      && ((l.testType == "reading" || l.testType == "listening") ==>
            Appended(o.writes, Questions) == Copy(questions, req.sourceTestId, l.newId, QuestionWidth)
            && Appended(o.writes, WritingPrompts) == [])
      && (l.testType == "writing" ==>
            Appended(o.writes, WritingPrompts) == Copy(prompts, req.sourceTestId, l.newId, PromptWidth)
            && Appended(o.writes, Questions) == [])
  {
    var c := CopyContent(l.testType, questions, prompts, req.sourceTestId, l.newId).value;
    FinishWrites(questions, prompts, req, l);
    AppendedPastTests([l.testsRow], c, Questions);
    AppendedPastTests([l.testsRow], c, WritingPrompts);
    if l.testType == "reading" || l.testType == "listening" {
      assert Appended(c, Questions) == Copy(questions, req.sourceTestId, l.newId, QuestionWidth);
      assert Appended(c, WritingPrompts) == [];
    } else if l.testType == "writing" {
      assert Appended(c, WritingPrompts) == Copy(prompts, req.sourceTestId, l.newId, PromptWidth);
      assert Appended(c, Questions) == [];
    }
  }

  /** A Tests append in front adds nothing to another table. */
  lemma AppendedPastTests(rows: seq<Row>, more: seq<Append>, t: Table)
    requires t != Tests
    ensures Appended([Append(Tests, rows)] + more, t) == Appended(more, t)
  {
    AppendedConcat([Append(Tests, rows)], more);
    assert Appended([Append(Tests, rows)], t) == [] + [];
  }

  /**
   * A duplicate of a reading or listening test decodes, in the question
   * editor, exactly as its source does, in a store whose Questions rows all
   * belong to tests in the Tests table.
   */
  lemma DuplicatedQuestionsDecodeAlike(tests: seq<Row>, questions: seq<Row>, prompts: seq<Row>,
                                       httpMethod: string, req: DuplicateRequest, createdAt: string)
    requires var o := Decide(tests, questions, prompts, httpMethod, req, createdAt);
      o.reply.Duplicated? && (o.reply.testType == "reading" || o.reply.testType == "listening")
    requires forall k :: 0 <= k < |questions| ==> FindIndex(tests, Field(questions[k], 0)).Some?
    ensures var o := Decide(tests, questions, prompts, httpMethod, req, createdAt);
      StrictDecode(Some(RowsOf(questions + Appended(o.writes, Questions), o.reply.newId))) ==
      StrictDecode(Some(RowsOf(questions, req.sourceTestId)))
  {
    var o := Decide(tests, questions, prompts, httpMethod, req, createdAt);
    DuplicateCopiesContent(tests, questions, prompts, httpMethod, req, createdAt);
    CopiedQuestionsDecodeAlike(questions, req.sourceTestId, o.reply.newId);
  }

  /**
   * A duplicate of a writing test decodes, in the writing editor, to its
   * source's prompts, in a store whose WritingPrompts rows all belong to
   * tests in the Tests table.
   */
  lemma DuplicatedPromptsDecodeAlike(tests: seq<Row>, questions: seq<Row>, prompts: seq<Row>,
                                     httpMethod: string, req: DuplicateRequest, createdAt: string)
    requires var o := Decide(tests, questions, prompts, httpMethod, req, createdAt);
      o.reply.Duplicated? && o.reply.testType == "writing"
    requires forall k :: 0 <= k < |prompts| ==> FindIndex(tests, Field(prompts[k], 0)).Some?
    ensures var o := Decide(tests, questions, prompts, httpMethod, req, createdAt);
      DecodePrompts(RowsOf(prompts + Appended(o.writes, WritingPrompts), o.reply.newId)) ==
      DecodePrompts(RowsOf(prompts, req.sourceTestId))
  {
    var o := Decide(tests, questions, prompts, httpMethod, req, createdAt);
    DuplicateCopiesContent(tests, questions, prompts, httpMethod, req, createdAt);
    CopiedPromptsDecodeAlike(prompts, req.sourceTestId, o.reply.newId);
  }

  /** Rows whose first cell is `id` carry it in column A. */
  lemma CopiedCarryId(rows: seq<Row>, id: string)
    requires forall k :: 0 <= k < |rows| ==> |rows[k]| > 0 && rows[k][0] == id
    ensures forall k :: 0 <= k < |rows| ==> Field(rows[k], 0) == id
  {
  }

  /** The writing editor's decoder reads only cells 2 to 4: rows that agree there decode alike. */
  lemma DecodePromptsSameCells(xs: seq<Row>, ys: seq<Row>)
    requires |xs| == |ys|
    requires forall k :: 0 <= k < |xs| ==> SameCells(xs[k], ys[k], 1, PromptWidth)
    ensures DecodePrompts(xs) == DecodePrompts(ys)
  {
    forall k | 0 <= k < |xs|
      ensures DecodePrompt(xs[k]) == DecodePrompt(ys[k])
    {
      assert SameCells(xs[k], ys[k], 1, PromptWidth);
      assert Field(xs[k], 2) == Field(ys[k], 2) && Field(xs[k], 3) == Field(ys[k], 3);
      assert Field(xs[k], 4) == Field(ys[k], 4);
    }
  }

  /**
   * A duplicate copies the source's title, description and total into a
   * Tests row for the new id and date; its only failure after a write is
   * an empty content table, which leaves that Tests row without content.
   */
  lemma DuplicateWrites(tests: seq<Row>, questions: seq<Row>, prompts: seq<Row>,
                        httpMethod: string, req: DuplicateRequest, createdAt: string)
    requires Decide(tests, questions, prompts, httpMethod, req, createdAt).writes != []
    ensures httpMethod == "POST" && req.parsedDate.Some?
    ensures var o := Decide(tests, questions, prompts, httpMethod, req, createdAt);
      exists i :: 0 <= i < |tests| && Field(tests[i], 0) == req.sourceTestId &&
        var testType := Field(tests[i], 1);
        var newId := TestId(Rendered(tests[i], 1), req.parsedDate.value);
        && o.writes[0].rows == [[newId, testType, Field(tests[i], 2), Field(tests[i], 3), createdAt,
                                 req.newTestDate, Field(tests[i], 6)]]
        && (o.reply.Failed? <==> CopyContent(testType, questions, prompts, req.sourceTestId, newId).None?)
    ensures var o := Decide(tests, questions, prompts, httpMethod, req, createdAt);
      o.reply.Failed? ==> o.reply == Failed(500, "internal_server_error") && |o.writes| == 1
  {
    assert httpMethod == "POST" && req.sourceTestId != "" && req.newTestDate != "" && req.parsedDate.Some?;
    var located := Locate(ClipAll(tests, 7), req, createdAt);
    assert located.Ok?;
    var i := LocatedRow(tests, req, createdAt);
    assert Decide(tests, questions, prompts, httpMethod, req, createdAt) == Finish(questions, prompts, req, located.value);
  }

  /** The located copy's fields come from one source row of the unclipped table. */
  lemma LocatedRow(tests: seq<Row>, req: DuplicateRequest, createdAt: string) returns (i: nat)
    requires req.parsedDate.Some? && Locate(ClipAll(tests, 7), req, createdAt).Ok?
    ensures i < |tests| && Field(tests[i], 0) == req.sourceTestId
    ensures var l := Locate(ClipAll(tests, 7), req, createdAt).value;
      && l.testType == Field(tests[i], 1)
      && l.newId == TestId(Rendered(tests[i], 1), req.parsedDate.value)
      && l.testsRow == [l.newId, Field(tests[i], 1), Field(tests[i], 2), Field(tests[i], 3), createdAt,
                        req.newTestDate, Field(tests[i], 6)]
  {
    ClippedFindIndex(tests, req.sourceTestId, 7);
    i := FindIndex(tests, req.sourceTestId).value;
    LocatedAt(ClipAll(tests, 7), req, createdAt);
    ClippedCells(tests[i]);
  }

  /** On the rows read, the located copy is built from the source's first row. */
  lemma LocatedAt(rows: seq<Row>, req: DuplicateRequest, createdAt: string)
    requires req.parsedDate.Some? && Locate(rows, req, createdAt).Ok?
    ensures FindIndex(rows, req.sourceTestId).Some?
    ensures var source, l := rows[FindIndex(rows, req.sourceTestId).value], Locate(rows, req, createdAt).value;
      && l.testType == Field(source, 1)
      && l.newId == TestId(Rendered(source, 1), req.parsedDate.value)
      && l.testsRow == [l.newId, Field(source, 1), Field(source, 2), Field(source, 3), createdAt,
                        req.newTestDate, Field(source, 6)]
  {
  }

  /** A read of columns A to G keeps the cells a copy takes, and whether the type cell exists. */
  lemma ClippedCells(row: Row)
    ensures var c := Clip(row, 7);
      && Field(c, 1) == Field(row, 1) && Field(c, 2) == Field(row, 2) && Field(c, 3) == Field(row, 3)
      && Field(c, 6) == Field(row, 6) && Rendered(c, 1) == Rendered(row, 1)
  {
  }

  /**
   * No scheduling rule applies to a duplicate: only the calendar day of the
   * new date matters, not its weekday or whether it lies in the past.
   */
  lemma DuplicateIgnoresSchedule(tests: seq<Row>, questions: seq<Row>, prompts: seq<Row>,
                                 httpMethod: string, req: DuplicateRequest, createdAt: string, other: DateInfo)
    requires req.parsedDate.Some?
    requires other.year == req.parsedDate.value.year && other.month == req.parsedDate.value.month
    requires other.day == req.parsedDate.value.day
    ensures Decide(tests, questions, prompts, httpMethod, req.(parsedDate := Some(other)), createdAt) ==
            Decide(tests, questions, prompts, httpMethod, req, createdAt)
  {
    var req' := req.(parsedDate := Some(other));
    assert DateDigits(other) == DateDigits(req.parsedDate.value);
    LocateSameDate(ClipAll(tests, 7), req, req', createdAt);
    assert forall l :: Finish(questions, prompts, req', l) == Finish(questions, prompts, req, l);
  }

  /** The lookups read the parsed date only through the digits of the new id. */
  lemma LocateSameDate(rows: seq<Row>, req: DuplicateRequest, req': DuplicateRequest, createdAt: string)
    requires req.parsedDate.Some? && req'.parsedDate.Some?
    requires req'.sourceTestId == req.sourceTestId && req'.newTestDate == req.newTestDate
    requires DateDigits(req'.parsedDate.value) == DateDigits(req.parsedDate.value)
    ensures Locate(rows, req', createdAt) == Locate(rows, req, createdAt)
  {
    assert forall t :: TestId(t, req'.parsedDate.value) == TestId(t, req.parsedDate.value);
  }
}

=== FILE: editors.dfy ===
/**
 * The editors of a stored test's content. Each keeps its list in a state
 * variable that every operation replaces, and reports the new content to
 * the page through `onChange`; the calls are kept, in order, as a log.
 */
module Editors {
  import opened Wrappers
  import opened Store
  import opened Content
  import opened RowCodec

  /** What one `onChange` call receives: section objects, or flat rows from a question removal. */
  datatype Change = SectionsChanged(sections: seq<Section>) | RowsChanged(rows: seq<Row>)

  /**
   * The rows a question removal reports, decoded by the editor's own
   * decoder, give back the sections it keeps, provided none is empty.
   */
  lemma RemovedRowsDecode(ss: seq<Section>, i: int, j: int)
    requires NoEmptySection(ss)
    requires RemoveQuestion(ss, i, j).Some?
    ensures NoEmptySection(RemoveQuestion(ss, i, j).value)
    ensures StrictDecode(Some(QuestionRows("", RemoveQuestion(ss, i, j).value))) ==
      Ok(StoredSectionsOf(RemoveQuestion(ss, i, j).value))
  {
    var after := RemoveQuestion(ss, i, j).value;
    assert forall k :: 0 <= k < |after| && k != i ==> after[k] == ss[k];
    DecodeQuestionRows("", after);
  }

  /** The reading and listening editor. */
  class QuestionEditor {
    var sections: seq<Section>
    /** Every `onChange` call so far, oldest first. */
    var changes: seq<Change>

    /** The editor over the sections decoded from the stored rows. */
    constructor (initial: seq<Section>)
      ensures sections == initial && changes == []
    {
      sections := initial;
      changes := [];
    }

    /** `updateSection`. */
    method UpdateSection(i: nat, e: SectionEdit)
      requires i < |sections|
      modifies this
      ensures sections == Content.UpdateSection(old(sections), i, e)
      ensures changes == old(changes) + [SectionsChanged(sections)]
      ensures NoEmptySection(old(sections)) ==> NoEmptySection(sections)
    {
      sections := Content.UpdateSection(sections, i, e);
      changes := changes + [SectionsChanged(sections)];
    }

    /** `updateQuestion`. */
    method UpdateQuestion(i: nat, j: nat, e: QuestionEdit)
      requires i < |sections| && j < |sections[i].questions| && Applies(sections[i].questions[j], e)
      modifies this
      ensures sections == Content.UpdateQuestion(old(sections), i, j, e)
      ensures changes == old(changes) + [SectionsChanged(sections)]
      ensures NoEmptySection(old(sections)) ==> NoEmptySection(sections)
    {
      sections := Content.UpdateQuestion(sections, i, j, e);
      changes := changes + [SectionsChanged(sections)];
    }

    /** `addSection`: a blank section with one default question; `onChange` is not called. */
    method AddSection()
      modifies this
      ensures sections == old(sections) + [NewSection("")]
      ensures changes == old(changes)
      ensures NoEmptySection(old(sections)) ==> NoEmptySection(sections)
    {
      sections := sections + [NewSection("")];
    }

    /** `addQuestion`. */
    method AddQuestion(i: nat)
      requires i < |sections|
      modifies this
      ensures sections == Content.AddQuestion(old(sections), i)
      ensures changes == old(changes) + [SectionsChanged(sections)]
      ensures NoEmptySection(old(sections)) ==> NoEmptySection(sections)
    {
      sections := Content.AddQuestion(sections, i);
      changes := changes + [SectionsChanged(sections)];
    }

    /** `removeSection`. */
    method RemoveSection(i: int)
      modifies this
      ensures sections == RemoveAt(old(sections), i)
      ensures changes == old(changes) + [SectionsChanged(sections)]
      ensures NoEmptySection(old(sections)) ==> NoEmptySection(sections)
    {
      sections := RemoveAt(sections, i);
      changes := changes + [SectionsChanged(sections)];
    }

    /**
     * `removeQuestion`: nothing happens for a missing section; otherwise
     * the question goes, an emptied section is refilled, and `onChange`
     * receives the flat rows of every section.
     */
    method RemoveQuestion(i: int, j: int)
      modifies this
      ensures Content.RemoveQuestion(old(sections), i, j).None? ==>
        sections == old(sections) && changes == old(changes)
      ensures Content.RemoveQuestion(old(sections), i, j).Some? ==>
        && sections == Content.RemoveQuestion(old(sections), i, j).value
        && changes == old(changes) + [RowsChanged(QuestionRows("", sections))]
      ensures NoEmptySection(old(sections)) ==> NoEmptySection(sections)
    {
      var removed := Content.RemoveQuestion(sections, i, j);
      if removed.Some? {
        var after := removed.value;
        assert NoEmptySection(sections) ==> NoEmptySection(after);
        sections := after;
        changes := changes + [RowsChanged(QuestionRows("", after))];
      }
    }
  }

  /** The writing editor. */
  class WritingEditor {
    var prompts: seq<Prompt>
    /** Every `onChange` call so far, oldest first. */
    var changes: seq<seq<Prompt>>

    /** The editor over the prompts decoded from the stored rows. */
    constructor (initial: seq<Prompt>)
      ensures prompts == initial && changes == []
    {
      prompts := initial;
      changes := [];
    }

    /** `updatePrompt`. */
    method UpdatePrompt(i: nat, e: PromptEdit)
      requires i < |prompts|
      modifies this
      ensures prompts == Content.UpdatePrompt(old(prompts), i, e)
      ensures changes == old(changes) + [prompts]
    {
      prompts := Content.UpdatePrompt(prompts, i, e);
      changes := changes + [prompts];
    }

    /** `addPrompt`: at the cap it returns before anything changes or is reported. */
    method AddPrompt()
      modifies this
      ensures prompts == Content.AddPrompt(old(prompts))
      ensures |old(prompts)| >= MaxPrompts ==> changes == old(changes)
      ensures |old(prompts)| < MaxPrompts ==> changes == old(changes) + [prompts]
      ensures |old(prompts)| <= MaxPrompts ==> |prompts| <= MaxPrompts
    {
      if |prompts| >= MaxPrompts {
        return;
      }
      prompts := prompts + [DefaultPrompt];
      changes := changes + [prompts];
    }

    /** `removePrompt`. */
    method RemovePrompt(i: int)
      modifies this
      ensures prompts == RemoveAt(old(prompts), i)
      ensures changes == old(changes) + [prompts]
    {
      prompts := RemoveAt(prompts, i);
      changes := changes + [prompts];
    }
  }
}

=== FILE: forms.dfy ===
/**
 * The create-test page: one form per test type, each holding the test's
 * details and its sections or prompts, and handing the whole state to the
 * create endpoint on submit. The forms add but never remove questions, so
 * every section keeps at least one; the writing form offers its "Add
 * Prompt" button only below three prompts.
 */
module Forms {
  import opened Wrappers
  import opened Text
  import opened Content
  import opened Schedule
  import opened CreateTest

  /** `testMetadata` as the form keeps it. */
  datatype FormMetadata = FormMetadata(title: string, testDate: string, description: string)

  const BlankMetadata := FormMetadata("", "", "")

  /** The object a form passes to the page on submit. */
  datatype FormPayload = FormPayload(testType: string, testMetadata: FormMetadata, sections: Body)

  /** The title of the listening section added after `n` sections: `Recording n+1`. */
  function RecordingTitle(n: nat): (t: string)
    ensures t == "Recording " + NatToString(n + 1)
    ensures |t| > |"Recording "| && t[..|"Recording "|] == "Recording "
  {
    "Recording " + NatToString(n + 1)
  }

  /** Listening sections are titled by position, so no two added ones share a title. */
  lemma RecordingTitlesDistinct(m: nat, n: nat)
    requires m != n
    ensures RecordingTitle(m) != RecordingTitle(n)
  {
    var p := "Recording ";
    ParseNatToString(m + 1);
    ParseNatToString(n + 1);
    assert RecordingTitle(m)[|p|..] == NatToString(m + 1);
    assert RecordingTitle(n)[|p|..] == NatToString(n + 1);
  }

  /** The request the create endpoint receives from a payload; the date is parsed there. */
  function RequestOf(p: FormPayload, parsedDate: Option<DateInfo>): CreateRequest
  {
    CreateRequest(p.testType,
                  Some(Metadata(p.testMetadata.title, p.testMetadata.description, p.testMetadata.testDate, parsedDate)),
                  Some(p.sections))
  }

  /** A payload the forms can produce: a known type with filled sections, or at most three prompts. */
  predicate WellShaped(p: FormPayload)
  {
    || ((p.testType == "reading" || p.testType == "listening") && p.sections.SectionList? && NoEmptySection(p.sections.sections))
    || (p.testType == "writing" && p.sections.PromptList? && |p.sections.prompts| <= MaxPrompts)
  }

  /**
   * A payload from a form never fails the endpoint's shape checks: no
   * missing field, no unknown type, no section without questions, no
   * fourth prompt.
   */
  lemma FormPassesShapeChecks(p: FormPayload, parsedDate: Option<DateInfo>, now: int, createdAt: string)
    requires WellShaped(p)
    ensures var r := Precheck("POST", RequestOf(p, parsedDate), now, createdAt);
      && r != Err(Refused(400, "missing_required_fields"))
      && r != Err(Refused(400, "invalid_test_type"))
      && r != Err(Refused(400, "invalid_questions"))
      && r != Err(Refused(400, "too_many_prompts"))
  {
    if p.testType != "writing" {
      assert !HasEmptySection(AsSections(p.sections));
    }
  }

  /** The reading and listening forms. */
  class SectionForm {
    const testType: string
    var metadata: FormMetadata
    var sections: seq<Section>

    predicate Valid()
      reads this
    {
      (testType == "reading" || testType == "listening") && NoEmptySection(sections)
    }

    /** The reading form: one blank section. */
    constructor Reading()
      ensures testType == "reading" && metadata == BlankMetadata && sections == [NewSection("")]
      ensures Valid()
    {
      testType := "reading";
      metadata := BlankMetadata;
      sections := [NewSection("")];
    }

    /** The listening form: one section titled "First Recording", with no passage. */
    constructor Listening()
      ensures testType == "listening" && metadata == BlankMetadata && sections == [NewSection("First Recording")]
      ensures Valid()
    {
      testType := "listening";
      metadata := BlankMetadata;
      sections := [NewSection("First Recording")];
    }

    /** An edit of the title, date or description. */
    method SetMetadata(m: FormMetadata)
      requires Valid()
      modifies this
      ensures metadata == m && sections == old(sections)
      ensures Valid()
    {
      metadata := m;
    }

    /** `addSection`: a reading section is blank, a listening one is titled by its position. */
    method AddSection()
      requires Valid()
      modifies this
      ensures metadata == old(metadata)
      ensures sections == old(sections) +
        [NewSection(if testType == "reading" then "" else RecordingTitle(|old(sections)|))]
      ensures Valid()
    {
      var title := if testType == "reading" then "" else RecordingTitle(|sections|);
      sections := sections + [NewSection(title)];
    }

    /** `addQuestion`. */
    method AddQuestion(i: nat)
      requires Valid() && i < |sections|
      modifies this
      ensures metadata == old(metadata) && sections == Content.AddQuestion(old(sections), i)
      ensures Valid()
    {
      sections := Content.AddQuestion(sections, i);
    }

    /** A section title or passage typed into the form. */
    method EditSection(i: nat, e: SectionEdit)
      requires Valid() && i < |sections|
      modifies this
      ensures metadata == old(metadata) && sections == UpdateSection(old(sections), i, e)
      ensures Valid()
    {
      sections := UpdateSection(sections, i, e);
    }

    /** A question text, option or point value typed into the form. */
    method EditQuestion(i: nat, j: nat, e: QuestionEdit)
      requires Valid() && i < |sections| && j < |sections[i].questions| && Applies(sections[i].questions[j], e)
      modifies this
      ensures metadata == old(metadata) && sections == UpdateQuestion(old(sections), i, j, e)
      ensures Valid()
    {
      sections := UpdateQuestion(sections, i, j, e);
    }

    /** Choosing the radio button of option `k`. */
    method ChooseAnswer(i: nat, j: nat, k: nat)
      requires Valid() && i < |sections| && j < |sections[i].questions| && k < |sections[i].questions[j].options|
      modifies this
      ensures metadata == old(metadata) && sections == SelectAnswer(old(sections), i, j, k)
      ensures sections[i].questions[j].correctAnswer == old(sections)[i].questions[j].options[k]
      ensures Valid()
    {
      sections := SelectAnswer(sections, i, j, k);
    }

    /** `handleSubmit`: the whole state, under the form's type. */
    method Submit() returns (payload: FormPayload)
      requires Valid()
      ensures payload == FormPayload(testType, metadata, SectionList(sections))
      ensures WellShaped(payload)
    {
      payload := FormPayload(testType, metadata, SectionList(sections));
    }
  }

  /** The writing form. */
  class WritingForm {
    var metadata: FormMetadata
    var prompts: seq<Prompt>

    predicate Valid()
      reads this
    {
      |prompts| <= MaxPrompts
    }

    /** One default prompt to start with. */
    constructor ()
      ensures metadata == BlankMetadata && prompts == [DefaultPrompt]
      ensures Valid()
    {
      metadata := BlankMetadata;
      prompts := [DefaultPrompt];
    }

    method SetMetadata(m: FormMetadata)
      requires Valid()
      modifies this
      ensures metadata == m && prompts == old(prompts)
      ensures Valid()
    {
      metadata := m;
    }

    /** The "Add Prompt" button, shown only while there are fewer than three prompts. */
    method AddPrompt()
      requires Valid() && |prompts| < MaxPrompts
      modifies this
      ensures metadata == old(metadata) && prompts == old(prompts) + [DefaultPrompt]
      ensures Valid()
    {
      prompts := prompts + [DefaultPrompt];
    }

    /** A prompt type, text or word limit typed into the form. */
    method EditPrompt(i: nat, e: PromptEdit)
      requires Valid() && i < |prompts|
      modifies this
      ensures metadata == old(metadata) && prompts == UpdatePrompt(old(prompts), i, e)
      ensures Valid()
    {
      prompts := UpdatePrompt(prompts, i, e);
    }

    /** `handleSubmit`: the prompts go under `sections`, with type "writing". */
    method Submit() returns (payload: FormPayload)
      requires Valid()
      ensures payload == FormPayload("writing", metadata, PromptList(prompts))
      ensures WellShaped(payload)
    {
      payload := FormPayload("writing", metadata, PromptList(prompts));
    }
  }
}

=== FILE: listing.dfy ===
/**
 * The test listing endpoint: every row of `Tests!A2:G` becomes one test
 * object, its fields taken by column position. A cell missing from a short
 * row is an absent field.
 */
module Listing {
  import opened Wrappers
  import opened Text
  import opened Store
  import opened CreateTest

  datatype TestSummary = TestSummary(
    testId: Option<string>,
    testType: Option<string>,
    title: Option<string>,
    description: Option<string>,
    createdAt: Option<string>,
    testDate: Option<string>,
    totalPoints: Option<string>)

  datatype ListReply = Listed(tests: seq<TestSummary>) | MethodNotAllowed

  /** Columns A to G of a Tests row as a test object. */
  function SummaryOf(row: Row): TestSummary
  {
    TestSummary(Cell(row, 0), Cell(row, 1), Cell(row, 2), Cell(row, 3), Cell(row, 4), Cell(row, 5), Cell(row, 6))
  }

  /** The handler over the Tests table; an empty table lists no tests. */
  function ListTests(httpMethod: string, tests: seq<Row>): (r: ListReply)
    ensures r.MethodNotAllowed? <==> httpMethod != "GET"
    ensures r.Listed? ==> |r.tests| == |tests|
    ensures r.Listed? ==> forall k :: 0 <= k < |tests| ==> r.tests[k] == SummaryOf(tests[k])
  {
    if httpMethod == "GET" then
      var read := ClipAll(tests, 7);
      assert forall k :: 0 <= k < |tests| ==> SummaryOf(read[k]) == SummaryOf(tests[k]) by {
        forall k | 0 <= k < |tests|
          ensures SummaryOf(read[k]) == SummaryOf(tests[k])
        {
          ClippedSummary(tests[k]);
        }
      }
      Listed(seq(|read|, k requires 0 <= k < |read| => SummaryOf(read[k])))
    else MethodNotAllowed
  }

  /** Columns past G never show in a test object. */
  lemma ClippedSummary(row: Row)
    ensures SummaryOf(Clip(row, 7)) == SummaryOf(row)
  {
    var c := Clip(row, 7);
    assert forall i :: 0 <= i < 7 ==> Cell(c, i) == Cell(row, i);
  }

  /**
   * Writing a test's submission count into column H leaves the listing as
   * it was, for a row that already has its seven columns.
   */
  lemma ListingIgnoresCount(httpMethod: string, tests: seq<Row>, k: nat, count: string)
    requires k < |tests| && 7 <= |tests[k]|
    ensures ListTests(httpMethod, tests[k := SetField(tests[k], 7, count)]) == ListTests(httpMethod, tests)
  {
    var after := tests[k := SetField(tests[k], 7, count)];
    var row, row' := tests[k], after[k];
    assert forall i :: 0 <= i < 7 ==> Cell(row', i) == Cell(row, i);
    assert SummaryOf(row') == SummaryOf(row);
    if httpMethod == "GET" {
      var a, b := ListTests(httpMethod, after), ListTests(httpMethod, tests);
      assert |a.tests| == |b.tests|;
      assert forall j :: 0 <= j < |tests| ==> a.tests[j] == b.tests[j];
    }
  }

  /** A test stored by creation lists with every field it was created with. */
  lemma CreatedTestListed(id: string, testType: string, m: Metadata, createdAt: string, total: int)
    ensures var s := SummaryOf(TestsRow(id, testType, m, createdAt, total));
      && s.testId == Some(id) && s.testType == Some(testType)
      && s.title == Some(m.title) && s.description == Some(m.description)
      && s.createdAt == Some(createdAt) && s.testDate == Some(m.testDate)
      && s.totalPoints.Some? && ParseInt(s.totalPoints.value) == Some(total)
  {
  }
}

=== FILE: monitoring.dfy ===
/**
 * Execution statistics of one test: how many submissions it has, how many
 * of them are completed, and the rounded mean score of the completed ones.
 * The statistics start at zero and are filled in field by field; a failure
 * leaves them at zero and records one error message.
 */
module Monitoring {
  import opened Wrappers
  import opened Text
  import opened Store
  import opened Sheets

  /** The statistics object; the start time and the time of each error are not modelled. */
  datatype MonitorStats = MonitorStats(submissions: nat, completions: nat, averageScore: int, errors: seq<string>)

  /** The initial statistics. */
  const Initial := MonitorStats(0, 0, 0, [])

  /** The message of the failure every call takes as written. */
  const MissingClient := "getGoogleSheets is not defined"

  /** `parseInt(cell) || 0`: an unparsable score counts as zero. */
  function ScoreOf(row: Row): (n: int)
    ensures ParseInt(Field(row, 2)) == Some(n) || (ParseInt(Field(row, 2)).None? && n == 0)
  {
    match ParseInt(Field(row, 2))
    case Some(n) => n
    case None => 0
  }

  /** The scores of the rows, in order. */
  function Scores(rows: seq<Row>): (r: seq<int>)
    ensures |r| == |rows|
    ensures forall k :: 0 <= k < |rows| ==> r[k] == ScoreOf(rows[k])
  {
    seq(|rows|, k requires 0 <= k < |rows| => ScoreOf(rows[k]))
  }

  function Sum(xs: seq<int>): int
  {
    if xs == [] then 0 else Sum(xs[..|xs| - 1]) + xs[|xs| - 1]
  }

  /**
   * `Math.round(sum / n)`, or 0 for no scores: the integer nearest the
   * mean, halves rounded up.
   */
  function RoundedMean(xs: seq<int>): (r: int)
    ensures xs == [] ==> r == 0
    ensures xs != [] ==> 2 * |xs| * r <= 2 * Sum(xs) + |xs| < 2 * |xs| * r + 2 * |xs|
  {
    if xs == [] then 0
    else
      var n := |xs|;
      var r := (2 * Sum(xs) + n) / (2 * n);
      assert 2 * n * r <= 2 * Sum(xs) + n < 2 * n * r + 2 * n by {
        var m := 2 * Sum(xs) + n;
        assert m == (2 * n) * (m / (2 * n)) + m % (2 * n);
      }
      r
  }

  /** Every score in `[lo, hi]` makes the sum lie between `n * lo` and `n * hi`. */
  lemma {:induction false} SumBounds(xs: seq<int>, lo: int, hi: int)
    requires forall k :: 0 <= k < |xs| ==> lo <= xs[k] <= hi
    ensures |xs| * lo <= Sum(xs) <= |xs| * hi
  {
    if xs != [] {
      var init := xs[..|xs| - 1];
      SumBounds(init, lo, hi);
      assert Sum(xs) == Sum(init) + xs[|xs| - 1];
      assert |xs| * lo == |init| * lo + lo && |xs| * hi == |init| * hi + hi;
    }
  }

  lemma {:induction false} MulMonotone(c: nat, a: int, b: int)
    requires a <= b
    ensures c * a <= c * b
  {
    if c > 0 {
      MulMonotone(c - 1, a, b);
      assert c * a == (c - 1) * a + a && c * b == (c - 1) * b + b;
    }
  }

  /** A mean rounded to `r` lies within bounds that hold for the sum. */
  lemma RoundedBetween(n: int, r: int, sum: int, lo: int, hi: int)
    requires n > 0 && n * lo <= sum <= n * hi
    requires 2 * n * r <= 2 * sum + n < 2 * n * r + 2 * n
    ensures lo <= r <= hi
  {
    var m := 2 * n;
    assert 2 * (n * lo) == m * lo && 2 * (n * hi) == m * hi;
    if r < lo {
      assert m * (r + 1) == m * r + m;
      MulMonotone(m, r + 1, lo);
    }
    if r > hi {
      assert m * (hi + 1) == m * hi + m;
      MulMonotone(m, hi + 1, r);
    }
  }

  /** The rounded mean never leaves the range of the scores it averages. */
  lemma MeanWithinScores(xs: seq<int>, lo: int, hi: int)
    requires xs != []
    requires forall k :: 0 <= k < |xs| ==> lo <= xs[k] <= hi
    ensures lo <= RoundedMean(xs) <= hi
  {
    SumBounds(xs, lo, hi);
    RoundedBetween(|xs|, RoundedMean(xs), Sum(xs), lo, hi);
  }

  /**
   * `monitorTestExecution` with the client in scope, over the rows of
   * `Submissions!A2:F`: the statistics are filled in one field at a time.
   */
  method MonitorTestExecution(rows: seq<Row>, testId: string) returns (stats: MonitorStats)
    ensures stats.submissions == |RowsOf(rows, testId)|
    ensures stats.completions == |CompletedRows(RowsOf(rows, testId))| <= stats.submissions
    ensures stats.averageScore == RoundedMean(Scores(CompletedRows(RowsOf(rows, testId))))
    ensures stats.errors == []
  {
    stats := Initial;
    var read := ClipAll(rows, 6);
    var submissions := RowsOf(read, testId);
    ClippedRowsOf(rows, testId, 6);
    ClippedCompleted(RowsOf(rows, testId));
    stats := stats.(submissions := |submissions|);
    var completed := CompletedRows(submissions);
    stats := stats.(completions := |completed|);
    var scores := Scores(completed);
    ClippedScores(CompletedRows(RowsOf(rows, testId)));
    stats := stats.(averageScore := RoundedMean(scores));
  }

  /** Reading columns A to F keeps column D, so the same rows count as completed. */
  lemma {:induction false} ClippedCompleted(rows: seq<Row>)
    ensures CompletedRows(ClipAll(rows, 6)) == ClipAll(CompletedRows(rows), 6)
  {
    if rows != [] {
      var init, last := rows[..|rows| - 1], rows[|rows| - 1];
      ClipAllSplit(rows, 6);
      ClippedCompleted(init);
      assert Field(Clip(last, 6), 3) == Field(last, 3);
      var head := CompletedRows(init);
      if Field(last, 3) == "true" {
        ClipAllSnoc(head, last, 6);
      } else {
        assert head + [] == head;
      }
    }
  }

  /** Reading columns A to F keeps column C, so the scores are unchanged. */
  lemma ClippedScores(rows: seq<Row>)
    ensures Scores(ClipAll(rows, 6)) == Scores(rows)
  {
    var c := ClipAll(rows, 6);
    assert forall k :: 0 <= k < |rows| ==> Field(c[k], 2) == Field(rows[k], 2);
  }

  /**
   * `monitorTestExecution` as written: `getGoogleSheets` is never imported
   * into the file, so the first call throws a reference error; the catch
   * records it and the statistics stay at zero.
   */
  method MonitorAsWritten(rows: seq<Row>, testId: string) returns (stats: MonitorStats)
    ensures stats == MonitorStats(0, 0, 0, [MissingClient])
    ensures RowsOf(rows, testId) != [] ==> stats.submissions != |RowsOf(rows, testId)|
  {
    stats := Initial;
    stats := stats.(errors := stats.errors + [MissingClient]);
  }
}

=== FILE: points.dfy ===
/**
 * The point-total check run before a test is stored: a writing test is
 * always worth exactly 50 points; a reading or listening test must carry
 * the sum of its question points, and every question is worth at least
 * one point. Any other type is accepted without checks.
 */
module Points {
  import opened Wrappers
  import opened Content
  import opened RowCodec

  /** The total every writing test must carry. */
  const WritingTotal := 50

  /** Why a test's points were refused; question and section numbers are 1-based. */
  datatype PointsError =
    | WritingNotFifty(stored: int)
    | Mismatch(stored: int, calculated: int)
    | InvalidPoints(points: int, question: nat, section: nat)

  /** The points of a list of questions, added in order. */
  function QuestionPoints(qs: seq<Question>): int
  {
    if qs == [] then 0 else QuestionPoints(qs[..|qs| - 1]) + qs[|qs| - 1].points
  }

  /** The points of every question of every section. */
  function TotalPoints(ss: seq<Section>): int
  {
    if ss == [] then 0 else TotalPoints(ss[..|ss| - 1]) + QuestionPoints(ss[|ss| - 1].questions)
  }

  /** Question `(s, q)` comes before question `(s', q')` in section-major order. */
  predicate Before(s: nat, q: nat, s': nat, q': nat)
  {
    s < s' || (s == s' && q < q')
  }

  /** The first question with fewer than one point, by index within its list. */
  function FirstLow(qs: seq<Question>): (r: Option<nat>)
    ensures r.Some? ==> r.value < |qs| && qs[r.value].points < 1
    ensures r.Some? ==> forall k :: 0 <= k < r.value ==> qs[k].points >= 1
    ensures r.None? <==> forall k :: 0 <= k < |qs| ==> qs[k].points >= 1
  {
    if qs == [] then None
    else if qs[0].points < 1 then Some(0)
    else match FirstLow(qs[1..])
      case None => None
      case Some(k) => Some(k + 1)
  }

  /**
   * The first question, in section-major order, with fewer than one point,
   * as (section index, question index).
   */
  function FirstInvalid(ss: seq<Section>): (r: Option<(nat, nat)>)
    ensures r.Some? ==> r.value.0 < |ss| && r.value.1 < |ss[r.value.0].questions|
    ensures r.Some? ==> ss[r.value.0].questions[r.value.1].points < 1
    ensures r.Some? ==> forall s, q ::
      0 <= s < |ss| && 0 <= q < |ss[s].questions| && Before(s, q, r.value.0, r.value.1) ==>
        ss[s].questions[q].points >= 1
  {
    if ss == [] then None
    else match FirstLow(ss[0].questions)
      case Some(q) => Some((0, q))
      case None =>
        match FirstInvalid(ss[1..])
        case None => None
        case Some(p) => Some((p.0 + 1, p.1))
  }

  /** No question is found exactly when every question is worth at least one point. */
  lemma {:induction false} FirstInvalidNone(ss: seq<Section>)
    ensures FirstInvalid(ss).None? <==> forall s, q :: 0 <= s < |ss| && 0 <= q < |ss[s].questions| ==>
      ss[s].questions[q].points >= 1
  {
    if ss != [] {
      var rest := ss[1..];
      FirstInvalidNone(rest);
      if FirstInvalid(ss).None? {
        forall s, q | 0 <= s < |ss| && 0 <= q < |ss[s].questions|
          ensures ss[s].questions[q].points >= 1
        {
          if s > 0 {
            assert ss[s] == rest[s - 1];
          }
        }
      }
    }
  }

  /**
   * The checks of a reading or listening test: the stored total must be
   * the sum of the question points, then every question must be worth at
   * least one point.
   */
  function ValidateScored(totalPoints: int, content: seq<Section>): (r: Result<bool, PointsError>)
    ensures r.Err? && r.error.Mismatch? <==> totalPoints != TotalPoints(content)
    ensures totalPoints != TotalPoints(content) ==> r == Err(Mismatch(totalPoints, TotalPoints(content)))
    ensures r.Ok? ==> r.value
  {
    var calculated := TotalPoints(content);
    if calculated != totalPoints then Err(Mismatch(totalPoints, calculated))
    else match FirstInvalid(content)
      case Some(p) => Err(InvalidPoints(content[p.0].questions[p.1].points, p.1 + 1, p.0 + 1))
      case None => Ok(true)
  }

  /**
   * A reading or listening test whose total is right passes exactly when
   * every question is worth at least one point.
   */
  lemma ScoredAccepted(totalPoints: int, content: seq<Section>)
    requires totalPoints == TotalPoints(content)
    ensures ValidateScored(totalPoints, content).Ok? <==>
      forall s, q :: 0 <= s < |content| && 0 <= q < |content[s].questions| ==> content[s].questions[q].points >= 1
  {
    FirstInvalidNone(content);
  }

  /**
   * `validateTestPoints`: `Ok(true)` when the points are acceptable,
   * otherwise the error the check throws first.
   */
  function ValidateTestPoints(testType: string, totalPoints: int, content: seq<Section>): (r: Result<bool, PointsError>)
    ensures testType == "writing" ==> (r.Ok? <==> totalPoints == WritingTotal)
    ensures testType == "writing" && r.Err? ==> r.error == WritingNotFifty(totalPoints)
    ensures (testType == "reading" || testType == "listening") ==> r == ValidateScored(totalPoints, content)
    ensures testType != "writing" && testType != "reading" && testType != "listening" ==> r == Ok(true)
    ensures r.Ok? ==> r.value
  {
    if testType == "writing" then
      if totalPoints != WritingTotal then Err(WritingNotFifty(totalPoints)) else Ok(true)
    else if testType == "reading" || testType == "listening" then ValidateScored(totalPoints, content)
    else Ok(true)
  }

  /**
   * The question a reading or listening test is refused for is the first
   * one, in section-major order, worth less than one point.
   */
  lemma FirstLowQuestionReported(testType: string, content: seq<Section>, s: nat, q: nat)
    requires testType == "reading" || testType == "listening"
    requires s < |content| && q < |content[s].questions| && content[s].questions[q].points < 1
    requires forall s', q' ::
      0 <= s' < |content| && 0 <= q' < |content[s'].questions| && Before(s', q', s, q) ==>
        content[s'].questions[q'].points >= 1
    ensures ValidateTestPoints(testType, TotalPoints(content), content) ==
      Err(InvalidPoints(content[s].questions[q].points, q + 1, s + 1))
  {
    FirstInvalidIs(content, s, q);
    ScoredAtFirstInvalid(content, TotalPoints(content), s, q);
  }

  lemma ScoredAtFirstInvalid(content: seq<Section>, total: int, s: nat, q: nat)
    requires total == TotalPoints(content)
    requires FirstInvalid(content) == Some((s, q))
    ensures s < |content| && q < |content[s].questions|
    ensures ValidateScored(total, content) == Err(InvalidPoints(content[s].questions[q].points, q + 1, s + 1))
  {
  }

  /** The first low question is unique: no other one comes before it. */
  lemma FirstInvalidIs(ss: seq<Section>, s: nat, q: nat)
    requires s < |ss| && q < |ss[s].questions| && ss[s].questions[q].points < 1
    requires forall s', q' ::
      0 <= s' < |ss| && 0 <= q' < |ss[s'].questions| && Before(s', q', s, q) ==>
        ss[s'].questions[q'].points >= 1
    ensures FirstInvalid(ss) == Some((s, q))
  {
    FirstInvalidNone(ss);
    var p := FirstInvalid(ss);
    assert p.Some?;
    var s0, q0 := p.value.0, p.value.1;
    assert ss[s0].questions[q0].points < 1;
    assert !Before(s0, q0, s, q);
    assert !Before(s, q, s0, q0);
  }

  /**
   * Every question worth at least one point makes the total at least the
   * number of questions.
   */
  lemma {:induction false} TotalAtLeastCount(ss: seq<Section>)
    requires forall s, q :: 0 <= s < |ss| && 0 <= q < |ss[s].questions| ==> ss[s].questions[q].points >= 1
    ensures TotalPoints(ss) >= QuestionCount(ss)
  {
    if ss != [] {
      var init := ss[..|ss| - 1];
      assert forall s, q :: 0 <= s < |init| && 0 <= q < |init[s].questions| ==>
        init[s].questions[q] == ss[s].questions[q];
      TotalAtLeastCount(init);
      QuestionPointsAtLeastCount(ss[|ss| - 1].questions);
    }
  }

  lemma {:induction false} QuestionPointsAtLeastCount(qs: seq<Question>)
    requires forall k :: 0 <= k < |qs| ==> qs[k].points >= 1
    ensures QuestionPoints(qs) >= |qs|
  {
    if qs != [] {
      QuestionPointsAtLeastCount(qs[..|qs| - 1]);
    }
  }

  /** An accepted reading or listening test carries at least one point per question. */
  lemma AcceptedTotalBound(testType: string, totalPoints: int, content: seq<Section>)
    requires testType == "reading" || testType == "listening"
    requires ValidateTestPoints(testType, totalPoints, content).Ok?
    ensures totalPoints >= QuestionCount(content)
  {
    assert ValidateScored(totalPoints, content).Ok?;
    ScoredAccepted(totalPoints, content);
    TotalAtLeastCount(content);
  }
}

=== FILE: preview.dfy ===
/**
 * The preview dialog (`ModalContent`): one section or prompt at a time,
 * "Previous"/"Next" navigation, a countdown shown as MM:SS, the fallbacks
 * the writing view applies to a prompt row, and its word count.
 */
module Preview {
  import opened Wrappers
  import opened Text
  import opened Store
  import opened Content
  import opened RowCodec
  import opened PreviewDecode

  // The countdown.

  /** `String(n).padStart(2, '0')` on both parts, joined by a colon. */
  function ClockText(minutes: nat, seconds: nat): string
  {
    Pad2(minutes) + ":" + Pad2(seconds)
  }

  lemma Pad2Zero(n: nat)
    ensures Pad2(n) == "00" <==> n == 0
  {
    if Pad2(n) == "00" {
      assert DigitsValue("00") == 0;
    }
  }

  /** The interval runs until the text reads "00:00", which is exactly a zero clock. */
  lemma ClockStopsAtZero(minutes: nat, seconds: nat)
    ensures ClockText(minutes, seconds) == "00:00" <==> minutes == 0 && seconds == 0
  {
    var m, s := Pad2(minutes), Pad2(seconds);
    Pad2Zero(minutes);
    Pad2Zero(seconds);
    if ClockText(minutes, seconds) == "00:00" {
      assert |m| == 2 && |s| == 2;
      assert m == ClockText(minutes, seconds)[..2];
      assert s == ClockText(minutes, seconds)[3..];
    }
  }

  /** One tick: a second off, borrowing a minute at `:00`; a clock at zero no longer runs. */
  function TickClock(minutes: nat, seconds: nat): (r: (nat, nat))
    requires seconds < 60
    ensures r.1 < 60
    ensures minutes == 0 && seconds == 0 ==> r == (0, 0)
    ensures !(minutes == 0 && seconds == 0) ==> 60 * r.0 + r.1 == 60 * minutes + seconds - 1
  {
    if minutes == 0 && seconds == 0 then (0, 0)
    else if seconds == 0 then (minutes - 1, 59)
    else (minutes, seconds - 1)
  }

  function Ticks(minutes: nat, seconds: nat, n: nat): (r: (nat, nat))
    requires seconds < 60
    ensures r.1 < 60
  {
    if n == 0 then (minutes, seconds)
    else
      var before := Ticks(minutes, seconds, n - 1);
      TickClock(before.0, before.1)
  }

  /** After `n` ticks the clock shows `n` seconds less, and never less than zero. */
  lemma {:induction false} Countdown(minutes: nat, seconds: nat, n: nat)
    requires seconds < 60
    ensures var r := Ticks(minutes, seconds, n);
      60 * r.0 + r.1 == if n <= 60 * minutes + seconds then 60 * minutes + seconds - n else 0
  {
    if n > 0 {
      Countdown(minutes, seconds, n - 1);
    }
  }

  // The writing view.

  /** JavaScript `a || b` on strings: `b` when `a` is empty. */
  function Or(a: string, b: string): (r: string)
    ensures a != "" ==> r == a
    ensures a == "" ==> r == b
  {
    if a != "" then a else b
  }

  /** What `WritingPreview` shows for a prompt: its type, text and word limit. */
  datatype PromptView = PromptView(promptType: string, text: string, wordLimit: string)

  /** The view of the empty default prompt, and of anything without those fields. */
  const DefaultView := PromptView("ESSAY", "", "500")

  /** `prompt.type || prompt[2] || "ESSAY"` and the like, for a stored row or another value. */
  function ViewPrompt(item: Item): (v: PromptView)
    ensures v.promptType != "" && v.wordLimit != ""
    ensures !item.RowItem? ==> v == DefaultView
  {
    match item
    case RowItem(cells) => PromptView(Or(Field(cells, 2), "ESSAY"), Field(cells, 3), Or(Field(cells, 4), "500"))
    case Other => DefaultView
  }

  /** A stored prompt row with a type is shown with its own type, text and word limit. */
  lemma PromptRowShown(id: string, k: nat, p: Prompt)
    requires p.promptType != ""
    ensures ViewPrompt(RowItem(PromptRow(id, k, p))) == PromptView(p.promptType, p.text, IntToString(p.wordLimit))
  {
  }

  /** A stored prompt row with an empty type falls back to "ESSAY" and keeps the rest. */
  lemma UntypedPromptRowShown(id: string, k: nat, p: Prompt)
    requires p.promptType == ""
    ensures ViewPrompt(RowItem(PromptRow(id, k, p))) == PromptView("ESSAY", p.text, IntToString(p.wordLimit))
  {
  }

  // The word count.

  /** The white space `\s` and `trim` recognise (the ASCII part). */
  predicate IsSpace(c: char)
  {
    c == ' ' || c == '\t' || c == '\n' || c == '\r' || c == '\U{B}' || c == '\U{C}'
  }

  function TrimStart(s: string): (r: string)
    ensures r == [] || !IsSpace(r[0])
  {
    if s != [] && IsSpace(s[0]) then TrimStart(s[1..]) else s
  }

  function TrimEnd(s: string): (r: string)
    ensures |r| <= |s| && r == s[..|r|]
    ensures r == [] || !IsSpace(r[|r| - 1])
  {
    if s != [] && IsSpace(s[|s| - 1]) then TrimEnd(s[..|s| - 1]) else s
  }

  /** `String.prototype.trim`. */
  function Trim(s: string): (r: string)
    ensures r == [] || (!IsSpace(r[0]) && !IsSpace(r[|r| - 1]))
  {
    TrimEnd(TrimStart(s))
  }

  /** The number of maximal runs of white space. */
  function SpaceRuns(s: string): nat
  {
    if s == [] then 0
    else
      var init, c := s[..|s| - 1], s[|s| - 1];
      SpaceRuns(init) + (if IsSpace(c) && (init == [] || !IsSpace(init[|init| - 1])) then 1 else 0)
  }

  /** The number of words: maximal runs of other characters. */
  function Words(s: string): nat
  {
    if s == [] then 0
    else
      var init, c := s[..|s| - 1], s[|s| - 1];
      Words(init) + (if !IsSpace(c) && (init == [] || IsSpace(init[|init| - 1])) then 1 else 0)
  }

  /**
   * `response.trim().split(/\s+/).length || 0` as written: the split cuts
   * the trimmed text at every run of white space, so it yields one piece more
   * than there are runs, and the length is never 0.
   */
  function WordCountAsWritten(essay: string): (n: nat)
    ensures 1 <= n
  {
    1 + SpaceRuns(Trim(essay))
  }

  /** The count with a blank essay counting no words. */
  function WordCount(essay: string): (n: nat)
    ensures n <= WordCountAsWritten(essay)
    ensures n != 0 ==> n == WordCountAsWritten(essay)
  {
    var t := Trim(essay);
    if t == [] then 0 else 1 + SpaceRuns(t)
  }

  /** Runs alternate, so words and white-space runs differ by the kinds of the two ends. */
  lemma {:induction false} RunsBalance(s: string)
    requires s != []
    ensures Words(s) + 1 == SpaceRuns(s) + (if IsSpace(s[0]) then 0 else 1) + (if IsSpace(s[|s| - 1]) then 0 else 1)
  {
    var init := s[..|s| - 1];
    if init != [] {
      RunsBalance(init);
      assert init[0] == s[0];
    }
  }

  lemma {:induction false} WordsAfterSpace(c: char, t: string)
    requires IsSpace(c)
    ensures Words([c] + t) == Words(t)
  {
    if t != [] {
      var init := t[..|t| - 1];
      WordsAfterSpace(c, init);
      assert ([c] + t)[..|t|] == [c] + init;
      if init == [] {
        assert Words(t) == if IsSpace(t[0]) then 0 else 1;
      }
    }
  }

  lemma {:induction false} WordsTrimStart(s: string)
    ensures Words(TrimStart(s)) == Words(s)
  {
    if s != [] && IsSpace(s[0]) {
      WordsTrimStart(s[1..]);
      WordsAfterSpace(s[0], s[1..]);
      assert [s[0]] + s[1..] == s;
    }
  }

  lemma {:induction false} WordsTrimEnd(s: string)
    ensures Words(TrimEnd(s)) == Words(s)
  {
    if s != [] && IsSpace(s[|s| - 1]) {
      WordsTrimEnd(s[..|s| - 1]);
    }
  }

  /** The corrected count is the number of words in the essay. */
  lemma WordCountIsWords(essay: string)
    ensures WordCount(essay) == Words(essay)
  {
    var t := Trim(essay);
    WordsTrimStart(essay);
    WordsTrimEnd(TrimStart(essay));
    if t != [] {
      RunsBalance(t);
    }
  }

  /** A text has no words exactly when it is all white space. */
  lemma {:induction false} NoWordsIffBlank(s: string)
    ensures Words(s) == 0 <==> forall i :: 0 <= i < |s| ==> IsSpace(s[i])
  {
    if s != [] {
      var init := s[..|s| - 1];
      NoWordsIffBlank(init);
      assert forall i :: 0 <= i < |init| ==> init[i] == s[i];
    }
  }

  /** As written, a blank essay (the empty one included) is counted as one word. */
  lemma BlankEssayCountsOne(essay: string)
    requires forall i :: 0 <= i < |essay| ==> IsSpace(essay[i])
    ensures WordCountAsWritten(essay) == 1 && Words(essay) == 0
  {
    NoWordsIffBlank(essay);
    WordsTrimStart(essay);
    WordsTrimEnd(TrimStart(essay));
    var t := Trim(essay);
    if t != [] {
      RunsBalance(t);
    }
  }

  /** On an essay with words the two counts agree. */
  lemma CountsAgreeOnWords(essay: string)
    requires Words(essay) > 0
    ensures WordCountAsWritten(essay) == WordCount(essay) == Words(essay)
  {
    WordCountIsWords(essay);
    WordsTrimStart(essay);
    WordsTrimEnd(TrimStart(essay));
  }

  // The dialog.

  /** What the dialog shows for the current index. */
  datatype Shown = SectionShown(section: PreviewSection) | PromptShown(prompt: PromptView)

  /** `getCurrentContent`'s fallback for a reading or listening test. */
  const EmptySection := PreviewSection("", "", [])

  class PreviewModal {
    const writing: bool
    const sections: seq<PreviewSection>
    const prompts: seq<Item>
    var current: int
    var minutes: nat
    var seconds: nat
    var closed: bool

    /** `Math.max(1, processedContent.length)`: the dialog always has a section to show. */
    function Total(): (n: nat)
      ensures 1 <= n
      ensures n == if writing then (if prompts == [] then 1 else |prompts|) else (if sections == [] then 1 else |sections|)
    {
      var length := if writing then |prompts| else |sections|;
      if length < 1 then 1 else length
    }

    ghost predicate Valid()
      reads this
    {
      0 <= current < Total() && seconds < 60
    }

    function TimeRemaining(): string
      reads this
    {
      ClockText(minutes, seconds)
    }

    /**
     * `ModalContent` for a test with a type: sections decoded from the raw
     * content with the keys in default (string) sort order, prompts as they
     * are for a writing test, the first section shown and the clock at 45:00
     * for writing, 60:00 otherwise.
     */
    constructor (testType: string, raw: Raw)
      requires testType != ""
      requires testType == "writing" ==> raw.RawArray?
      ensures Valid() && current == 0 && !closed
      ensures writing <==> testType == "writing"
      ensures writing ==> prompts == raw.items && sections == []
      ensures !writing ==> prompts == [] && Sections(sections) == TransformAsWritten(raw, testType)
      ensures (minutes, seconds) == (if writing then (45, 0) else (60, 0))
    {
      writing := testType == "writing";
      if testType == "writing" {
        prompts := raw.items;
        sections := [];
      } else {
        var r := TransformContent(raw, testType, StrLess);
        sections := r.sections;
        prompts := [];
      }
      current := 0;
      minutes := if testType == "writing" then 45 else 60;
      seconds := 0;
      closed := false;
    }

    /** The same dialog with the section keys compared as numbers, so stored order is kept. */
    constructor Corrected(testType: string, raw: Raw)
      requires testType != ""
      requires testType == "writing" ==> raw.RawArray?
      ensures Valid() && current == 0 && !closed
      ensures writing <==> testType == "writing"
      ensures writing ==> prompts == raw.items && sections == []
      ensures !writing ==> prompts == [] && Sections(sections) == TransformCorrected(raw, testType)
      ensures (minutes, seconds) == (if writing then (45, 0) else (60, 0))
    {
      writing := testType == "writing";
      if testType == "writing" {
        prompts := raw.items;
        sections := [];
      } else {
        var r := TransformContent(raw, testType, OrdinalLess);
        sections := r.sections;
        prompts := [];
      }
      current := 0;
      minutes := if testType == "writing" then 45 else 60;
      seconds := 0;
      closed := false;
    }

    /** `getCurrentContent`: the current section or prompt, or the empty default when there is none. */
    function CurrentContent(): (r: Shown)
      reads this
      ensures Valid() && !writing && sections != [] ==> r == SectionShown(sections[current])
      ensures Valid() && !writing && sections == [] ==> r == SectionShown(EmptySection)
      ensures Valid() && writing && prompts != [] ==> r == PromptShown(ViewPrompt(prompts[current]))
      ensures Valid() && writing && prompts == [] ==> r == PromptShown(DefaultView)
    {
      if writing then
        PromptShown(if 0 <= current < |prompts| then ViewPrompt(prompts[current]) else DefaultView)
      else
        SectionShown(if 0 <= current < |sections| then sections[current] else EmptySection)
    }

    /** "Previous Section": one back, never before the first. */
    method Previous()
      requires Valid()
      modifies this
      ensures Valid()
      ensures current == if old(current) == 0 then 0 else old(current) - 1
      ensures minutes == old(minutes) && seconds == old(seconds) && closed == old(closed)
    {
      current := if current - 1 < 0 then 0 else current - 1;
    }

    /** "Next Section"; on the last section the button closes the dialog instead. */
    method Next()
      requires Valid()
      modifies this
      ensures Valid()
      ensures old(current) == Total() - 1 ==> closed && current == old(current)
      ensures old(current) < Total() - 1 ==> current == old(current) + 1 && closed == old(closed)
      ensures minutes == old(minutes) && seconds == old(seconds)
    {
      if current >= Total() - 1 {
        closed := true;
      } else {
        current := current + 1;
      }
    }

    /** One second of the interval, which runs while the clock does not read "00:00". */
    method Tick()
      requires Valid()
      modifies this
      ensures Valid() && current == old(current) && closed == old(closed)
      ensures (minutes, seconds) == TickClock(old(minutes), old(seconds))
    {
      ClockStopsAtZero(minutes, seconds);
      if TimeRemaining() != "00:00" {
        var newMinutes, newSeconds := minutes, seconds - 1;
        if newSeconds < 0 {
          newMinutes := newMinutes - 1;
          newSeconds := 59;
        }
        minutes, seconds := newMinutes, newSeconds;
      }
    }
  }
}

=== FILE: preview_decode.dfy ===
/**
 * The preview's lenient decoder (`transformContent`): it turns the raw
 * content array of a reading or listening test into sections for display.
 * Unlike the editor's decoder it never fails: items that are not rows or
 * that lack an ordinal are skipped, malformed options become an empty list,
 * gaps in the question ordinals are padded with placeholders, and points are
 * not carried over. Sections come out in the order of their ordinal keys,
 * sorted by the key order `less`: `Array.prototype.sort()` with no
 * comparator (string order) in the code as written.
 */
module PreviewDecode {
  import opened Wrappers
  import opened Text
  import opened Sorting
  import opened Store
  import opened Content
  import opened RowCodec

  /** An element of the raw content array: a row, or any other JSON value. */
  datatype Item = RowItem(cells: Row) | Other

  /** The raw content: an array, or any other value. */
  datatype Raw = RawArray(items: seq<Item>) | NotArray

  datatype PreviewQuestion = PreviewQuestion(text: string, options: seq<string>, correctAnswer: string)

  datatype PreviewSection = PreviewSection(title: string, content: string, questions: seq<PreviewQuestion>)

  /** The decoder's result: sections, or (for a writing test) the raw items unchanged. */
  datatype Transformed = Sections(sections: seq<PreviewSection>) | Items(items: seq<Item>)

  /** What fills a gap in the question ordinals. */
  const Placeholder := PreviewQuestion("", [], "")

  /** `JSON.parse(item[6] || '[]')` inside its try/catch: anything but a list of strings is `[]`. */
  function OptionsOf(cell: string): (r: seq<string>)
    ensures cell == "" ==> r == []
    ensures DecodeStrings(cell).Some? && cell != "" ==> r == DecodeStrings(cell).value
    ensures DecodeStrings(cell).None? ==> r == []
  {
    var json := if cell == "" then "[]" else cell;
    assert json == "[]" ==> DecodeStrings(json) == Some([]);
    match DecodeStrings(json)
    case Some(xs) => xs
    case None => []
  }

  /** `n` placeholders. */
  function Padding(n: nat): (r: seq<PreviewQuestion>)
    ensures |r| == n && forall i :: 0 <= i < n ==> r[i] == Placeholder
  {
    if n == 0 then [] else Padding(n - 1) + [Placeholder]
  }

  /** `questions[k] = q` after the loop that pads the list with placeholders up to index `k`. */
  function Place(qs: seq<PreviewQuestion>, k: nat, q: PreviewQuestion): (r: seq<PreviewQuestion>)
    ensures |r| == if k < |qs| then |qs| else k + 1
    ensures r[k] == q
    ensures forall i :: 0 <= i < |r| && i != k ==> r[i] == if i < |qs| then qs[i] else Placeholder
  {
    var padded := if k < |qs| then qs else qs + Padding(k + 1 - |qs|);
    padded[k := q]
  }

  /** The object `sectionMap`: its keys in insertion order and its entries. */
  datatype SectionMap = SectionMap(keys: seq<string>, entries: map<string, PreviewSection>)

  const EmptyMap := SectionMap([], map[])

  /** The keys list holds each entry's key exactly once. */
  ghost predicate Valid(m: SectionMap)
  {
    && (forall key :: key in m.keys <==> key in m.entries)
    && Distinct(m.keys)
  }

  /** An item the loop does not skip: a row with a section and a question ordinal. */
  predicate Usable(item: Item)
  {
    item.RowItem? && Field(item.cells, 1) != "" && Field(item.cells, 4) != ""
  }

  /** The question an item describes: text, options and answer only. */
  function QuestionOf(cells: Row): PreviewQuestion
  {
    PreviewQuestion(Field(cells, 5), OptionsOf(Field(cells, 6)), Field(cells, 7))
  }

  /** The section with the item's question put at `parseInt(ordinal) - 1`, when that is an index. */
  function WithQuestion(sec: PreviewSection, cells: Row): PreviewSection
  {
    match Index(Field(cells, 4))
    case Some(k) => sec.(questions := Place(sec.questions, k, QuestionOf(cells)))
    case None => sec
  }

  /** One pass of the `for` loop's body. */
  function LenientStep(m: SectionMap, item: Item): (r: SectionMap)
    ensures !Usable(item) ==> r == m
  {
    if !Usable(item) then m
    else
      var key := Field(item.cells, 1);
      if key in m.entries then
        SectionMap(m.keys, m.entries[key := WithQuestion(m.entries[key], item.cells)])
      else
        var sec := PreviewSection(Field(item.cells, 2), Field(item.cells, 3), []);
        SectionMap(m.keys + [key], m.entries[key := WithQuestion(sec, item.cells)])
  }

  function LenientFoldFrom(m: SectionMap, items: seq<Item>): SectionMap
  {
    if items == [] then m
    else LenientStep(LenientFoldFrom(m, items[..|items| - 1]), items[|items| - 1])
  }

  /** `sectionMap` after the loop has seen every item. */
  function LenientFold(items: seq<Item>): SectionMap
  {
    LenientFoldFrom(EmptyMap, items)
  }

  /** A section is added to the key list exactly when it is added to the map. */
  lemma StepValid(m: SectionMap, item: Item)
    requires Valid(m)
    ensures Valid(LenientStep(m, item))
  {
  }

  lemma {:induction false} FoldValid(m: SectionMap, items: seq<Item>)
    requires Valid(m)
    ensures Valid(LenientFoldFrom(m, items))
  {
    if items != [] {
      FoldValid(m, items[..|items| - 1]);
      StepValid(LenientFoldFrom(m, items[..|items| - 1]), items[|items| - 1]);
    }
  }

  lemma SortedKeysInEntries(m: SectionMap, less: (string, string) -> bool)
    requires Valid(m)
    ensures forall key :: key in SortBy(m.keys, less) ==> key in m.entries
  {
    forall key | key in SortBy(m.keys, less)
      ensures key in m.entries
    {
      assert key in multiset(SortBy(m.keys, less));
    }
  }

  /** `Object.keys(sectionMap).sort(less).map(key => sectionMap[key])`. */
  function InKeyOrder(m: SectionMap, less: (string, string) -> bool): (r: seq<PreviewSection>)
    requires Valid(m)
    ensures |r| == |m.keys|
    ensures forall i :: 0 <= i < |r| ==>
      SortBy(m.keys, less)[i] in m.entries && r[i] == m.entries[SortBy(m.keys, less)[i]]
  {
    var keys := SortBy(m.keys, less);
    assert |keys| == |m.keys|;
    SortedKeysInEntries(m, less);
    seq(|keys|, i requires 0 <= i < |keys| => m.entries[keys[i]])
  }

  /**
   * `transformContent(rawContent, testType)`: nothing for a missing type or
   * a non-array, the items unchanged for a writing test, and otherwise the
   * decoded sections in key order.
   */
  function Transform(raw: Raw, testType: string, less: (string, string) -> bool): (r: Transformed)
    ensures testType == "" || raw.NotArray? ==> r == Sections([])
    ensures testType == "writing" && raw.RawArray? ==> r == Items(raw.items)
    ensures testType != "" && testType != "writing" && raw.RawArray? ==>
      r.Sections? && |r.sections| == |LenientFold(raw.items).keys|
  {
    if testType == "" || raw.NotArray? then Sections([])
    else if testType == "writing" then Items(raw.items)
    else
      FoldValid(EmptyMap, raw.items);
      Sections(InKeyOrder(LenientFold(raw.items), less))
  }

  /** The decoder as the code has it: keys in string order. */
  function TransformAsWritten(raw: Raw, testType: string): (r: Transformed)
    ensures testType == "" || raw.NotArray? ==> r == Sections([])
    ensures testType == "writing" && raw.RawArray? ==> r == Items(raw.items)
    ensures testType != "" && testType != "writing" && raw.RawArray? ==>
      r.Sections? && |r.sections| == |LenientFold(raw.items).keys|
  {
    Transform(raw, testType, StrLess)
  }

  /**
   * Numeric order of ordinal keys, as a comparator `(a, b) => a - b` gives it;
   * keys that are not numbers follow, in string order.
   */
  predicate OrdinalLess(a: string, b: string)
  {
    match (ParseInt(a), ParseInt(b))
    case (Some(x), Some(y)) => x < y || (x == y && StrLess(a, b))
    case (Some(_), None) => true
    case (None, Some(_)) => false
    case (None, None) => StrLess(a, b)
  }

  /** The decoder with sections in ordinal order. */
  function TransformCorrected(raw: Raw, testType: string): (r: Transformed)
    ensures testType == "" || raw.NotArray? ==> r == Sections([])
    ensures testType == "writing" && raw.RawArray? ==> r == Items(raw.items)
    ensures testType != "" && testType != "writing" && raw.RawArray? ==>
      r.Sections? && |r.sections| == |LenientFold(raw.items).keys|
  {
    Transform(raw, testType, OrdinalLess)
  }

  /** The `while` loop that pads the question list up to index `k`, then the assignment. */
  method PlaceQuestion(qs: seq<PreviewQuestion>, k: nat, q: PreviewQuestion) returns (r: seq<PreviewQuestion>)
    ensures r == Place(qs, k, q)
  {
    r := qs;
    while |r| <= k
      invariant |qs| <= |r|
      invariant |qs| <= k ==> |r| <= k + 1
      invariant k < |qs| ==> |r| == |qs|
      invariant r == qs + Padding(|r| - |qs|)
      decreases k + 1 - |r|
    {
      r := r + [Placeholder];
    }
    assert Padding(0) == [];
    r := r[k := q];
  }

  /** The body of the `for` loop: the item's section is created on first sight, then its question placed. */
  method VisitItem(keys: seq<string>, entries: map<string, PreviewSection>, item: Item)
    returns (keys': seq<string>, entries': map<string, PreviewSection>)
    ensures SectionMap(keys', entries') == LenientStep(SectionMap(keys, entries), item)
  {
    keys', entries' := keys, entries;
    if Usable(item) {
      var key := Field(item.cells, 1);
      var sec;
      if key in entries {
        sec := entries[key];
      } else {
        sec := PreviewSection(Field(item.cells, 2), Field(item.cells, 3), []);
        keys' := keys' + [key];
      }
      match Index(Field(item.cells, 4)) {
        case Some(k) =>
          var questions := PlaceQuestion(sec.questions, k, QuestionOf(item.cells));
          sec := sec.(questions := questions);
        case None =>
      }
      assert sec == WithQuestion(if key in entries then entries[key] else
        PreviewSection(Field(item.cells, 2), Field(item.cells, 3), []), item.cells);
      entries' := entries[key := sec];
    }
  }

  /**
   * `transformContent` step by step: a `for` loop over the items filling
   * the section map, then the keys sorted by `less`.
   */
  method TransformContent(raw: Raw, testType: string, less: (string, string) -> bool) returns (r: Transformed)
    ensures r == Transform(raw, testType, less)
  {
    if testType == "" || raw.NotArray? {
      return Sections([]);
    }
    if testType == "writing" {
      return Items(raw.items);
    }
    var items := raw.items;
    var keys: seq<string> := [];
    var entries: map<string, PreviewSection> := map[];
    for i := 0 to |items|
      invariant SectionMap(keys, entries) == LenientFoldFrom(EmptyMap, items[..i])
    {
      assert items[..i + 1][..i] == items[..i];
      keys, entries := VisitItem(keys, entries, items[i]);
    }
    assert items[..|items|] == items;
    FoldValid(EmptyMap, items);
    r := Sections(InKeyOrder(SectionMap(keys, entries), less));
  }

  /** The usable items, in order. */
  function UsableOnly(items: seq<Item>): (r: seq<Item>)
    ensures forall x :: x in r <==> x in items && Usable(x)
  {
    if items == [] then []
    else
      var init, last := items[..|items| - 1], items[|items| - 1];
      assert items == init + [last];
      UsableOnly(init) + (if Usable(last) then [last] else [])
  }

  /** Items the loop skips contribute nothing: the usable rows alone decide the result. */
  lemma {:induction false} SkippedItemsIgnored(m: SectionMap, items: seq<Item>)
    ensures LenientFoldFrom(m, items) == LenientFoldFrom(m, UsableOnly(items))
  {
    if items != [] {
      var init, last := items[..|items| - 1], items[|items| - 1];
      SkippedItemsIgnored(m, init);
      if Usable(last) {
        var u := UsableOnly(init) + [last];
        assert u[..|u| - 1] == UsableOnly(init);
      } else {
        assert UsableOnly(items) == UsableOnly(init) + [] == UsableOnly(init);
        assert LenientFoldFrom(m, items) == LenientFoldFrom(m, init);
      }
    }
  }

  /** Some usable item names section `key`. */
  ghost predicate NamesSection(items: seq<Item>, key: string)
  {
    exists k :: 0 <= k < |items| && Usable(items[k]) && Field(items[k].cells, 1) == key
  }

  lemma NamesSectionSnoc(items: seq<Item>, key: string)
    requires items != []
    ensures var init, last := items[..|items| - 1], items[|items| - 1];
      NamesSection(items, key) <==> NamesSection(init, key) || (Usable(last) && Field(last.cells, 1) == key)
  {
    var init := items[..|items| - 1];
    if NamesSection(items, key) {
      var k :| 0 <= k < |items| && Usable(items[k]) && Field(items[k].cells, 1) == key;
      if k < |init| {
        assert init[k] == items[k];
      }
    }
    if NamesSection(init, key) {
      var k :| 0 <= k < |init| && Usable(init[k]) && Field(init[k].cells, 1) == key;
      assert items[k] == init[k];
    }
  }

  /** The map has a section for exactly the keys that some usable row names. */
  lemma {:induction false} SectionKeys(items: seq<Item>, key: string)
    ensures key in LenientFold(items).entries <==> NamesSection(items, key)
  {
    if items != [] {
      SectionKeys(items[..|items| - 1], key);
      NamesSectionSnoc(items, key);
    }
  }

  /** One step keeps every section it finds, with its title and passage, and never shortens its questions. */
  lemma StepKeepsSection(m: SectionMap, item: Item, key: string)
    requires key in m.entries
    ensures var r := LenientStep(m, item);
      && key in r.entries
      && r.entries[key].title == m.entries[key].title
      && r.entries[key].content == m.entries[key].content
      && |m.entries[key].questions| <= |r.entries[key].questions|
  {
  }

  /** A section's title and passage come from the first usable row that names it; later rows do not change them. */
  lemma {:induction false} FirstRowWins(items: seq<Item>, k: nat)
    requires k < |items| && Usable(items[k])
    requires forall j :: 0 <= j < k && Usable(items[j]) ==> Field(items[j].cells, 1) != Field(items[k].cells, 1)
    ensures var key, m := Field(items[k].cells, 1), LenientFold(items);
      && key in m.entries
      && m.entries[key].title == Field(items[k].cells, 2)
      && m.entries[key].content == Field(items[k].cells, 3)
  {
    var key := Field(items[k].cells, 1);
    var init := items[..|items| - 1];
    if |items| == k + 1 {
      assert !NamesSection(init, key) by {
        forall j | 0 <= j < k
          ensures !(Usable(init[j]) && Field(init[j].cells, 1) == key)
        {
          assert init[j] == items[j];
        }
      }
      SectionKeys(init, key);
    } else {
      assert init[k] == items[k];
      assert forall j :: 0 <= j < k ==> init[j] == items[j];
      FirstRowWins(init, k);
      StepKeepsSection(LenientFold(init), items[|items| - 1], key);
    }
  }

  /** A row with ordinal `n >= 1` leaves its section with at least `n` questions. */
  lemma {:induction false} OrdinalCovered(items: seq<Item>, k: nat, j: nat)
    requires k < |items| && Usable(items[k])
    requires Index(Field(items[k].cells, 4)) == Some(j)
    ensures var key, m := Field(items[k].cells, 1), LenientFold(items);
      key in m.entries && j < |m.entries[key].questions|
  {
    var key := Field(items[k].cells, 1);
    var init := items[..|items| - 1];
    if |items| > k + 1 {
      assert init[k] == items[k];
      OrdinalCovered(init, k, j);
      StepKeepsSection(LenientFold(init), items[|items| - 1], key);
    }
  }

  /**
   * As written, the sections come out in string order of their keys: the
   * sorted keys are exactly the map's keys, strictly increasing under
   * `StrLess`, and section `i` is the one under key `i`.
   */
  lemma SectionsInStringOrder(items: seq<Item>, testType: string)
    requires testType != "" && testType != "writing"
    ensures var m, r := LenientFold(items), TransformAsWritten(RawArray(items), testType);
      var keys := SortBy(m.keys, StrLess);
      && multiset(keys) == multiset(m.keys)
      && Increasing(keys, StrLess)
      && r.Sections? && |r.sections| == |keys|
      && forall i :: 0 <= i < |keys| ==> keys[i] in m.entries && r.sections[i] == m.entries[keys[i]]
  {
    var m := LenientFold(items);
    FoldValid(EmptyMap, items);
    StrLessIsStrictTotalOrder();
    SortByIncreasing(m.keys, StrLess);
    SortedKeysInEntries(m, StrLess);
  }

  // Round trip from the stored question rows.

  /** The preview's reading of a stored question: its text, options and answer. */
  function PreviewQuestionOf(q: Question): PreviewQuestion
  {
    PreviewQuestion(q.text, q.options, q.correctAnswer)
  }

  function PreviewQuestionsOf(qs: seq<Question>): (r: seq<PreviewQuestion>)
    ensures |r| == |qs|
  {
    if qs == [] then [] else PreviewQuestionsOf(qs[..|qs| - 1]) + [PreviewQuestionOf(qs[|qs| - 1])]
  }

  function PreviewSectionOf(sec: Section): PreviewSection
  {
    PreviewSection(sec.title, sec.content, PreviewQuestionsOf(sec.questions))
  }

  function PreviewSectionsOf(ss: seq<Section>): (r: seq<PreviewSection>)
    ensures |r| == |ss| && forall s :: 0 <= s < |ss| ==> r[s] == PreviewSectionOf(ss[s])
  {
    seq(|ss|, s requires 0 <= s < |ss| => PreviewSectionOf(ss[s]))
  }

  /** The ordinal key of section `s` in the stored rows. */
  function Key(s: nat): (k: string)
    ensures k != ""
  {
    NatToString(s + 1)
  }

  lemma KeyInjective(a: nat, b: nat)
    ensures Key(a) == Key(b) <==> a == b
  {
    ParseNatToString(a + 1);
    ParseNatToString(b + 1);
  }

  /** The rows as the JSON array the preview receives. */
  function ItemsOf(rows: seq<Row>): (r: seq<Item>)
    ensures |r| == |rows| && forall k :: 0 <= k < |rows| ==> r[k] == RowItem(rows[k])
  {
    seq(|rows|, k requires 0 <= k < |rows| => RowItem(rows[k]))
  }

  lemma ItemsOfConcat(a: seq<Row>, b: seq<Row>)
    ensures ItemsOf(a + b) == ItemsOf(a) + ItemsOf(b)
  {
    var x, y := ItemsOf(a + b), ItemsOf(a) + ItemsOf(b);
    assert |x| == |y|;
    assert forall k :: 0 <= k < |x| ==> x[k] == y[k];
  }

  lemma {:induction false} LenientFoldConcat(m: SectionMap, a: seq<Item>, b: seq<Item>)
    ensures LenientFoldFrom(m, a + b) == LenientFoldFrom(LenientFoldFrom(m, a), b)
  {
    if b != [] {
      LenientFoldConcat(m, a, b[..|b| - 1]);
      assert (a + b)[..|a + b| - 1] == a + b[..|b| - 1];
      assert (a + b)[|a + b| - 1] == b[|b| - 1];
    } else {
      assert a + b == a;
    }
  }

  /** An item the preview reads as question `j` of section `s`. */
  predicate ReadsAsPreview(item: Item, s: nat, sec: Section, j: nat, q: Question)
  {
    && item.RowItem?
    && Field(item.cells, 1) == Key(s)
    && Field(item.cells, 4) != "" && Index(Field(item.cells, 4)) == Some(j)
    && Field(item.cells, 2) == sec.title && Field(item.cells, 3) == sec.content
    && QuestionOf(item.cells) == PreviewQuestionOf(q)
  }

  lemma QuestionRowReadsAsPreview(id: string, s: nat, sec: Section, j: nat, q: Question)
    ensures ReadsAsPreview(RowItem(QuestionRow(id, s, sec, j, q)), s, sec, j, q)
  {
    QuestionRowReadsBack(id, s, sec, j, q);
  }

  lemma PreviewStepOpens(m: SectionMap, item: Item, s: nat, sec: Section, q: Question)
    requires Key(s) !in m.entries
    requires ReadsAsPreview(item, s, sec, 0, q)
    ensures LenientStep(m, item) ==
      SectionMap(m.keys + [Key(s)], m.entries[Key(s) := PreviewSection(sec.title, sec.content, [PreviewQuestionOf(q)])])
  {
    assert Place([], 0, PreviewQuestionOf(q)) == [PreviewQuestionOf(q)];
  }

  lemma PreviewStepExtends(m: SectionMap, item: Item, s: nat, sec: Section, done: seq<PreviewQuestion>, q: Question)
    requires Key(s) in m.entries && m.entries[Key(s)] == PreviewSection(sec.title, sec.content, done)
    requires ReadsAsPreview(item, s, sec, |done|, q)
    ensures LenientStep(m, item) ==
      SectionMap(m.keys, m.entries[Key(s) := PreviewSection(sec.title, sec.content, done + [PreviewQuestionOf(q)])])
  {
    var got := Place(done, |done|, PreviewQuestionOf(q));
    assert |got| == |done| + 1;
    assert got == done + [PreviewQuestionOf(q)];
  }

  /** The map after the rows of the first `n` questions of a new section `s`. */
  function Opened(m: SectionMap, s: nat, sec: Section, n: nat): SectionMap
    requires n <= |sec.questions|
  {
    SectionMap(m.keys + [Key(s)],
      m.entries[Key(s) := PreviewSection(sec.title, sec.content, PreviewQuestionsOf(sec.questions[..n]))])
  }

  lemma FoldPreviewOpens(m: SectionMap, items: seq<Item>, s: nat, sec: Section)
    requires Key(s) !in m.entries
    requires |items| == 1 <= |sec.questions|
    requires ReadsAsPreview(items[0], s, sec, 0, sec.questions[0])
    ensures LenientFoldFrom(m, items) == Opened(m, s, sec, 1)
  {
    assert LenientFoldFrom(m, items) == LenientStep(m, items[0]);
    PreviewStepOpens(m, items[0], s, sec, sec.questions[0]);
    assert sec.questions[..1] == [sec.questions[0]];
    assert [sec.questions[0]][..0] == [];
    assert PreviewQuestionsOf(sec.questions[..1]) == [PreviewQuestionOf(sec.questions[0])];
  }

  lemma OpenedStep(m: SectionMap, item: Item, s: nat, sec: Section, n: nat)
    requires 1 <= n < |sec.questions|
    requires ReadsAsPreview(item, s, sec, n, sec.questions[n])
    ensures LenientStep(Opened(m, s, sec, n), item) == Opened(m, s, sec, n + 1)
  {
    var done := PreviewQuestionsOf(sec.questions[..n]);
    var before := Opened(m, s, sec, n);
    PreviewStepExtends(before, item, s, sec, done, sec.questions[n]);
    var after := PreviewSection(sec.title, sec.content, done + [PreviewQuestionOf(sec.questions[n])]);
    assert before.entries[Key(s) := after] == m.entries[Key(s) := after];
    assert sec.questions[..n + 1][..n] == sec.questions[..n];
    assert PreviewQuestionsOf(sec.questions[..n + 1]) == done + [PreviewQuestionOf(sec.questions[n])];
  }

  lemma FoldPreviewExtends(m: SectionMap, items: seq<Item>, s: nat, sec: Section)
    requires 2 <= |items| <= |sec.questions|
    requires LenientFoldFrom(m, items[..|items| - 1]) == Opened(m, s, sec, |items| - 1)
    requires ReadsAsPreview(items[|items| - 1], s, sec, |items| - 1, sec.questions[|items| - 1])
    ensures LenientFoldFrom(m, items) == Opened(m, s, sec, |items|)
  {
    var last := |items| - 1;
    var before := LenientFoldFrom(m, items[..last]);
    assert LenientFoldFrom(m, items) == LenientStep(before, items[last]);
    OpenedStep(m, items[last], s, sec, last);
  }

  /** The items of the first `n` questions of a new section open it and fill it in order. */
  lemma {:induction false} FoldPreviewPrefix(id: string, m: SectionMap, sec: Section, s: nat, n: nat)
    requires Key(s) !in m.entries
    requires 1 <= n <= |sec.questions|
    ensures LenientFoldFrom(m, ItemsOf(SectionRows(id, s, sec, n))) == Opened(m, s, sec, n)
  {
    var rows := SectionRows(id, s, sec, n);
    var items := ItemsOf(rows);
    assert items[n - 1] == RowItem(rows[n - 1]);
    assert rows[n - 1] == QuestionRow(id, s, sec, n - 1, sec.questions[n - 1]);
    QuestionRowReadsAsPreview(id, s, sec, n - 1, sec.questions[n - 1]);
    if n == 1 {
      FoldPreviewOpens(m, items, s, sec);
    } else {
      FoldPreviewPrefix(id, m, sec, s, n - 1);
      SectionItemsPrefix(id, s, sec, n);
      FoldPreviewExtends(m, items, s, sec);
    }
  }

  lemma SectionItemsPrefix(id: string, s: nat, sec: Section, n: nat)
    requires 1 <= n <= |sec.questions|
    ensures ItemsOf(SectionRows(id, s, sec, n))[..n - 1] == ItemsOf(SectionRows(id, s, sec, n - 1))
  {
    SectionRowsPrefix(id, s, sec, n);
    var rows := SectionRows(id, s, sec, n);
    assert ItemsOf(rows)[..n - 1] == ItemsOf(rows[..n - 1]);
  }

  lemma SectionItemsDecode(id: string, m: SectionMap, sec: Section, s: nat)
    requires Key(s) !in m.entries
    requires sec.questions != []
    ensures LenientFoldFrom(m, ItemsOf(SectionRows(id, s, sec, |sec.questions|))) ==
      SectionMap(m.keys + [Key(s)], m.entries[Key(s) := PreviewSectionOf(sec)])
  {
    var n := |sec.questions|;
    FoldPreviewPrefix(id, m, sec, s, n);
    assert sec.questions[..n] == sec.questions;
    assert Opened(m, s, sec, n).entries[Key(s)] == PreviewSectionOf(sec);
  }

  /** The section map the preview builds from the rows of `ss`: key `s + 1` for section `s`. */
  function ExpectedMap(ss: seq<Section>): (m: SectionMap)
    ensures |m.keys| == |ss|
    ensures forall s :: 0 <= s < |ss| ==> m.keys[s] == Key(s)
  {
    if ss == [] then EmptyMap
    else
      var e := ExpectedMap(ss[..|ss| - 1]);
      SectionMap(e.keys + [Key(|ss| - 1)], e.entries[Key(|ss| - 1) := PreviewSectionOf(ss[|ss| - 1])])
  }

  lemma {:induction false} ExpectedKeys(ss: seq<Section>)
    ensures forall key :: key in ExpectedMap(ss).entries <==> key in ExpectedMap(ss).keys
  {
    if ss != [] {
      ExpectedKeys(ss[..|ss| - 1]);
    }
  }

  lemma {:induction false} ExpectedEntry(ss: seq<Section>, s: nat)
    requires s < |ss|
    ensures Key(s) in ExpectedMap(ss).entries && ExpectedMap(ss).entries[Key(s)] == PreviewSectionOf(ss[s])
  {
    var n := |ss|;
    if s < n - 1 {
      var init := ss[..n - 1];
      ExpectedEntry(init, s);
      assert Key(s) != Key(n - 1) by { KeyInjective(s, n - 1); }
      assert init[s] == ss[s];
    }
  }

  lemma {:induction false} FoldPreviewRows(id: string, ss: seq<Section>)
    requires forall s :: 0 <= s < |ss| ==> ss[s].questions != []
    ensures LenientFold(ItemsOf(QuestionRows(id, ss))) == ExpectedMap(ss)
  {
    if ss != [] {
      var last := |ss| - 1;
      var init := ss[..last];
      var head, tail := QuestionRows(id, init), SectionRows(id, last, ss[last], |ss[last].questions|);
      assert QuestionRows(id, ss) == head + tail;
      ItemsOfConcat(head, tail);
      LenientFoldConcat(EmptyMap, ItemsOf(head), ItemsOf(tail));
      FoldPreviewRows(id, init);
      ExpectedKeys(init);
      forall s | 0 <= s < last
        ensures ExpectedMap(init).keys[s] != Key(last)
      {
        KeyInjective(s, last);
      }
      SectionItemsDecode(id, ExpectedMap(init), ss[last], last);
    }
  }

  /** The map built from the rows of `ss`, read in key order when sorting leaves the keys in place. */
  lemma ExpectedInKeyOrder(ss: seq<Section>, less: (string, string) -> bool)
    requires Valid(ExpectedMap(ss))
    requires SortBy(ExpectedMap(ss).keys, less) == ExpectedMap(ss).keys
    ensures InKeyOrder(ExpectedMap(ss), less) == PreviewSectionsOf(ss)
  {
    var m := ExpectedMap(ss);
    var got, want := InKeyOrder(m, less), PreviewSectionsOf(ss);
    forall i | 0 <= i < |got|
      ensures got[i] == want[i]
    {
      ExpectedEntry(ss, i);
      assert SortBy(m.keys, less)[i] == Key(i);
    }
  }

  /**
   * Whenever sorting leaves the keys "1", "2", … in place, the preview shows
   * the stored sections as they were written, in order (questions without
   * their points).
   */
  lemma PreviewRoundTrip(id: string, ss: seq<Section>, testType: string, less: (string, string) -> bool)
    requires forall s :: 0 <= s < |ss| ==> ss[s].questions != []
    requires testType != "" && testType != "writing"
    requires SortBy(ExpectedMap(ss).keys, less) == ExpectedMap(ss).keys
    ensures Transform(RawArray(ItemsOf(QuestionRows(id, ss))), testType, less) == Sections(PreviewSectionsOf(ss))
  {
    var items := ItemsOf(QuestionRows(id, ss));
    FoldPreviewRows(id, ss);
    FoldValid(EmptyMap, items);
    ExpectedInKeyOrder(ss, less);
  }

  lemma SingleDigitKeysOrdered(i: nat, j: nat)
    requires i < j < 9
    ensures StrLess(Key(i), Key(j)) && !StrLess(Key(j), Key(i))
  {
    assert Key(i) == [DigitChar(i + 1)];
    assert Key(j) == [DigitChar(j + 1)];
  }

  /** As written, fewer than ten sections come back as stored: their keys are single digits. */
  lemma PreviewRoundTripFewSections(id: string, ss: seq<Section>, testType: string)
    requires |ss| < 10
    requires forall s :: 0 <= s < |ss| ==> ss[s].questions != []
    requires testType != "" && testType != "writing"
    ensures TransformAsWritten(RawArray(ItemsOf(QuestionRows(id, ss))), testType) == Sections(PreviewSectionsOf(ss))
  {
    var keys := ExpectedMap(ss).keys;
    forall i, j | 0 <= i < j < |keys|
      ensures StrLess(keys[i], keys[j]) && !StrLess(keys[j], keys[i])
    {
      SingleDigitKeysOrdered(i, j);
    }
    SortByOfIncreasing(keys, StrLess);
    PreviewRoundTrip(id, ss, testType, StrLess);
  }

  lemma LeadingDigitNonZero(n: nat)
    requires 1 <= n
    ensures NatToString(n)[0] != '0'
  {
    if n >= 10 {
      LeadingDigitNonZero(n / 10);
    }
  }

  /** A string that string order puts after "1", and after "10" unless it is "1" or "10". */
  ghost predicate AfterOneAndTen(t: string)
  {
    && (t == "1" || StrLess("1", t))
    && (t == "1" || t == "10" || StrLess("10", t))
  }

  lemma KeyAfterOneAndTen(s: nat)
    ensures AfterOneAndTen(Key(s))
  {
    var t := Key(s);
    LeadingDigitNonZero(s + 1);
    assert IsDigit(t[0]);
    if |t| == 1 {
      assert t == [t[0]];
    } else {
      assert IsDigit(t[1]);
      if |t| == 2 {
        assert t == [t[0], t[1]];
      }
    }
  }

  /** In any strictly increasing arrangement of such keys that holds "1" and "10", those two come first. */
  lemma OneAndTenFirst(keys: seq<string>, sorted: seq<string>)
    requires multiset(sorted) == multiset(keys)
    requires Increasing(sorted, StrLess)
    requires forall i :: 0 <= i < |keys| ==> AfterOneAndTen(keys[i])
    requires "1" in keys && "10" in keys
    ensures 2 <= |sorted| && sorted[0] == "1" && sorted[1] == "10"
  {
    forall i | 0 <= i < |sorted|
      ensures AfterOneAndTen(sorted[i])
    {
      assert sorted[i] in multiset(keys);
    }
    assert "1" in multiset(sorted) && "10" in multiset(sorted);
    StrLessIsStrictTotalOrder();
    assert sorted[0] == "1";
    assert sorted[1] == "10";
  }

  /**
   * As written, with ten sections or more string order puts key "10" second,
   * so the preview shows the tenth stored section in second place.
   */
  lemma TenthSectionShownSecond(id: string, ss: seq<Section>, testType: string)
    requires 10 <= |ss|
    requires forall s :: 0 <= s < |ss| ==> ss[s].questions != []
    requires testType != "" && testType != "writing"
    ensures var r := TransformAsWritten(RawArray(ItemsOf(QuestionRows(id, ss))), testType);
      r.Sections? && |r.sections| == |ss| && r.sections[1] == PreviewSectionOf(ss[9])
  {
    var items := ItemsOf(QuestionRows(id, ss));
    FoldPreviewRows(id, ss);
    var m := ExpectedMap(ss);
    SectionsInStringOrder(items, testType);
    var keys := SortBy(m.keys, StrLess);
    ExpectedKeysAfterOneAndTen(ss);
    OneAndTenFirst(m.keys, keys);
    ExpectedEntry(ss, 9);
    assert keys[1] == Key(9);
  }

  /** The keys of ten or more sections hold "1" and "10", and sort after both. */
  lemma ExpectedKeysAfterOneAndTen(ss: seq<Section>)
    requires 10 <= |ss|
    ensures var keys := ExpectedMap(ss).keys;
      && (forall i :: 0 <= i < |keys| ==> AfterOneAndTen(keys[i]))
      && "1" in keys && "10" in keys && Key(9) == "10"
  {
    var keys := ExpectedMap(ss).keys;
    forall i | 0 <= i < |keys|
      ensures AfterOneAndTen(keys[i])
    {
      KeyAfterOneAndTen(i);
    }
    assert Key(0) == "1" && Key(9) == "10";
    assert keys[0] == "1" && keys[9] == "10";
  }

  /** Hence ten or more sections whose second and tenth titles differ do not come back as stored. */
  lemma TenSectionsMisordered(id: string, ss: seq<Section>, testType: string)
    requires 10 <= |ss|
    requires forall s :: 0 <= s < |ss| ==> ss[s].questions != []
    requires testType != "" && testType != "writing"
    requires ss[1].title != ss[9].title
    ensures TransformAsWritten(RawArray(ItemsOf(QuestionRows(id, ss))), testType) != Sections(PreviewSectionsOf(ss))
  {
    TenthSectionShownSecond(id, ss, testType);
  }

  lemma OrdinalKeysOrdered(i: nat, j: nat)
    requires i < j
    ensures OrdinalLess(Key(i), Key(j)) && !OrdinalLess(Key(j), Key(i))
  {
    KeyParses(i);
    KeyParses(j);
    OrdinalLessByNumber(Key(i), Key(j), i + 1, j + 1);
  }

  lemma KeyParses(s: nat)
    ensures ParseInt(Key(s)) == Some(s + 1)
  {
    ParseNatToString(s + 1);
  }

  /** Strings that parse to different numbers are ordered by those numbers alone. */
  lemma OrdinalLessByNumber(a: string, b: string, x: int, y: int)
    requires ParseInt(a) == Some(x) && ParseInt(b) == Some(y) && x < y
    ensures OrdinalLess(a, b) && !OrdinalLess(b, a)
  {
  }

  /** With keys in ordinal order, any number of sections comes back as stored. */
  lemma PreviewRoundTripCorrected(id: string, ss: seq<Section>, testType: string)
    requires forall s :: 0 <= s < |ss| ==> ss[s].questions != []
    requires testType != "" && testType != "writing"
    ensures TransformCorrected(RawArray(ItemsOf(QuestionRows(id, ss))), testType) == Sections(PreviewSectionsOf(ss))
  {
    var keys := ExpectedMap(ss).keys;
    forall i, j | 0 <= i < j < |keys|
      ensures OrdinalLess(keys[i], keys[j]) && !OrdinalLess(keys[j], keys[i])
    {
      OrdinalKeysOrdered(i, j);
    }
    SortByOfIncreasing(keys, OrdinalLess);
    PreviewRoundTrip(id, ss, testType, OrdinalLess);
  }
}

=== FILE: row_codec.dfy ===
/**
 * Flat rows for nested content. A reading or listening test is stored as
 * one `Questions` row per question:
 *   [test_id, section ordinal, section title, passage, question ordinal,
 *    question text, options as JSON, correct answer, points]
 * with ordinals counted from 1 by array position; a writing test as one
 * `WritingPrompts` row per prompt: [test_id, ordinal, type, text, word limit].
 * Numbers come back from the sheet as their decimal strings.
 *
 * Decoding back is done by the question editor (strict: it places every row
 * by its ordinals, leaves gaps as holes, and fails on malformed options JSON)
 * and by the writing editor (one prompt per row). The preview's lenient
 * decoder is in module PreviewDecode.
 */
module RowCodec {
  import opened Wrappers
  import opened Text
  import opened Store
  import opened Content

  /** The number of questions over all sections. */
  function QuestionCount(ss: seq<Section>): nat
  {
    if ss == [] then 0 else QuestionCount(ss[..|ss| - 1]) + |ss[|ss| - 1].questions|
  }

  /** The row of question `j` (0-based) of section `s` (0-based). */
  function QuestionRow(id: string, s: nat, sec: Section, j: nat, q: Question): (r: Row)
    ensures |r| == 9 && r[0] == id
    ensures r[2] == sec.title && r[3] == sec.content
    ensures r[5] == q.text && r[7] == q.correctAnswer
    ensures r[1] == NatToString(s + 1) && r[4] == NatToString(j + 1)
    ensures r[6] == EncodeStrings(q.options) && r[8] == IntToString(q.points)
  {
    [id, NatToString(s + 1), sec.title, sec.content, NatToString(j + 1),
     q.text, EncodeStrings(q.options), q.correctAnswer, IntToString(q.points)]
  }

  /** The ordinal, options and points cells of a question row read back as what was written. */
  lemma QuestionRowReadsBack(id: string, s: nat, sec: Section, j: nat, q: Question)
    ensures var r := QuestionRow(id, s, sec, j, q);
      && ParseInt(r[1]) == Some(s + 1) && ParseInt(r[4]) == Some(j + 1)
      && DecodeStrings(r[6]) == Some(q.options) && ParseInt(r[8]) == Some(q.points)
  {
    ParseNatToString(s + 1);
    ParseNatToString(j + 1);
    DecodeEncodeStrings(q.options);
    ParseIntToString(q.points);
  }

  /** The rows of the first `n` questions of section `s`. */
  function SectionRows(id: string, s: nat, sec: Section, n: nat): (r: seq<Row>)
    requires n <= |sec.questions|
    ensures |r| == n
    ensures forall j :: 0 <= j < n ==> r[j] == QuestionRow(id, s, sec, j, sec.questions[j])
  {
    seq(n, j requires 0 <= j < n => QuestionRow(id, s, sec, j, sec.questions[j]))
  }

  /**
   * `sections.flatMap((section, s) => section.questions.map((q, j) => row))`.
   * The editor emits the same rows with a null first cell, which this model
   * writes as the empty id.
   */
  function QuestionRows(id: string, ss: seq<Section>): (r: seq<Row>)
    ensures |r| == QuestionCount(ss)
    ensures forall k :: 0 <= k < |r| ==> |r[k]| == 9 && r[k][0] == id
  {
    if ss == [] then []
    else
      var last := |ss| - 1;
      QuestionRows(id, ss[..last]) + SectionRows(id, last, ss[last], |ss[last].questions|)
  }

  /**
   * Dense ordinals: the rows come section by section, question by question,
   * and question `j` of section `s` is the row right after the rows of all
   * earlier sections and questions.
   */
  lemma QuestionRowsAt(id: string, ss: seq<Section>, s: nat, j: nat)
    requires s < |ss| && j < |ss[s].questions|
    ensures QuestionCount(ss[..s]) + j < |QuestionRows(id, ss)|
    ensures QuestionRows(id, ss)[QuestionCount(ss[..s]) + j] == QuestionRow(id, s, ss[s], j, ss[s].questions[j])
  {
    var head, tail := QuestionRows(id, ss[..s]), SectionRows(id, s, ss[s], |ss[s].questions|);
    QuestionRowsSnoc(id, ss, s);
    QuestionRowsPrefix(id, ss, s + 1);
    PrefixConcatAt(QuestionRows(id, ss[..s + 1]), head, tail, QuestionRows(id, ss), j);
  }

  /** In a sequence that begins with `head + tail`, element `j` of `tail` sits right after `head`. */
  lemma PrefixConcatAt(whole: seq<Row>, head: seq<Row>, tail: seq<Row>, all: seq<Row>, j: nat)
    requires whole == head + tail && whole <= all && j < |tail|
    ensures |head| + j < |all| && all[|head| + j] == tail[j]
  {
    assert whole[|head| + j] == tail[j];
  }

  /** The rows of the first `s + 1` sections are those of the first `s`, then section `s`'s. */
  lemma QuestionRowsSnoc(id: string, ss: seq<Section>, s: nat)
    requires s < |ss|
    ensures QuestionRows(id, ss[..s + 1]) == QuestionRows(id, ss[..s]) + SectionRows(id, s, ss[s], |ss[s].questions|)
  {
    var upTo := ss[..s + 1];
    assert upTo[..s] == ss[..s] && upTo[s] == ss[s];
    QuestionRowsSplit(id, upTo);
  }

  /** The rows of the first `n` sections begin the rows of all of them. */
  lemma {:induction false} QuestionRowsPrefix(id: string, ss: seq<Section>, n: nat)
    requires n <= |ss|
    ensures QuestionRows(id, ss[..n]) <= QuestionRows(id, ss)
  {
    if n < |ss| {
      var last := |ss| - 1;
      assert ss[..last][..n] == ss[..n];
      QuestionRowsPrefix(id, ss[..last], n);
      QuestionRowsSplit(id, ss);
    } else {
      assert ss[..n] == ss;
    }
  }

  lemma QuestionRowsSplit(id: string, ss: seq<Section>)
    requires ss != []
    ensures var last := |ss| - 1;
      QuestionRows(id, ss) == QuestionRows(id, ss[..last]) + SectionRows(id, last, ss[last], |ss[last].questions|)
  {
  }

  lemma ConcatAt(a: seq<Row>, b: seq<Row>, k: nat)
    requires k < |a| + |b|
    ensures (a + b)[k] == if k < |a| then a[k] else b[k - |a|]
  {
  }

  /** The rows for another section list with the same id come after these. */
  lemma {:induction false} QuestionRowsAppend(id: string, ss: seq<Section>, sec: Section)
    ensures QuestionRows(id, ss + [sec]) == QuestionRows(id, ss) + SectionRows(id, |ss|, sec, |sec.questions|)
  {
    assert (ss + [sec])[..|ss|] == ss;
  }

  /** `prompts.map((prompt, k) => [test_id, k + 1, type, text, wordLimit])`. */
  function PromptRow(id: string, k: nat, p: Prompt): (r: Row)
    ensures |r| == 5 && r[0] == id && r[2] == p.promptType && r[3] == p.text
  {
    [id, NatToString(k + 1), p.promptType, p.text, IntToString(p.wordLimit)]
  }

  /** The ordinal and word-limit cells of a prompt row read back as what was written. */
  lemma PromptRowReadsBack(id: string, k: nat, p: Prompt)
    ensures ParseInt(PromptRow(id, k, p)[1]) == Some(k + 1)
    ensures ParseInt(PromptRow(id, k, p)[4]) == Some(p.wordLimit)
  {
    ParseNatToString(k + 1);
    ParseIntToString(p.wordLimit);
  }

  function PromptRows(id: string, ps: seq<Prompt>): (r: seq<Row>)
    ensures |r| == |ps|
    ensures forall k :: 0 <= k < |ps| ==> r[k] == PromptRow(id, k, ps[k])
  {
    seq(|ps|, k requires 0 <= k < |ps| => PromptRow(id, k, ps[k]))
  }

  // ---------------------------------------------------------------------------
  // The writing editor's decoder: one prompt per row, the ordinal ignored.

  /** A prompt as decoded from a row; `None` word limit is `parseInt`'s NaN. */
  datatype StoredPrompt = StoredPrompt(promptType: string, text: string, wordLimit: Option<int>)

  function DecodePrompt(row: Row): StoredPrompt
  {
    StoredPrompt(Field(row, 2), Field(row, 3), ParseInt(Field(row, 4)))
  }

  function DecodePrompts(rows: seq<Row>): (r: seq<StoredPrompt>)
    ensures |r| == |rows|
    ensures forall k :: 0 <= k < |rows| ==> r[k] == DecodePrompt(rows[k])
  {
    seq(|rows|, k requires 0 <= k < |rows| => DecodePrompt(rows[k]))
  }

  function StoredPromptOf(p: Prompt): StoredPrompt
  {
    StoredPrompt(p.promptType, p.text, Some(p.wordLimit))
  }

  /** Decoding the stored rows of a prompt list gives the prompts back, in order. */
  lemma DecodePromptRows(id: string, ps: seq<Prompt>)
    ensures |DecodePrompts(PromptRows(id, ps))| == |ps|
    ensures forall k :: 0 <= k < |ps| ==> DecodePrompts(PromptRows(id, ps))[k] == StoredPromptOf(ps[k])
  {
    forall k | 0 <= k < |ps|
      ensures DecodePrompts(PromptRows(id, ps))[k] == StoredPromptOf(ps[k])
    {
      PromptRowReadsBack(id, k, ps[k]);
    }
  }

  /** The decoded prompt depends on fields 2-4 only: the id and the ordinal are ignored. */
  lemma DecodePromptIgnoresOrdinal(row: Row, id: string, ordinal: string)
    requires 2 <= |row|
    ensures DecodePrompt([id, ordinal] + row[2..]) == DecodePrompt(row)
  {
    var row' := [id, ordinal] + row[2..];
    assert forall i :: 2 <= i < |row| ==> row'[i] == row[i];
  }

  // ---------------------------------------------------------------------------
  // The question editor's decoder: a `reduce` that assigns by index.

  /** A question as the editor decodes it; `None` points is `parseInt`'s NaN. */
  datatype StoredQuestion = StoredQuestion(text: string, options: seq<string>, correctAnswer: string, points: Option<int>)

  /** A section as the editor decodes it; `None` entries are holes of the array. */
  datatype StoredSection = StoredSection(title: string, content: string, questions: seq<Option<StoredQuestion>>)

  type Decoded = seq<Option<StoredSection>>

  /** `arr[k] = v` on a JavaScript array: slots between the old end and `k` are holes. */
  function Assign<T>(xs: seq<Option<T>>, k: nat, v: T): (r: seq<Option<T>>)
    ensures |r| == if k < |xs| then |xs| else k + 1
    ensures r[k] == Some(v)
    ensures forall i :: 0 <= i < |r| && i != k ==> r[i] == if i < |xs| then xs[i] else None
  {
    if k < |xs| then xs[k := Some(v)] else xs + seq(k - |xs|, _ => None) + [Some(v)]
  }

  /**
   * The array index an ordinal cell addresses, `parseInt(cell) - 1`. NaN and
   * negative results name ordinary properties, not elements: `None`.
   */
  function Index(cell: string): (r: Option<nat>)
    ensures r.Some? <==> ParseInt(cell).Some? && ParseInt(cell).value >= 1
    ensures r.Some? ==> r.value == ParseInt(cell).value - 1
  {
    match ParseInt(cell)
    case Some(n) => if n >= 1 then Some(n - 1) else None
    case None => None
  }

  /**
   * One step of the reduce: `JSON.parse` of the options cell throws on
   * malformed input (the error carries the cell); the first row of a section
   * creates it with that row's title and passage; the question goes to
   * its index, replacing whatever was there.
   */
  function StrictStep(acc: Decoded, row: Row): (r: Result<Decoded, string>)
    ensures r.Err? <==> DecodeStrings(Field(row, 6)).None?
  {
    match DecodeStrings(Field(row, 6))
    case None => Err(Field(row, 6))
    case Some(options) =>
      var q := StoredQuestion(Field(row, 5), options, Field(row, 7), ParseInt(Field(row, 8)));
      match Index(Field(row, 1))
      case None => Ok(acc)
      case Some(s) =>
        var sec := if s < |acc| && acc[s].Some? then acc[s].value
                   else StoredSection(Field(row, 2), Field(row, 3), []);
        var sec' := match Index(Field(row, 4))
                    case None => sec
                    case Some(j) => sec.(questions := Assign(sec.questions, j, q));
        Ok(Assign(acc, s, sec'))
  }

  function StrictFold(start: Result<Decoded, string>, rows: seq<Row>): Result<Decoded, string>
  {
    if rows == [] then start
    else StrictThen(StrictFold(start, rows[..|rows| - 1]), rows[|rows| - 1])
  }

  /** One step of the fold: a failure stays, otherwise the row is read. */
  function StrictThen(r: Result<Decoded, string>, row: Row): Result<Decoded, string>
  {
    match r
    case Err(e) => Err(e)
    case Ok(acc) => StrictStep(acc, row)
  }

  /**
   * The editor's initial sections from `(content || []).reduce(...) || [default]`.
   * The reduce always yields an array, so the default list is never used:
   * missing or empty content gives no sections.
   */
  function StrictDecode(content: Option<seq<Row>>): (r: Result<Decoded, string>)
    ensures content.None? || content == Some([]) ==> r == Ok([])
  {
    StrictFold(Ok([]), if content.Some? then content.value else [])
  }

  lemma {:induction false} StrictFoldErrStays(e: string, rows: seq<Row>)
    ensures StrictFold(Err(e), rows) == Err(e)
  {
    if rows != [] {
      StrictFoldErrStays(e, rows[..|rows| - 1]);
    }
  }

  lemma {:induction false} StrictFoldConcat(start: Result<Decoded, string>, a: seq<Row>, b: seq<Row>)
    ensures StrictFold(start, a + b) == StrictFold(StrictFold(start, a), b)
  {
    if b == [] {
      assert a + b == a;
    } else {
      var init, last := b[..|b| - 1], b[|b| - 1];
      StrictFoldConcat(start, a, init);
      assert (a + b)[..|a + b| - 1] == a + init;
      assert (a + b)[|a + b| - 1] == last;
      assert StrictFold(start, a + b) == StrictThen(StrictFold(start, a + init), last);
    }
  }

  /** Some row's options cell is not a JSON list of strings. */
  predicate SomeBadOptions(rows: seq<Row>)
  {
    exists k :: 0 <= k < |rows| && DecodeStrings(Field(rows[k], 6)).None?
  }

  lemma BadOptionsSnoc(rows: seq<Row>)
    requires rows != []
    ensures SomeBadOptions(rows) <==>
      SomeBadOptions(rows[..|rows| - 1]) || DecodeStrings(Field(rows[|rows| - 1], 6)).None?
  {
    var init := rows[..|rows| - 1];
    if SomeBadOptions(init) {
      var k :| 0 <= k < |init| && DecodeStrings(Field(init[k], 6)).None?;
      assert rows[k] == init[k];
    }
    if SomeBadOptions(rows) {
      var k :| 0 <= k < |rows| && DecodeStrings(Field(rows[k], 6)).None?;
      if k < |init| {
        assert init[k] == rows[k];
      }
    }
  }

  /** Decoding fails exactly when some row's options cell is not a JSON list of strings. */
  lemma {:induction false} StrictFoldFails(acc: Decoded, rows: seq<Row>)
    ensures StrictFold(Ok(acc), rows).Err? <==> SomeBadOptions(rows)
  {
    if rows != [] {
      var init := rows[..|rows| - 1];
      StrictFoldFails(acc, init);
      BadOptionsSnoc(rows);
      if StrictFold(Ok(acc), init).Err? {
        StrictFoldErrStays(StrictFold(Ok(acc), init).error, rows[|rows| - 1..]);
      }
    }
  }

  /** Section `s` is present in the decoded array (not a hole, not past its end). */
  predicate HasSection(d: Decoded, s: nat)
  {
    s < |d| && d[s].Some?
  }

  /** Some row addresses section index `s`. */
  predicate Mentions(rows: seq<Row>, s: nat)
  {
    Some(s) in Ordinals(rows)
  }

  /** The section index each row names in column B, if any. */
  function Ordinals(rows: seq<Row>): (r: seq<Option<nat>>)
    ensures |r| == |rows|
  {
    seq(|rows|, k requires 0 <= k < |rows| => Index(Field(rows[k], 1)))
  }

  /** One row opens at most the section it names. */
  lemma StepHoles(acc: Decoded, row: Row)
    requires StrictStep(acc, row).Ok?
    ensures forall s: nat :: HasSection(StrictStep(acc, row).value, s) <==>
      HasSection(acc, s) || Index(Field(row, 1)) == Some(s)
  {
  }

  lemma MentionsSnoc(rows: seq<Row>, s: nat)
    requires rows != []
    ensures Mentions(rows, s) <==>
      Mentions(rows[..|rows| - 1], s) || Index(Field(rows[|rows| - 1], 1)) == Some(s)
  {
    var init := rows[..|rows| - 1];
    assert Ordinals(rows) == Ordinals(init) + [Index(Field(rows[|rows| - 1], 1))];
  }

  /** No padding: a section is present exactly when some row names its ordinal; all others are holes. */
  lemma {:induction false} StrictFoldHoles(rows: seq<Row>)
    ensures StrictFold(Ok([]), rows).Ok? ==>
      forall s: nat :: HasSection(StrictFold(Ok([]), rows).value, s) <==> Mentions(rows, s)
  {
    if rows != [] && StrictFold(Ok([]), rows).Ok? {
      var init, row := rows[..|rows| - 1], rows[|rows| - 1];
      var before := StrictFold(Ok([]), init);
      assert before.Ok?;
      StrictFoldHoles(init);
      assert StrictFold(Ok([]), rows) == StrictStep(before.value, row);
      StepHoles(before.value, row);
      forall s: nat
        ensures HasSection(StrictFold(Ok([]), rows).value, s) <==> Mentions(rows, s)
      {
        MentionsSnoc(rows, s);
      }
    }
  }

  function StoredQuestionOf(q: Question): StoredQuestion
  {
    StoredQuestion(q.text, q.options, q.correctAnswer, Some(q.points))
  }

  function StoredQuestionsOf(qs: seq<Question>): (r: seq<Option<StoredQuestion>>)
    ensures |r| == |qs|
    ensures forall j :: 0 <= j < |qs| ==> r[j] == Some(StoredQuestionOf(qs[j]))
  {
    if qs == [] then [] else StoredQuestionsOf(qs[..|qs| - 1]) + [Some(StoredQuestionOf(qs[|qs| - 1]))]
  }

  lemma StoredQuestionsSnoc(qs: seq<Question>, n: nat)
    requires 1 <= n <= |qs|
    ensures StoredQuestionsOf(qs[..n]) == StoredQuestionsOf(qs[..n - 1]) + [Some(StoredQuestionOf(qs[n - 1]))]
  {
    assert qs[..n][..n - 1] == qs[..n - 1];
  }

  function StoredSectionOf(sec: Section): StoredSection
  {
    StoredSection(sec.title, sec.content, StoredQuestionsOf(sec.questions))
  }

  function StoredSectionsOf(ss: seq<Section>): (r: Decoded)
    ensures |r| == |ss|
    ensures forall s :: 0 <= s < |ss| ==> r[s] == Some(StoredSectionOf(ss[s]))
  {
    if ss == [] then [] else StoredSectionsOf(ss[..|ss| - 1]) + [Some(StoredSectionOf(ss[|ss| - 1]))]
  }

  /** `row` reads as question `q` at index `j` of section `sec` at index `s`. */
  predicate ReadsAs(row: Row, s: nat, sec: Section, j: nat, q: Question)
  {
    && Index(Field(row, 1)) == Some(s) && Index(Field(row, 4)) == Some(j)
    && Field(row, 2) == sec.title && Field(row, 3) == sec.content
    && Field(row, 5) == q.text && DecodeStrings(Field(row, 6)) == Some(q.options)
    && Field(row, 7) == q.correctAnswer && ParseInt(Field(row, 8)) == Some(q.points)
  }

  lemma QuestionRowReadsAs(id: string, s: nat, sec: Section, j: nat, q: Question)
    ensures ReadsAs(QuestionRow(id, s, sec, j, q), s, sec, j, q)
  {
    QuestionRowReadsBack(id, s, sec, j, q);
  }

  /** The first row of a new section opens it with that row's title and passage. */
  lemma StepOpensSection(acc: Decoded, row: Row, sec: Section, q: Question)
    requires ReadsAs(row, |acc|, sec, 0, q)
    ensures StrictStep(acc, row) == Ok(acc + [Some(StoredSection(sec.title, sec.content, [Some(StoredQuestionOf(q))]))])
  {
    var sq := StoredQuestionOf(q);
    assert StoredQuestion(Field(row, 5), q.options, Field(row, 7), ParseInt(Field(row, 8))) == sq;
    var questions: seq<Option<StoredQuestion>> := [];
    AssignAppends(questions, sq);
    assert questions + [Some(sq)] == [Some(sq)];
    var newSection := StoredSection(sec.title, sec.content, [Some(sq)]);
    assert StrictStep(acc, row) == Ok(Assign(acc, |acc|, newSection));
    AssignAppends(acc, newSection);
  }

  /** Assigning just past the end appends. */
  lemma AssignAppends<T>(xs: seq<Option<T>>, v: T)
    ensures Assign(xs, |xs|, v) == xs + [Some(v)]
  {
    var none: seq<Option<T>> := seq(0, _ => None);
    assert none == [];
    assert xs + none == xs;
  }

  /** A later row of an open section appends its question and keeps title and passage. */
  lemma StepExtendsSection(acc: Decoded, row: Row, sec: Section, done: seq<Option<StoredQuestion>>, q: Question)
    requires ReadsAs(row, |acc|, sec, |done|, q)
    ensures StrictStep(acc + [Some(StoredSection(sec.title, sec.content, done))], row) ==
      Ok(acc + [Some(StoredSection(sec.title, sec.content, done + [Some(StoredQuestionOf(q))]))])
  {
    var sq := StoredQuestionOf(q);
    assert StoredQuestion(Field(row, 5), q.options, Field(row, 7), ParseInt(Field(row, 8))) == sq;
    var before := acc + [Some(StoredSection(sec.title, sec.content, done))];
    assert before[|acc|].Some?;
    AssignAppends(done, sq);
    var extended := StoredSection(sec.title, sec.content, done + [Some(sq)]);
    assert StrictStep(before, row) == Ok(Assign(before, |acc|, extended));
    var want := acc + [Some(extended)];
    var got := Assign(before, |acc|, extended);
    assert |got| == |want|;
    assert forall i :: 0 <= i < |got| ==> got[i] == want[i];
    assert got == want;
  }

  /** The section decoded so far from the first `n` questions of `sec`. */
  function Partial(sec: Section, n: nat): StoredSection
    requires n <= |sec.questions|
  {
    StoredSection(sec.title, sec.content, StoredQuestionsOf(sec.questions[..n]))
  }

  lemma FoldOpensSection(acc: Decoded, rows: seq<Row>, sec: Section)
    requires |rows| == 1 <= |sec.questions|
    requires ReadsAs(rows[0], |acc|, sec, 0, sec.questions[0])
    ensures StrictFold(Ok(acc), rows) == Ok(acc + [Some(Partial(sec, 1))])
  {
    assert StrictFold(Ok(acc), rows[..0]) == Ok(acc);
    StepOpensSection(acc, rows[0], sec, sec.questions[0]);
    assert sec.questions[..1][..0] == [];
  }

  lemma FoldExtendsSection(acc: Decoded, rows: seq<Row>, sec: Section)
    requires 2 <= |rows| <= |sec.questions|
    requires StrictFold(Ok(acc), rows[..|rows| - 1]) == Ok(acc + [Some(Partial(sec, |rows| - 1))])
    requires ReadsAs(rows[|rows| - 1], |acc|, sec, |rows| - 1, sec.questions[|rows| - 1])
    ensures StrictFold(Ok(acc), rows) == Ok(acc + [Some(Partial(sec, |rows|))])
  {
    var n := |rows|;
    var done := StoredQuestionsOf(sec.questions[..n - 1]);
    assert StrictFold(Ok(acc), rows) == StrictStep(acc + [Some(StoredSection(sec.title, sec.content, done))], rows[n - 1]);
    StepExtendsSection(acc, rows[n - 1], sec, done, sec.questions[n - 1]);
    StoredQuestionsSnoc(sec.questions, n);
  }

  /** The rows of the first `n` questions of a new section decode to those questions. */
  lemma {:induction false} FoldSectionPrefix(id: string, acc: Decoded, sec: Section, n: nat)
    requires 1 <= n <= |sec.questions|
    ensures StrictFold(Ok(acc), SectionRows(id, |acc|, sec, n)) == Ok(acc + [Some(Partial(sec, n))])
  {
    var rows := SectionRows(id, |acc|, sec, n);
    var row := QuestionRow(id, |acc|, sec, n - 1, sec.questions[n - 1]);
    assert rows[n - 1] == row;
    QuestionRowReadsAs(id, |acc|, sec, n - 1, sec.questions[n - 1]);
    if n == 1 {
      FoldOpensSection(acc, rows, sec);
    } else {
      FoldSectionPrefix(id, acc, sec, n - 1);
      SectionRowsPrefix(id, |acc|, sec, n);
      FoldExtendsSection(acc, rows, sec);
    }
  }

  lemma SectionRowsPrefix(id: string, s: nat, sec: Section, n: nat)
    requires 1 <= n <= |sec.questions|
    ensures SectionRows(id, s, sec, n)[..n - 1] == SectionRows(id, s, sec, n - 1)
  {
  }

  lemma SectionRowsDecode(id: string, acc: Decoded, sec: Section)
    requires sec.questions != []
    ensures StrictFold(Ok(acc), SectionRows(id, |acc|, sec, |sec.questions|)) ==
      Ok(acc + [Some(StoredSectionOf(sec))])
  {
    var n := |sec.questions|;
    FoldSectionPrefix(id, acc, sec, n);
    assert sec.questions[..n] == sec.questions;
    assert Partial(sec, n) == StoredSectionOf(sec);
  }

  lemma {:induction false} FoldQuestionRows(id: string, ss: seq<Section>)
    requires forall s :: 0 <= s < |ss| ==> ss[s].questions != []
    ensures StrictFold(Ok([]), QuestionRows(id, ss)) == Ok(StoredSectionsOf(ss))
  {
    if ss != [] {
      var last := |ss| - 1;
      var init := ss[..last];
      var head, tail := QuestionRows(id, init), SectionRows(id, last, ss[last], |ss[last].questions|);
      assert QuestionRows(id, ss) == head + tail;
      forall s | 0 <= s < last
        ensures init[s].questions != []
      {
        assert init[s] == ss[s];
      }
      FoldQuestionRows(id, init);
      var acc := StoredSectionsOf(init);
      assert |acc| == last;
      StrictFoldConcat(Ok([]), head, tail);
      SectionRowsDecode(id, acc, ss[last]);
      assert StoredSectionsOf(ss) == acc + [Some(StoredSectionOf(ss[last]))];
    }
  }

  /**
   * Round trip: the editor decodes the stored rows of a section list back to
   * the same sections, titles, passages and questions, in order, provided no
   * section is empty (an empty section has no row to come back from).
   */
  lemma DecodeQuestionRows(id: string, ss: seq<Section>)
    requires forall s :: 0 <= s < |ss| ==> ss[s].questions != []
    ensures StrictDecode(Some(QuestionRows(id, ss))) == Ok(StoredSectionsOf(ss))
  {
    FoldQuestionRows(id, ss);
  }
}

=== FILE: schedule.dfy ===
/**
 * Scheduling rules for a new test: it must lie in the future, at most
 * three weeks ahead, on a Friday, and no other test of the same type may
 * already be stored for the same date.
 *
 * Dates are abstract: a parsed date carries its local calendar parts, its
 * weekday and the instant it denotes in milliseconds; the current instant
 * is a parameter.
 */
module Schedule {
  import opened Store

  /** Milliseconds in a day. */
  const DayMs := 86_400_000

  /** How far ahead a test may be scheduled, in days. */
  const WindowDays := 21

  /** `getDay()` of a Friday (Sunday is 0). */
  const Friday := 5

  /** A parsed date: local year, month (1-12), day of month, weekday (0-6) and instant. */
  datatype DateInfo = DateInfo(year: nat, month: nat, day: nat, weekday: nat, instant: int)

  datatype ScheduleFlags = ScheduleFlags(
    isInFuture: bool,
    isWithinThreeWeeks: bool,
    isOnValidDay: bool,
    hasNoConflicts: bool)

  /** The last instant a test may be scheduled for, seen from `now`. */
  function WindowEnd(now: int): int
  {
    now + WindowDays * DayMs
  }

  /**
   * `validateTestScheduling`. The conflict flag is a placeholder that is
   * always set; conflicts are looked up by `CheckScheduleConflicts`.
   */
  function ValidateTestScheduling(testDate: DateInfo, now: int): (r: ScheduleFlags)
    ensures r.isInFuture <==> now < testDate.instant
    ensures r.isWithinThreeWeeks <==> testDate.instant <= now + 21 * DayMs
    ensures r.isOnValidDay <==> testDate.weekday == 5
    ensures r.hasNoConflicts
  {
    ScheduleFlags(
      isInFuture := testDate.instant > now,
      isWithinThreeWeeks := testDate.instant <= WindowEnd(now),
      isOnValidDay := testDate.weekday == Friday,
      hasNoConflicts := true)
  }

  /** A stored test as a conflict report lists it. */
  datatype Conflict = Conflict(testId: string, testType: string, title: string)

  /** Row `row` of the Tests table is a test of `testType` on the date string `testDate`. */
  predicate ConflictsWith(row: Row, testDate: string, testType: string)
  {
    |row| > 5 && row[5] == testDate && row[1] == testType
  }

  function ConflictOf(row: Row): Conflict
  {
    Conflict(Field(row, 0), Field(row, 1), Field(row, 2))
  }

  /** The tests on the same date and of the same type, in table order. */
  function ConflictingTests(rows: seq<Row>, testDate: string, testType: string): (r: seq<Conflict>)
    ensures |r| <= |rows|
  {
    if rows == [] then []
    else
      var init, last := rows[..|rows| - 1], rows[|rows| - 1];
      ConflictingTests(init, testDate, testType) + (if ConflictsWith(last, testDate, testType) then [ConflictOf(last)] else [])
  }

  /** A conflict is reported exactly when it describes a row that conflicts. */
  lemma {:induction false} ConflictingTestsMembers(rows: seq<Row>, testDate: string, testType: string)
    ensures forall c :: c in ConflictingTests(rows, testDate, testType) <==>
      exists k :: 0 <= k < |rows| && ConflictsWith(rows[k], testDate, testType) && c == ConflictOf(rows[k])
  {
    if rows != [] {
      var init, last := rows[..|rows| - 1], rows[|rows| - 1];
      var head := ConflictingTests(init, testDate, testType);
      var extra := if ConflictsWith(last, testDate, testType) then [ConflictOf(last)] else [];
      ConflictingTestsMembers(init, testDate, testType);
      assert ConflictingTests(rows, testDate, testType) == head + extra;
      forall c
        ensures c in head + extra <==>
          exists k :: 0 <= k < |rows| && ConflictsWith(rows[k], testDate, testType) && c == ConflictOf(rows[k])
      {
        if c in head {
          var k :| 0 <= k < |init| && ConflictsWith(init[k], testDate, testType) && c == ConflictOf(init[k]);
          assert rows[k] == init[k];
        }
        if c in extra {
          assert rows[|rows| - 1] == last;
        }
        if exists k :: 0 <= k < |rows| && ConflictsWith(rows[k], testDate, testType) && c == ConflictOf(rows[k]) {
          var k :| 0 <= k < |rows| && ConflictsWith(rows[k], testDate, testType) && c == ConflictOf(rows[k]);
          if k < |init| {
            assert init[k] == rows[k];
          }
        }
      }
    }
  }

  /** Nothing is reported exactly when no row conflicts. */
  lemma ConflictingTestsNone(rows: seq<Row>, testDate: string, testType: string)
    ensures ConflictingTests(rows, testDate, testType) == [] <==>
      forall k :: 0 <= k < |rows| ==> !ConflictsWith(rows[k], testDate, testType)
  {
    var r := ConflictingTests(rows, testDate, testType);
    ConflictingTestsMembers(rows, testDate, testType);
    if r != [] {
      assert r[0] in r;
    }
    if exists k :: 0 <= k < |rows| && ConflictsWith(rows[k], testDate, testType) {
      var k :| 0 <= k < |rows| && ConflictsWith(rows[k], testDate, testType);
      assert ConflictOf(rows[k]) in r;
    }
  }

  datatype ConflictReport = ConflictReport(hasConflict: bool, conflictingTests: seq<Conflict>)

  /**
   * `checkScheduleConflicts` over the rows of `Tests!A2:G`; an empty table
   * (the sheet returns no values) has no conflicts.
   */
  function CheckScheduleConflicts(rows: seq<Row>, testDate: string, testType: string): (r: ConflictReport)
    ensures r.hasConflict <==> exists k :: 0 <= k < |rows| && ConflictsWith(rows[k], testDate, testType)
    ensures r.conflictingTests == ConflictingTests(rows, testDate, testType)
  {
    var found := ConflictingTests(rows, testDate, testType);
    ConflictingTestsNone(rows, testDate, testType);
    ConflictReport(|found| > 0, found)
  }

  /** The report over more rows lists the earlier rows' conflicts first. */
  lemma {:induction false} ConflictingTestsConcat(a: seq<Row>, b: seq<Row>, testDate: string, testType: string)
    ensures ConflictingTests(a + b, testDate, testType) ==
      ConflictingTests(a, testDate, testType) + ConflictingTests(b, testDate, testType)
  {
    if b == [] {
      assert a + b == a;
    } else {
      var init := b[..|b| - 1];
      ConflictingTestsConcat(a, init, testDate, testType);
      assert (a + b)[..|a + b| - 1] == a + init;
      assert (a + b)[|a + b| - 1] == b[|b| - 1];
    }
  }

  /** Reading only columns A to G keeps every conflict: the cells compared and reported are among them. */
  lemma {:induction false} ClippedConflicts(rows: seq<Row>, testDate: string, testType: string)
    ensures ConflictingTests(ClipAll(rows, 7), testDate, testType) == ConflictingTests(rows, testDate, testType)
  {
    if rows != [] {
      var init, last := rows[..|rows| - 1], rows[|rows| - 1];
      ClipAllSplit(rows, 7);
      ClippedConflicts(init, testDate, testType);
      var c := Clip(last, 7);
      assert Field(c, 5) == Field(last, 5) && Field(c, 1) == Field(last, 1);
      assert ConflictsWith(c, testDate, testType) <==> ConflictsWith(last, testDate, testType);
      assert Field(c, 0) == Field(last, 0) && Field(c, 2) == Field(last, 2);
    }
  }
}

=== FILE: sheets.dfy ===
/**
 * The store-side helpers every handler shares: the admin credential
 * lookup, the layout of a submission row, and the submission count kept
 * in column H of a test's row, rewritten after every submission.
 */
module Sheets {
  import opened Wrappers
  import opened Text
  import opened Store

  /** An admin as the lookup exposes one: the password is never returned. */
  datatype Admin = Admin(username: string, permissions: Option<string>)

  /** Row `row` of `AdminAuth!A2:C` holds exactly these credentials. */
  predicate Matches(row: Row, username: string, password: string): (b: bool)
    ensures b <==> 2 <= |row| && row[0] == username && row[1] == password
  {
    Cell(row, 0) == Some(username) && Cell(row, 1) == Some(password)
  }

  /** The first row holding the credentials, as the admin it describes. */
  function FindAdmin(rows: seq<Row>, username: string, password: string): (r: Option<Admin>)
    ensures r.Some? ==> r.value.username == username
  {
    if rows == [] then None
    else if Matches(rows[0], username, password) then Some(Admin(username, Cell(rows[0], 2)))
    else FindAdmin(rows[1..], username, password)
  }

  /** No admin is found exactly when no row matches. */
  lemma {:induction false} FindAdminNone(rows: seq<Row>, username: string, password: string)
    ensures FindAdmin(rows, username, password).None? <==>
      forall k :: 0 <= k < |rows| ==> !Matches(rows[k], username, password)
  {
    if rows != [] && !Matches(rows[0], username, password) {
      var tail := rows[1..];
      FindAdminNone(tail, username, password);
      if FindAdmin(tail, username, password).None? {
        forall k | 0 <= k < |rows|
          ensures !Matches(rows[k], username, password)
        {
          if k > 0 {
            assert rows[k] == tail[k - 1];
          }
        }
      } else {
        var k :| 0 <= k < |tail| && Matches(tail[k], username, password);
        assert rows[k + 1] == tail[k];
      }
    }
  }

  /** The admin found is the one described by the first matching row. */
  lemma {:induction false} FindAdminFirst(rows: seq<Row>, username: string, password: string)
    requires FindAdmin(rows, username, password).Some?
    ensures exists k ::
      && 0 <= k < |rows| && Matches(rows[k], username, password)
      && (forall j :: 0 <= j < k ==> !Matches(rows[j], username, password))
      && FindAdmin(rows, username, password).value == Admin(username, Cell(rows[k], 2))
  {
    if !Matches(rows[0], username, password) {
      var tail := rows[1..];
      FindAdminFirst(tail, username, password);
      var k :| 0 <= k < |tail| && Matches(tail[k], username, password) &&
        (forall j :: 0 <= j < k ==> !Matches(tail[j], username, password)) &&
        FindAdmin(tail, username, password).value == Admin(username, Cell(tail[k], 2));
      assert tail[k] == rows[k + 1];
      forall j | 0 <= j < k + 1
        ensures !Matches(rows[j], username, password)
      {
        if j > 0 {
          assert rows[j] == tail[j - 1];
        }
      }
    }
  }

  /** Rows after a matching one never change who is found. */
  lemma {:induction false} FirstAdminWins(rows: seq<Row>, more: seq<Row>, username: string, password: string)
    requires FindAdmin(rows, username, password).Some?
    ensures FindAdmin(rows + more, username, password) == FindAdmin(rows, username, password)
  {
    if !Matches(rows[0], username, password) {
      assert (rows + more)[1..] == rows[1..] + more;
      FirstAdminWins(rows[1..], more, username, password);
    }
  }

  /** `verifyAdminCredentials`: the lookup over `AdminAuth!A2:C`. */
  method VerifyAdminCredentials(store: TableStore, username: string, password: string) returns (admin: Option<Admin>)
    ensures admin == FindAdmin(store.Rows(AdminAuth), username, password)
  {
    var rows := store.GetRange(AdminAuth, 3);
    admin := FindAdmin(rows, username, password);
    ClippedAdmin(store.Rows(AdminAuth), username, password);
  }

  /** Reading columns A to C keeps every cell the lookup compares or returns. */
  lemma {:induction false} ClippedAdmin(rows: seq<Row>, username: string, password: string)
    ensures FindAdmin(ClipAll(rows, 3), username, password) == FindAdmin(rows, username, password)
  {
    if rows != [] {
      var c := ClipAll(rows, 3);
      assert c[1..] == ClipAll(rows[1..], 3);
      assert Cell(c[0], 0) == Cell(rows[0], 0) && Cell(c[0], 1) == Cell(rows[0], 1) && Cell(c[0], 2) == Cell(rows[0], 2);
      ClippedAdmin(rows[1..], username, password);
    }
  }

  /**
   * A submission as recorded; `responses` is the JSON text of the
   * responses object (its encoding is not part of this model).
   */
  datatype Submission = Submission(testId: string, studentId: string, score: int, completed: bool, responses: string)

  function BoolText(b: bool): string
  {
    if b then "true" else "false"
  }

  /** The six cells of a Submissions row: id, student, score, completed, responses, timestamp. */
  function SubmissionRow(s: Submission, timestamp: string): (r: Row)
    ensures |r| == 6
    ensures r[0] == s.testId && r[1] == s.studentId && r[4] == s.responses && r[5] == timestamp
    ensures ParseInt(r[2]) == Some(s.score)
    ensures r[3] == "true" <==> s.completed
  {
    ParseIntToString(s.score);
    [s.testId, s.studentId, IntToString(s.score), BoolText(s.completed), s.responses, timestamp]
  }

  /** The rows with column D exactly `"true"`, in order. */
  function CompletedRows(rows: seq<Row>): (r: seq<Row>)
    ensures |r| <= |rows|
  {
    if rows == [] then []
    else
      var init, last := rows[..|rows| - 1], rows[|rows| - 1];
      assert rows == init + [last];
      CompletedRows(init) + (if Field(last, 3) == "true" then [last] else [])
  }

  /** A row counts as completed exactly when it is in the table and its completion cell is `true`. */
  lemma {:induction false} CompletedMembers(rows: seq<Row>)
    ensures forall row :: row in CompletedRows(rows) <==> row in rows && Field(row, 3) == "true"
  {
    if rows != [] {
      var init, last := rows[..|rows| - 1], rows[|rows| - 1];
      CompletedMembers(init);
      assert rows == init + [last];
    }
  }

  /** A recorded submission is counted among its test's submissions and, when completed, its completions. */
  lemma {:induction false} RecordedRowCounted(rows: seq<Row>, s: Submission, timestamp: string)
    ensures var after := RowsOf(rows + [SubmissionRow(s, timestamp)], s.testId);
      && after == RowsOf(rows, s.testId) + [SubmissionRow(s, timestamp)]
      && |CompletedRows(after)| == |CompletedRows(RowsOf(rows, s.testId))| + (if s.completed then 1 else 0)
  {
    var row := SubmissionRow(s, timestamp);
    RowsOfConcat(rows, [row], s.testId);
    var before := RowsOf(rows, s.testId);
    assert (before + [row])[..|before|] == before;
  }

  /**
   * `updateTestStats`: counts the test's rows in `Submissions!A2:F` and
   * writes the count to column H of the test's first row in Tests (sheet
   * row index + 2). An empty Tests table makes the lookup throw, and the
   * failure is swallowed, as is a missing test: nothing is written then.
   * The completed count is computed but never stored.
   */
  method UpdateTestStats(store: TableStore, testId: string)
    modifies store
    ensures forall t :: t != Tests ==> store.Rows(t) == old(store.Rows(t))
    ensures FindIndex(old(store.Rows(Tests)), testId).None? ==> store.Rows(Tests) == old(store.Rows(Tests))
    ensures FindIndex(old(store.Rows(Tests)), testId).Some? ==>
      var i := FindIndex(old(store.Rows(Tests)), testId).value;
      store.Rows(Tests) == old(store.Rows(Tests))[i := SetField(old(store.Rows(Tests))[i], 7,
        NatToString(|RowsOf(old(store.Rows(Submissions)), testId)|))]
  {
    var read := store.GetRange(Submissions, 6);
    ClippedRowsOf(store.Rows(Submissions), testId, 6);
    var submissions := RowsOf(read, testId);
    var totalSubmissions := |submissions|;
    var completedSubmissions := |CompletedRows(submissions)|;
    var tests := store.GetRange(Tests, 7);
    if tests == [] {
      return;
    }
    ClippedFindIndex(store.Rows(Tests), testId, 7);
    match FindIndex(tests, testId)
    case None =>
    case Some(i) =>
      store.SetCell(Tests, i + 2, 7, NatToString(totalSubmissions));
  }

  /**
   * `recordSubmission`: the row is appended to Submissions, then the
   * test's count is rewritten; it now counts the new row too.
   */
  method RecordSubmission(store: TableStore, s: Submission, timestamp: string)
    modifies store
    ensures store.Rows(Submissions) == old(store.Rows(Submissions)) + [SubmissionRow(s, timestamp)]
    ensures forall t :: t != Tests && t != Submissions ==> store.Rows(t) == old(store.Rows(t))
    ensures FindIndex(old(store.Rows(Tests)), s.testId).None? ==> store.Rows(Tests) == old(store.Rows(Tests))
    ensures FindIndex(old(store.Rows(Tests)), s.testId).Some? ==>
      var i := FindIndex(old(store.Rows(Tests)), s.testId).value;
      store.Rows(Tests) == old(store.Rows(Tests))[i := SetField(old(store.Rows(Tests))[i], 7,
        NatToString(|RowsOf(old(store.Rows(Submissions)), s.testId)| + 1))]
  {
    store.AppendRows(Submissions, [SubmissionRow(s, timestamp)]);
    RecordedRowCounted(old(store.Rows(Submissions)), s, timestamp);
    UpdateTestStats(store, s.testId);
  }

  /** The count written after a submission reads back as a positive number. */
  lemma CountAfterRecordPositive(rows: seq<Row>, s: Submission, timestamp: string)
    ensures ParseInt(NatToString(|RowsOf(rows, s.testId)| + 1)) == Some(|RowsOf(rows + [SubmissionRow(s, timestamp)], s.testId)|)
    ensures |RowsOf(rows + [SubmissionRow(s, timestamp)], s.testId)| >= 1
  {
    RecordedRowCounted(rows, s, timestamp);
    ParseNatToString(|RowsOf(rows, s.testId)| + 1);
  }
}

=== FILE: sorting.dfy ===
/** `Array.prototype.sort` as a stable insertion sort by a strict order `less`. */
module Sorting {

  function Insert<T>(xs: seq<T>, x: T, less: (T, T) -> bool): (r: seq<T>)
    ensures multiset(r) == multiset(xs) + multiset{x}
    ensures |r| == |xs| + 1
  {
    if xs == [] then [x]
    else if less(x, xs[0]) then [x] + xs
    else
      assert xs == [xs[0]] + xs[1..];
      [xs[0]] + Insert(xs[1..], x, less)
  }

  function SortBy<T>(xs: seq<T>, less: (T, T) -> bool): (r: seq<T>)
    ensures multiset(r) == multiset(xs)
    ensures |r| == |xs|
  {
    if xs == [] then []
    else
      assert xs == xs[..|xs| - 1] + [xs[|xs| - 1]];
      Insert(SortBy(xs[..|xs| - 1], less), xs[|xs| - 1], less)
  }

  ghost predicate Increasing<T>(xs: seq<T>, less: (T, T) -> bool)
  {
    forall i, j :: 0 <= i < j < |xs| ==> less(xs[i], xs[j])
  }

  ghost predicate Distinct<T>(xs: seq<T>)
  {
    forall i, j :: 0 <= i < j < |xs| ==> xs[i] != xs[j]
  }

  /** `less` is a strict total order on the elements of `xs`. */
  ghost predicate StrictTotalOn<T>(less: (T, T) -> bool, xs: seq<T>)
  {
    && (forall a, b :: a in xs && b in xs && less(a, b) ==> !less(b, a))
    && (forall a, b, c :: a in xs && b in xs && c in xs && less(a, b) && less(b, c) ==> less(a, c))
    && (forall a, b :: a in xs && b in xs && a != b ==> less(a, b) || less(b, a))
  }

  lemma {:induction false} InsertAfterAll<T>(xs: seq<T>, x: T, less: (T, T) -> bool)
    requires forall i :: 0 <= i < |xs| ==> !less(x, xs[i])
    ensures Insert(xs, x, less) == xs + [x]
  {
    if xs != [] {
      InsertAfterAll(xs[1..], x, less);
      assert [xs[0]] + (xs[1..] + [x]) == xs + [x];
    }
  }

  /** Sorting a list that is already in order changes nothing. */
  lemma {:induction false} SortByOfIncreasing<T>(xs: seq<T>, less: (T, T) -> bool)
    requires forall i, j :: 0 <= i < j < |xs| ==> less(xs[i], xs[j]) && !less(xs[j], xs[i])
    ensures SortBy(xs, less) == xs
  {
    if xs != [] {
      var init := xs[..|xs| - 1];
      SortByOfIncreasing(init, less);
      InsertAfterAll(init, xs[|xs| - 1], less);
      assert init + [xs[|xs| - 1]] == xs;
    }
  }

  lemma {:induction false} InsertIncreasing<T>(ys: seq<T>, x: T, less: (T, T) -> bool, all: seq<T>)
    requires StrictTotalOn(less, all)
    requires forall e :: e in ys ==> e in all
    requires x in all && x !in ys
    requires Increasing(ys, less)
    ensures Increasing(Insert(ys, x, less), less)
  {
    if ys != [] && !less(x, ys[0]) {
      assert ys[0] in ys;
      assert less(ys[0], x);
      var tail := Insert(ys[1..], x, less);
      assert forall e :: e in ys[1..] ==> e in ys;
      InsertIncreasing(ys[1..], x, less, all);
      HeadBelowInsert(ys, x, less);
      ConsIncreasing(ys[0], tail, less);
    } else if ys != [] {
      forall k | 0 <= k < |ys|
        ensures less(x, ys[k])
      {
        if k > 0 {
          assert ys[0] in ys && ys[k] in ys;
          assert less(ys[0], ys[k]);
        }
      }
      ConsIncreasing(x, ys, less);
    }
  }

  /** An element below every element of an increasing list can go in front. */
  lemma ConsIncreasing<T>(h: T, xs: seq<T>, less: (T, T) -> bool)
    requires Increasing(xs, less)
    requires forall k :: 0 <= k < |xs| ==> less(h, xs[k])
    ensures Increasing([h] + xs, less)
  {
    var r := [h] + xs;
    forall i, j | 0 <= i < j < |r|
      ensures less(r[i], r[j])
    {
      if i > 0 {
        assert r[i] == xs[i - 1] && r[j] == xs[j - 1];
      } else {
        assert r[j] == xs[j - 1];
      }
    }
  }

  /** The head of an increasing list is below everything in its tail with a larger element inserted. */
  lemma HeadBelowInsert<T>(ys: seq<T>, x: T, less: (T, T) -> bool)
    requires ys != [] && less(ys[0], x) && Increasing(ys, less)
    ensures forall k :: 0 <= k < |Insert(ys[1..], x, less)| ==> less(ys[0], Insert(ys[1..], x, less)[k])
  {
    var tail := Insert(ys[1..], x, less);
    forall k | 0 <= k < |tail|
      ensures less(ys[0], tail[k])
    {
      assert tail[k] in multiset(tail);
      if tail[k] != x {
        assert tail[k] in multiset(ys[1..]);
        var m :| 0 <= m < |ys[1..]| && ys[1..][m] == tail[k];
        assert ys[m + 1] == tail[k];
      }
    }
  }

  /** Sorting distinct elements by a strict total order gives a strictly increasing list. */
  lemma {:induction false} SortByIncreasing<T>(xs: seq<T>, less: (T, T) -> bool)
    requires StrictTotalOn(less, xs)
    requires Distinct(xs)
    ensures Increasing(SortBy(xs, less), less)
  {
    if xs != [] {
      var init, last := xs[..|xs| - 1], xs[|xs| - 1];
      assert StrictTotalOn(less, init) by {
        assert forall e :: e in init ==> e in xs;
      }
      SortByIncreasing(init, less);
      var sorted := SortBy(init, less);
      assert forall e :: e in sorted ==> e in init by {
        forall e | e in sorted ensures e in init {
          assert e in multiset(sorted);
        }
      }
      assert last !in init by {
        forall k | 0 <= k < |init| ensures init[k] != last {
          assert init[k] == xs[k];
        }
      }
      InsertIncreasing(sorted, last, less, xs);
    }
  }
}

=== FILE: store.dfy ===
/**
 * The spreadsheet that holds every table. Each tab is a list of rows of
 * string cells (row 1, the header, is not part of the data: data row `k`
 * lives on sheet row `k + 2`). A read of `Tab!A2:G` clips every row to its
 * first seven columns; an append adds rows at the end; an update writes one cell.
 */
module Store {
  import opened Wrappers

  type Row = seq<string>

  datatype Table = Tests | Questions | WritingPrompts | Submissions | AdminAuth

  /** The cell `row[i]`; a cell past the end of the row reads as empty. */
  function Field(row: Row, i: nat): string
  {
    if i < |row| then row[i] else ""
  }

  /** The cell `row[i]` as the client sees it: `None` (undefined) past the end of the row. */
  function Cell(row: Row, i: nat): (r: Option<string>)
    ensures r.Some? <==> i < |row|
    ensures r.Some? ==> r.value == Field(row, i)
  {
    if i < |row| then Some(row[i]) else None
  }

  /** The cell `row[i]` as a template literal renders it: `undefined` past the end of the row. */
  function Rendered(row: Row, i: nat): (r: string)
    ensures Cell(row, i).None? ==> r == "undefined"
    ensures Cell(row, i).Some? ==> r == Cell(row, i).value
  {
    if i < |row| then row[i] else "undefined"
  }

  /** A row as a range ending at column `width` returns it. */
  function Clip(row: Row, width: nat): (r: Row)
    ensures |r| <= width
    ensures forall i :: 0 <= i < width ==> Field(r, i) == Field(row, i)
    ensures |row| <= width ==> r == row
  {
    if |row| <= width then row else row[..width]
  }

  function ClipAll(rows: seq<Row>, width: nat): (r: seq<Row>)
    ensures |r| == |rows|
    ensures forall k :: 0 <= k < |rows| ==> r[k] == Clip(rows[k], width)
  {
    seq(|rows|, k requires 0 <= k < |rows| => Clip(rows[k], width))
  }

  /** The rows whose first cell is `id`, in sheet order. */
  function RowsOf(rows: seq<Row>, id: string): (r: seq<Row>)
    ensures |r| <= |rows|
    ensures (forall k :: 0 <= k < |rows| ==> Field(rows[k], 0) != id) ==> r == []
  {
    if rows == [] then []
    else
      var init, last := rows[..|rows| - 1], rows[|rows| - 1];
      assert rows == init + [last];
      RowsOf(init, id) + (if Field(last, 0) == id then [last] else [])
  }

  lemma {:induction false} RowsOfConcat(a: seq<Row>, b: seq<Row>, id: string)
    ensures RowsOf(a + b, id) == RowsOf(a, id) + RowsOf(b, id)
  {
    if b != [] {
      var init := b[..|b| - 1];
      RowsOfConcat(a, init, id);
      assert (a + b)[..|a + b| - 1] == a + init;
      assert (a + b)[|a + b| - 1] == b[|b| - 1];
    } else {
      assert a + b == a;
    }
  }

  /** A row is kept exactly when it is in the table and carries `id`. */
  lemma {:induction false} RowsOfMembers(rows: seq<Row>, id: string)
    ensures forall row :: row in RowsOf(rows, id) <==> row in rows && Field(row, 0) == id
  {
    if rows != [] {
      var init, last := rows[..|rows| - 1], rows[|rows| - 1];
      RowsOfMembers(init, id);
      assert rows == init + [last];
    }
  }

  /** Appending rows of another id leaves the rows of `id` unchanged. */
  lemma RowsOfAppendOther(rows: seq<Row>, added: seq<Row>, id: string)
    requires forall k :: 0 <= k < |added| ==> Field(added[k], 0) != id
    ensures RowsOf(rows + added, id) == RowsOf(rows, id)
  {
    RowsOfConcat(rows, added, id);
    assert rows + [] == rows;
  }

  /** Appending rows that all carry `id` to a table with none makes them the rows of `id`. */
  lemma RowsOfAppendOwn(rows: seq<Row>, added: seq<Row>, id: string)
    requires forall k :: 0 <= k < |rows| ==> Field(rows[k], 0) != id
    requires forall k :: 0 <= k < |added| ==> Field(added[k], 0) == id
    ensures RowsOf(rows + added, id) == added
  {
    RowsOfAllMatch(added, id);
    RowsOfConcat(rows, added, id);
    assert RowsOf(rows, id) == [];
  }

  /** Filtering by id commutes with reading a narrower range that still includes column A. */
  lemma {:induction false} ClippedRowsOf(rows: seq<Row>, id: string, width: nat)
    requires 1 <= width
    ensures RowsOf(ClipAll(rows, width), id) == ClipAll(RowsOf(rows, id), width)
  {
    if rows != [] {
      var init, last := rows[..|rows| - 1], rows[|rows| - 1];
      ClipAllSplit(rows, width);
      ClippedRowsOf(init, id, width);
      var head := RowsOf(init, id);
      assert Field(Clip(last, width), 0) == Field(last, 0);
      if Field(last, 0) == id {
        ClipAllSnoc(head, last, width);
      } else {
        assert head + [] == head;
      }
    }
  }

  lemma ClipAllSplit(rows: seq<Row>, width: nat)
    requires rows != []
    ensures var n := |rows| - 1;
      ClipAll(rows, width) == ClipAll(rows[..n], width) + [Clip(rows[n], width)]
  {
  }

  lemma ClipAllSnoc(rows: seq<Row>, row: Row, width: nat)
    ensures ClipAll(rows + [row], width) == ClipAll(rows, width) + [Clip(row, width)]
  {
  }

  /** Rows that all carry `id` are all kept, in order. */
  lemma {:induction false} RowsOfAllMatch(rows: seq<Row>, id: string)
    requires forall k :: 0 <= k < |rows| ==> Field(rows[k], 0) == id
    ensures RowsOf(rows, id) == rows
  {
    if rows != [] {
      var init, last := rows[..|rows| - 1], rows[|rows| - 1];
      RowsOfAllMatch(init, id);
      assert RowsOf(rows, id) == init + [last];
      assert init + [last] == rows;
    }
  }

  /** `rows.findIndex(row => row[0] === id)`, with `None` for -1. */
  function FindIndex(rows: seq<Row>, id: string): (r: Option<nat>)
    ensures r.Some? ==> r.value < |rows| && Field(rows[r.value], 0) == id
    ensures r.Some? ==> forall k :: 0 <= k < r.value ==> Field(rows[k], 0) != id
    ensures r.None? <==> forall k :: 0 <= k < |rows| ==> Field(rows[k], 0) != id
  {
    if rows == [] then None
    else if Field(rows[0], 0) == id then Some(0)
    else match FindIndex(rows[1..], id)
      case None => None
      case Some(k) => Some(k + 1)
  }

  /** A lookup over rows read through a narrower range finds the same row: column A is always read. */
  lemma ClippedFindIndex(rows: seq<Row>, id: string, width: nat)
    requires 1 <= width
    ensures FindIndex(ClipAll(rows, width), id) == FindIndex(rows, id)
  {
    var clipped := ClipAll(rows, width);
    assert forall k :: 0 <= k < |rows| ==> Field(clipped[k], 0) == Field(rows[k], 0);
    var a, b := FindIndex(clipped, id), FindIndex(rows, id);
    if a.Some? {
      assert b.Some? && !(b.value < a.value) && !(a.value < b.value);
    }
  }

  /** One `values.append` call: rows added at the end of a table. */
  datatype Append = Append(table: Table, rows: seq<Row>)

  /** The rows a sequence of appends adds to table `t`, in call order. */
  function Appended(writes: seq<Append>, t: Table): (r: seq<Row>)
    ensures writes == [] ==> r == []
  {
    if writes == [] then []
    else
      var last := writes[|writes| - 1];
      Appended(writes[..|writes| - 1], t) + (if last.table == t then last.rows else [])
  }

  lemma ConcatAssoc(a: seq<Row>, b: seq<Row>, c: seq<Row>)
    ensures a + b + c == a + (b + c)
  {
  }

  /** One more write adds its rows to its own table only. */
  lemma AppendedSnoc(writes: seq<Append>, i: nat)
    requires i < |writes|
    ensures forall t ::
      Appended(writes[..i + 1], t) == Appended(writes[..i], t) + (if writes[i].table == t then writes[i].rows else [])
  {
    assert writes[..i + 1][..i] == writes[..i];
    assert writes[..i + 1][i] == writes[i];
  }

  lemma {:induction false} AppendedConcat(a: seq<Append>, b: seq<Append>)
    ensures forall t :: Appended(a + b, t) == Appended(a, t) + Appended(b, t)
  {
    if b == [] {
      assert a + b == a;
    } else {
      var init := b[..|b| - 1];
      AppendedConcat(a, init);
      assert (a + b)[..|a + b| - 1] == a + init;
      assert (a + b)[|a + b| - 1] == b[|b| - 1];
    }
  }

  /** The row with cell `col` set to `value`, padded with empty cells if it was shorter. */
  function SetField(row: Row, col: nat, value: string): (r: Row)
    ensures |r| == if col < |row| then |row| else col + 1
    ensures Field(r, col) == value
    ensures forall i :: 0 <= i < |r| && i != col ==> Field(r, i) == Field(row, i)
  {
    var padded := if col < |row| then row else row + seq(col + 1 - |row|, _ => "");
    padded[col := value]
  }

  class TableStore {
    var tests: seq<Row>
    var questions: seq<Row>
    var writingPrompts: seq<Row>
    var submissions: seq<Row>
    var adminAuth: seq<Row>

    constructor (tests: seq<Row>, questions: seq<Row>, writingPrompts: seq<Row>,
                 submissions: seq<Row>, adminAuth: seq<Row>)
      ensures Rows(Tests) == tests && Rows(Questions) == questions
      ensures Rows(WritingPrompts) == writingPrompts && Rows(Submissions) == submissions
      ensures Rows(AdminAuth) == adminAuth
    {
      this.tests := tests;
      this.questions := questions;
      this.writingPrompts := writingPrompts;
      this.submissions := submissions;
      this.adminAuth := adminAuth;
    }

    /** The data rows of a tab, below its header. */
    function Rows(t: Table): seq<Row>
      reads this
    {
      match t
      case Tests => tests
      case Questions => questions
      case WritingPrompts => writingPrompts
      case Submissions => submissions
      case AdminAuth => adminAuth
    }

    /** `values.get` of `Tab!A2:<col>`: every data row clipped to `width` columns. */
    method GetRange(t: Table, width: nat) returns (rows: seq<Row>)
      ensures rows == ClipAll(Rows(t), width)
      ensures |rows| == |Rows(t)|
      ensures forall k :: 0 <= k < |rows| ==> rows[k] == Clip(Rows(t)[k], width)
    {
      rows := ClipAll(Rows(t), width);
    }

    /** `values.append`: the rows go after the last data row of the tab. */
    method AppendRows(t: Table, added: seq<Row>)
      modifies this
      ensures Rows(t) == old(Rows(t)) + added
      ensures forall u :: u != t ==> Rows(u) == old(Rows(u))
    {
      match t
      case Tests => tests := tests + added;
      case Questions => questions := questions + added;
      case WritingPrompts => writingPrompts := writingPrompts + added;
      case Submissions => submissions := submissions + added;
      case AdminAuth => adminAuth := adminAuth + added;
    }

    /** The appends of `writes`, one `values.append` call each, in order. */
    method AppendAll(writes: seq<Append>)
      modifies this
      ensures forall t :: Rows(t) == old(Rows(t)) + Appended(writes, t)
    {
      for i := 0 to |writes|
        invariant forall t :: Rows(t) == old(Rows(t)) + Appended(writes[..i], t)
      {
        var w := writes[i];
        AppendedSnoc(writes, i);
        label before:
        AppendRows(w.table, w.rows);
        forall t
          ensures Rows(t) == old(Rows(t)) + Appended(writes[..i + 1], t)
        {
          if t == w.table {
            ConcatAssoc(old(Rows(t)), Appended(writes[..i], t), w.rows);
          } else {
            assert Rows(t) == old@before(Rows(t));
          }
        }
      }
      assert writes[..|writes|] == writes;
    }

    /** `values.update` of one cell, at sheet row `sheetRow` (1-based, header on row 1). */
    method SetCell(t: Table, sheetRow: nat, col: nat, value: string)
      requires 2 <= sheetRow < |Rows(t)| + 2
      modifies this
      ensures Rows(t) == old(Rows(t))[sheetRow - 2 := SetField(old(Rows(t))[sheetRow - 2], col, value)]
      ensures |Rows(t)| == |old(Rows(t))|
      ensures Rows(t)[sheetRow - 2] == SetField(old(Rows(t))[sheetRow - 2], col, value)
      ensures forall k :: 0 <= k < |Rows(t)| && k != sheetRow - 2 ==> Rows(t)[k] == old(Rows(t))[k]
      ensures forall u :: u != t ==> Rows(u) == old(Rows(u))
    {
      var rows := Rows(t);
      var k := sheetRow - 2;
      var updated := rows[k := SetField(rows[k], col, value)];
      match t
      case Tests => tests := updated;
      case Questions => questions := updated;
      case WritingPrompts => writingPrompts := updated;
      case Submissions => submissions := updated;
      case AdminAuth => adminAuth := updated;
    }
  }
}

=== FILE: submissions.dfy ===
/**
 * The submission endpoint: a POST body is checked for its required fields
 * and, when none is missing, recorded as one Submissions row followed by
 * the update of the test's submission count.
 */
module Submissions {
  import opened Wrappers
  import opened Text
  import opened Store
  import opened Sheets

  /**
   * The body as parsed JSON, one entry per field the endpoint reads;
   * `responses` is the JSON text of the responses object, present or not.
   */
  datatype SubmissionBody = SubmissionBody(
    testId: Option<string>,
    studentId: Option<string>,
    score: Option<int>,
    completed: Option<bool>,
    responses: Option<string>)

  /** The required fields, in the order they are reported. */
  const RequiredFields: seq<string> := ["test_id", "student_id", "score", "completed", "responses"]

  /** `names.filter(missing)`. */
  function Filter(names: seq<string>, missing: string -> bool): (r: seq<string>)
    ensures |r| <= |names|
    ensures forall x :: x in r <==> x in names && missing(x)
  {
    if names == [] then []
    else
      var init, last := names[..|names| - 1], names[|names| - 1];
      assert names == init + [last];
      Filter(init, missing) + (if missing(last) then [last] else [])
  }

  /** `!body[name]` as written: an absent value, an empty string, the number 0 and `false` are all falsy. */
  predicate Falsy(b: SubmissionBody, name: string)
  {
    match name
    case "test_id" => b.testId.None? || b.testId == Some("")
    case "student_id" => b.studentId.None? || b.studentId == Some("")
    case "score" => b.score.None? || b.score == Some(0)
    case "completed" => b.completed.None? || b.completed == Some(false)
    case "responses" => b.responses.None?
    case _ => false
  }

  /** The missing fields as the handler computes them. */
  function MissingFieldsAsWritten(b: SubmissionBody): (r: seq<string>)
    ensures r == [] <==>
      && b.testId.Some? && b.testId.value != "" && b.studentId.Some? && b.studentId.value != ""
      && b.score.Some? && b.score.value != 0 && b.completed.Some? && b.completed.value && b.responses.Some?
  {
    var falsy := name => Falsy(b, name);
    var r := Filter(RequiredFields, falsy);
    NoneMissing(r, falsy);
    FalsyScoreCompleted(b);
    r
  }

  /** A score is falsy when absent or zero, a completion flag when absent or false. */
  lemma FalsyScoreCompleted(b: SubmissionBody)
    ensures !Falsy(b, "score") <==> b.score.Some? && b.score.value != 0
    ensures !Falsy(b, "completed") <==> b.completed.Some? && b.completed.value
  {
  }

  /** No field is missing exactly when none of the five is. */
  lemma NoneMissing(r: seq<string>, missing: string -> bool)
    requires r == Filter(RequiredFields, missing)
    ensures r == [] <==>
      !missing("test_id") && !missing("student_id") && !missing("score") && !missing("completed") && !missing("responses")
  {
    assert RequiredFields[0] == "test_id" && RequiredFields[1] == "student_id" && RequiredFields[2] == "score";
    assert RequiredFields[3] == "completed" && RequiredFields[4] == "responses";
    if r != [] {
      assert r[0] in r;
    }
  }

  /** As written, a score of zero is refused as missing. */
  lemma ZeroScoreRefused(b: SubmissionBody)
    requires b.score == Some(0)
    ensures "score" in MissingFieldsAsWritten(b)
  {
    assert "score" in RequiredFields;
  }

  /** As written, an incomplete attempt is refused as missing its `completed` field. */
  lemma IncompleteRefused(b: SubmissionBody)
    requires b.completed == Some(false)
    ensures "completed" in MissingFieldsAsWritten(b)
  {
    assert "completed" in RequiredFields;
  }

  /** A field is missing when it is absent; the two ids must also be non-empty. */
  predicate Absent(b: SubmissionBody, name: string)
  {
    match name
    case "test_id" => b.testId.None? || b.testId == Some("")
    case "student_id" => b.studentId.None? || b.studentId == Some("")
    case "score" => b.score.None?
    case "completed" => b.completed.None?
    case "responses" => b.responses.None?
    case _ => false
  }

  /** The missing fields, with 0 and `false` accepted as values. */
  function MissingFields(b: SubmissionBody): (r: seq<string>)
    ensures r == [] <==>
      && b.testId.Some? && b.testId.value != "" && b.studentId.Some? && b.studentId.value != ""
      && b.score.Some? && b.completed.Some? && b.responses.Some?
  {
    var absent := name => Absent(b, name);
    var r := Filter(RequiredFields, absent);
    NoneMissing(r, absent);
    r
  }

  /** Filters by predicates that agree on every name give the same list. */
  lemma {:induction false} FilterAgree(names: seq<string>, p: string -> bool, q: string -> bool)
    requires forall x :: x in names ==> (p(x) <==> q(x))
    ensures Filter(names, p) == Filter(names, q)
  {
    if names != [] {
      FilterAgree(names[..|names| - 1], p, q);
    }
  }

  /**
   * Every field the corrected check reports, the handler as written reports
   * too; the two differ only on a zero score and an incomplete attempt.
   */
  lemma MissingFieldsAgree(b: SubmissionBody)
    ensures forall x :: x in MissingFields(b) ==> x in MissingFieldsAsWritten(b)
    ensures b.score != Some(0) && b.completed != Some(false) ==> MissingFields(b) == MissingFieldsAsWritten(b)
  {
    var absent, falsy := name => Absent(b, name), name => Falsy(b, name);
    assert MissingFields(b) == Filter(RequiredFields, absent);
    assert MissingFieldsAsWritten(b) == Filter(RequiredFields, falsy);
    if b.score != Some(0) && b.completed != Some(false) {
      FilterAgree(RequiredFields, absent, falsy);
    }
  }

  datatype SubmitReply = Recorded | Refused(status: nat, message: string)

  /**
   * The decision as the handler makes it: the submission to record, or the
   * reply that refuses it. A falsy score or completion flag counts as missing.
   */
  function CheckSubmission(httpMethod: string, b: SubmissionBody): (r: Result<Submission, SubmitReply>)
    ensures httpMethod != "POST" ==> r == Err(Refused(405, "Method not allowed"))
    ensures httpMethod == "POST" && MissingFieldsAsWritten(b) != [] ==>
      r == Err(Refused(400, "Missing required fields: " + Join(MissingFieldsAsWritten(b), ", ")))
    ensures r.Ok? <==> httpMethod == "POST" && MissingFieldsAsWritten(b) == []
    ensures r.Ok? ==> r.value == Submission(b.testId.value, b.studentId.value, b.score.value,
                                            b.completed.value, b.responses.value)
    ensures r.Ok? ==> r.value.testId != "" && r.value.studentId != "" && r.value.score != 0 && r.value.completed
  {
    if httpMethod != "POST" then Err(Refused(405, "Method not allowed"))
    else
      var missing := MissingFieldsAsWritten(b);
      if missing != [] then Err(Refused(400, "Missing required fields: " + Join(missing, ", ")))
      else Ok(Submission(b.testId.value, b.studentId.value, b.score.value, b.completed.value, b.responses.value))
  }

  /** The decision with the corrected check: only absent fields and empty ids are missing. */
  function CheckSubmissionCorrected(httpMethod: string, b: SubmissionBody): (r: Result<Submission, SubmitReply>)
    ensures httpMethod != "POST" ==> r == Err(Refused(405, "Method not allowed"))
    ensures httpMethod == "POST" && MissingFields(b) != [] ==>
      r == Err(Refused(400, "Missing required fields: " + Join(MissingFields(b), ", ")))
    ensures r.Ok? <==> httpMethod == "POST" && MissingFields(b) == []
    ensures r.Ok? ==> r.value == Submission(b.testId.value, b.studentId.value, b.score.value,
                                            b.completed.value, b.responses.value)
    ensures r.Ok? ==> r.value.testId != "" && r.value.studentId != ""
  {
    if httpMethod != "POST" then Err(Refused(405, "Method not allowed"))
    else
      var missing := MissingFields(b);
      if missing != [] then Err(Refused(400, "Missing required fields: " + Join(missing, ", ")))
      else Ok(Submission(b.testId.value, b.studentId.value, b.score.value, b.completed.value, b.responses.value))
  }

  /** As written, a complete body is recorded exactly when its score is non-zero and the attempt completed. */
  lemma CompleteBodyRecorded(b: SubmissionBody)
    requires b.testId.Some? && b.testId.value != "" && b.studentId.Some? && b.studentId.value != ""
    requires b.score.Some? && b.completed.Some? && b.responses.Some?
    ensures CheckSubmission("POST", b).Ok? <==> b.score.value != 0 && b.completed.value
  {
  }

  /** As written, a body with a zero score or an unfinished attempt is refused with 400 and not recorded. */
  lemma FalsyBodyRefused(b: SubmissionBody)
    requires b.score == Some(0) || b.completed == Some(false)
    ensures CheckSubmission("POST", b).Err? && CheckSubmission("POST", b).error.status == 400
  {
    if b.score == Some(0) {
      ZeroScoreRefused(b);
    } else {
      IncompleteRefused(b);
    }
  }

  /** With the corrected check, a complete submission is recorded whatever its score and completion. */
  lemma CompleteBodyRecordedCorrected(b: SubmissionBody)
    requires b.testId.Some? && b.testId.value != "" && b.studentId.Some? && b.studentId.value != ""
    requires b.score.Some? && b.completed.Some? && b.responses.Some?
    ensures CheckSubmissionCorrected("POST", b).Ok?
  {
  }

  /** The corrected check accepts every body the handler accepts, and the same submission. */
  lemma CorrectedAcceptsMore(httpMethod: string, b: SubmissionBody)
    requires CheckSubmission(httpMethod, b).Ok?
    ensures CheckSubmissionCorrected(httpMethod, b) == CheckSubmission(httpMethod, b)
  {
  }

  /**
   * The handler: a refused body changes nothing; an accepted one is
   * recorded once, then the reply is sent.
   */
  method HandleSubmission(store: TableStore, httpMethod: string, b: SubmissionBody, timestamp: string)
    returns (reply: SubmitReply)
    modifies store
    ensures CheckSubmission(httpMethod, b).Err? ==>
      reply == CheckSubmission(httpMethod, b).error && forall t :: store.Rows(t) == old(store.Rows(t))
    ensures CheckSubmission(httpMethod, b).Ok? ==>
      var s := CheckSubmission(httpMethod, b).value;
      && reply == Recorded
      && store.Rows(Submissions) == old(store.Rows(Submissions)) + [SubmissionRow(s, timestamp)]
      && (forall t :: t != Tests && t != Submissions ==> store.Rows(t) == old(store.Rows(t)))
      && (FindIndex(old(store.Rows(Tests)), s.testId).None? ==> store.Rows(Tests) == old(store.Rows(Tests)))
      && (FindIndex(old(store.Rows(Tests)), s.testId).Some? ==>
            var i := FindIndex(old(store.Rows(Tests)), s.testId).value;
            store.Rows(Tests) == old(store.Rows(Tests))[i := SetField(old(store.Rows(Tests))[i], 7, NatToString(|RowsOf(old(store.Rows(Submissions)), s.testId)| + 1))])
  {
    var checked := CheckSubmission(httpMethod, b);
    if checked.Err? {
      return checked.error;
    }
    RecordSubmission(store, checked.value, timestamp);
    reply := Recorded;
  }

  /** The handler on the corrected check. */
  method HandleSubmissionCorrected(store: TableStore, httpMethod: string, b: SubmissionBody, timestamp: string)
    returns (reply: SubmitReply)
    modifies store
    ensures CheckSubmissionCorrected(httpMethod, b).Err? ==>
      reply == CheckSubmissionCorrected(httpMethod, b).error && forall t :: store.Rows(t) == old(store.Rows(t))
    ensures CheckSubmissionCorrected(httpMethod, b).Ok? ==>
      var s := CheckSubmissionCorrected(httpMethod, b).value;
      && reply == Recorded
      && store.Rows(Submissions) == old(store.Rows(Submissions)) + [SubmissionRow(s, timestamp)]
      && (forall t :: t != Tests && t != Submissions ==> store.Rows(t) == old(store.Rows(t)))
      && (FindIndex(old(store.Rows(Tests)), s.testId).None? ==> store.Rows(Tests) == old(store.Rows(Tests)))
      && (FindIndex(old(store.Rows(Tests)), s.testId).Some? ==>
            var i := FindIndex(old(store.Rows(Tests)), s.testId).value;
            store.Rows(Tests) == old(store.Rows(Tests))[i := SetField(old(store.Rows(Tests))[i], 7, NatToString(|RowsOf(old(store.Rows(Submissions)), s.testId)| + 1))])
  {
    var checked := CheckSubmissionCorrected(httpMethod, b);
    if checked.Err? {
      return checked.error;
    }
    RecordSubmission(store, checked.value, timestamp);
    reply := Recorded;
  }
}

=== FILE: text.dfy ===
/** What the JavaScript code takes from its runtime for strings: the decimal rendering of
    numbers (`String(n)`, `toString`), `parseInt`, `padStart(2, '0')`, `split('-').join('')`,
    `join`, the default order of `Array.prototype.sort`, and JSON for lists of strings. */
module Text {
  import opened Wrappers

  predicate IsDigit(c: char) { '0' <= c <= '9' }

  predicate AllDigits(s: string) { forall i :: 0 <= i < |s| ==> IsDigit(s[i]) }

  function DigitValue(c: char): nat
    requires IsDigit(c)
  {
    c as int - '0' as int
  }

  function DigitChar(d: nat): (c: char)
    requires d < 10
    ensures IsDigit(c) && DigitValue(c) == d
  {
    ('0' as int + d) as char
  }

  /** The number a string of decimal digits denotes (leading zeros allowed). */
  function DigitsValue(s: string): nat
    requires AllDigits(s)
  {
    if s == [] then 0 else 10 * DigitsValue(s[..|s| - 1]) + DigitValue(s[|s| - 1])
  }

  /** `String(n)` for a natural number: its decimal digits, without leading zeros. */
  function NatToString(n: nat): (s: string)
    ensures 1 <= |s| && AllDigits(s)
    ensures |s| == 1 <==> n < 10
    ensures DigitsValue(s) == n
  {
    if n < 10 then [DigitChar(n)]
    else
      var s := NatToString(n / 10) + [DigitChar(n % 10)];
      assert s[..|s| - 1] == NatToString(n / 10);
      s
  }

  /** `String(i)` / `i.toString()` for an integer. */
  function IntToString(i: int): (s: string)
    ensures 1 <= |s|
  {
    if i < 0 then "-" + NatToString(-i) else NatToString(i)
  }

  /** The longest prefix of s made of decimal digits. */
  function LeadingDigits(s: string): (d: string)
    ensures |d| <= |s| && d == s[..|d|] && AllDigits(d)
    ensures |d| < |s| ==> !IsDigit(s[|d|])
  {
    if s == [] || !IsDigit(s[0]) then [] else [s[0]] + LeadingDigits(s[1..])
  }

  /** `parseInt(s)`: an optional sign followed by the leading decimal digits; `None` is NaN. */
  function ParseInt(s: string): (r: Option<int>)
    ensures s == [] ==> r.None?
    ensures |s| > 0 && IsDigit(s[0]) ==> r.Some? && r.value >= 0
    ensures r.Some? && r.value < 0 ==> s[0] == '-'
  {
    var negative := |s| > 0 && s[0] == '-';
    var unsigned := if |s| > 0 && (s[0] == '-' || s[0] == '+') then s[1..] else s;
    var digits := LeadingDigits(unsigned);
    var magnitude: int := if digits == [] then 0 else DigitsValue(digits);
    if digits == [] then None
    else if negative then Some(-magnitude)
    else Some(magnitude)
  }

  lemma {:induction false} LeadingDigitsOfDigits(s: string)
    requires AllDigits(s)
    ensures LeadingDigits(s) == s
  {
    if s != [] {
      LeadingDigitsOfDigits(s[1..]);
    }
  }

  /** `parseInt` reads back what `String` writes, for natural numbers. */
  lemma ParseNatToString(n: nat)
    ensures ParseInt(NatToString(n)) == Some(n)
  {
    var s := NatToString(n);
    assert IsDigit(s[0]);
    LeadingDigitsOfDigits(s);
  }

  /** `parseInt` reads back what `String` writes, for every integer. */
  lemma ParseIntToString(i: int)
    ensures ParseInt(IntToString(i)) == Some(i)
  {
    if i < 0 {
      var s := IntToString(i);
      var t := NatToString(-i);
      assert s == "-" + t && s[0] == '-' && s[1..] == t;
      assert IsDigit(t[0]);
      LeadingDigitsOfDigits(t);
    } else {
      ParseNatToString(i);
    }
  }

  /** Decimal rendering is injective. */
  lemma NatToStringInjective(m: nat, n: nat)
    requires NatToString(m) == NatToString(n)
    ensures m == n
  {
    ParseNatToString(m);
    ParseNatToString(n);
  }

  /** `String(n).padStart(2, '0')`. */
  function Pad2(n: nat): (s: string)
    ensures 2 <= |s| && AllDigits(s) && DigitsValue(s) == n
  {
    if n < 10 then
      var s := "0" + NatToString(n);
      assert s[..1] == "0";
      s
    else NatToString(n)
  }

  /** `${year}-${MM}-${DD}`: an ISO calendar date with zero-padded month and day. */
  function IsoDate(year: nat, month: nat, day: nat): string
  {
    NatToString(year) + "-" + Pad2(month) + "-" + Pad2(day)
  }

  /** `s.split(c).join('')`: s with every occurrence of c removed. */
  function Without(s: string, c: char): (r: string)
    ensures c !in r
    ensures |r| <= |s|
  {
    if s == [] then [] else (if s[0] == c then [] else [s[0]]) + Without(s[1..], c)
  }

  lemma {:induction false} WithoutConcat(a: string, b: string, c: char)
    ensures Without(a + b, c) == Without(a, c) + Without(b, c)
  {
    if a != [] {
      var head := if a[0] == c then [] else [a[0]];
      assert a + b != [] && (a + b)[0] == a[0] && (a + b)[1..] == a[1..] + b;
      calc {
        Without(a + b, c);
        head + Without(a[1..] + b, c);
        { WithoutConcat(a[1..], b, c); }
        head + (Without(a[1..], c) + Without(b, c));
        (head + Without(a[1..], c)) + Without(b, c);
        Without(a, c) + Without(b, c);
      }
    } else {
      assert a + b == b;
    }
  }

  lemma {:induction false} WithoutAbsent(s: string, c: char)
    requires c !in s
    ensures Without(s, c) == s
  {
    if s != [] {
      WithoutAbsent(s[1..], c);
    }
  }

  lemma DigitsHaveNoDash(s: string)
    requires AllDigits(s)
    ensures '-' !in s
  {
    forall i | 0 <= i < |s|
      ensures s[i] != '-'
    {
      assert IsDigit(s[i]);
    }
  }

  /** Removing the dashes of an ISO date leaves the digits YYYYMMDD. */
  lemma IsoDateWithoutDashes(year: nat, month: nat, day: nat)
    ensures Without(IsoDate(year, month, day), '-') == NatToString(year) + Pad2(month) + Pad2(day)
  {
    var y, m, d := NatToString(year), Pad2(month), Pad2(day);
    DigitsHaveNoDash(y);
    DigitsHaveNoDash(m);
    DigitsHaveNoDash(d);
    WithoutAbsent(y, '-');
    WithoutAbsent(m, '-');
    WithoutAbsent(d, '-');
    assert Without("-", '-') == [];
    var p1 := y + "-";
    WithoutConcat(y, "-", '-');
    assert Without(p1, '-') == y;
    var p2 := p1 + m;
    WithoutConcat(p1, m, '-');
    assert Without(p2, '-') == y + m;
    var p3 := p2 + "-";
    WithoutConcat(p2, "-", '-');
    assert Without(p3, '-') == y + m;
    WithoutConcat(p3, d, '-');
    assert IsoDate(year, month, day) == p3 + d;
  }

  /** `xs.join(sep)`. */
  function Join(xs: seq<string>, sep: string): (r: string)
    ensures xs == [] ==> r == ""
    ensures |xs| == 1 ==> r == xs[0]
  {
    if xs == [] then ""
    else if |xs| == 1 then xs[0]
    else xs[0] + sep + Join(xs[1..], sep)
  }

  // ---------------------------------------------------------------------------
  // The order `Array.prototype.sort()` uses when no comparator is given:
  // lexicographic comparison of the strings, character by character.

  predicate StrLess(a: string, b: string)
  {
    if a == [] then b != []
    else if b == [] then false
    else if a[0] != b[0] then a[0] < b[0]
    else StrLess(a[1..], b[1..])
  }

  lemma {:induction false} StrLessIrreflexive(a: string)
    ensures !StrLess(a, a)
  {
    if a != [] {
      StrLessIrreflexive(a[1..]);
    }
  }

  lemma {:induction false} StrLessAsymmetric(a: string, b: string)
    requires StrLess(a, b)
    ensures !StrLess(b, a)
  {
    if a != [] && b != [] && a[0] == b[0] {
      StrLessAsymmetric(a[1..], b[1..]);
    }
  }

  lemma {:induction false} StrLessTransitive(a: string, b: string, c: string)
    requires StrLess(a, b) && StrLess(b, c)
    ensures StrLess(a, c)
  {
    if a != [] && b != [] && c != [] && a[0] == b[0] && b[0] == c[0] {
      StrLessTransitive(a[1..], b[1..], c[1..]);
    }
  }

  lemma {:induction false} StrLessTotal(a: string, b: string)
    requires a != b
    ensures StrLess(a, b) || StrLess(b, a)
  {
    if a != [] && b != [] && a[0] == b[0] {
      assert a == [a[0]] + a[1..] && b == [b[0]] + b[1..];
      StrLessTotal(a[1..], b[1..]);
    }
  }

  /** The string order is a strict total order on all strings. */
  lemma StrLessIsStrictTotalOrder()
    ensures forall a, b :: StrLess(a, b) ==> !StrLess(b, a)
    ensures forall a, b, c :: StrLess(a, b) && StrLess(b, c) ==> StrLess(a, c)
    ensures forall a, b :: a != b ==> StrLess(a, b) || StrLess(b, a)
  {
    forall a, b | StrLess(a, b) ensures !StrLess(b, a) {
      StrLessAsymmetric(a, b);
    }
    forall a, b, c | StrLess(a, b) && StrLess(b, c) ensures StrLess(a, c) {
      StrLessTransitive(a, b, c);
    }
    forall a, b | a != b ensures StrLess(a, b) || StrLess(b, a) {
      StrLessTotal(a, b);
    }
  }

  // ---------------------------------------------------------------------------
  // JSON for lists of strings, in the compact form written here: quotes and
  // backslashes are escaped, every other character (control characters
  // included) is written as it is, with no spaces between items. The parser
  // accepts exactly the texts of that form and fails (`None`) on every other
  // text, including valid JSON with spaces or other escapes.

  function Escape(s: string): string
  {
    if s == [] then []
    else (if s[0] == '"' || s[0] == '\\' then ['\\', s[0]] else [s[0]]) + Escape(s[1..])
  }

  function Quote(s: string): string
  {
    "\"" + Escape(s) + "\""
  }

  function QuotedList(xs: seq<string>): (s: string)
    ensures xs != [] ==> 2 <= |s| && s[0] == '"'
  {
    if xs == [] then ""
    else if |xs| == 1 then Quote(xs[0])
    else Quote(xs[0]) + "," + QuotedList(xs[1..])
  }

  /** A list of strings as a JSON array; `JSON.stringify(xs)` for strings with no control characters. */
  function EncodeStrings(xs: seq<string>): (s: string)
    ensures 2 <= |s| && s[0] == '[' && s[|s| - 1] == ']'
  {
    "[" + QuotedList(xs) + "]"
  }

  /** Reads the rest of a string literal after its opening quote:
      the unescaped contents and what follows the closing quote. */
  function ReadString(s: string): (r: Option<(string, string)>)
    ensures r.Some? ==> |r.value.1| < |s|
  {
    if s == [] then None
    else if s[0] == '"' then Some(([], s[1..]))
    else if s[0] == '\\' then
      if |s| >= 2 && (s[1] == '"' || s[1] == '\\') then
        match ReadString(s[2..])
        case None => None
        case Some(p) => Some(([s[1]] + p.0, p.1))
      else None
    else
      match ReadString(s[1..])
      case None => None
      case Some(p) => Some(([s[0]] + p.0, p.1))
  }

  /** Reads `"…","…",…,"…"]` up to the end of the text. */
  function ReadItems(s: string): Option<seq<string>>
    decreases |s|
  {
    if s == [] || s[0] != '"' then None
    else
      match ReadString(s[1..])
      case None => None
      case Some(p) =>
        if p.1 == "]" then Some([p.0])
        else if p.1 != [] && p.1[0] == ',' then
          match ReadItems(p.1[1..])
          case None => None
          case Some(rest) => Some([p.0] + rest)
        else None
  }

  /** `JSON.parse(s)` where a list of strings is expected; `None` when it would throw. */
  function DecodeStrings(s: string): (r: Option<seq<string>>)
    ensures r.Some? ==> s != [] && s[0] == '['
  {
    if s == "[]" then Some([])
    else if s != [] && s[0] == '[' then ReadItems(s[1..])
    else None
  }

  lemma {:induction false} ReadEscaped(x: string, rest: string)
    ensures ReadString(Escape(x) + "\"" + rest) == Some((x, rest))
  {
    if x == [] {
      assert Escape(x) + "\"" + rest == "\"" + rest;
    } else {
      var tail := Escape(x[1..]) + "\"" + rest;
      ReadEscaped(x[1..], rest);
      var head := if x[0] == '"' || x[0] == '\\' then ['\\', x[0]] else [x[0]];
      assert Escape(x) == head + Escape(x[1..]);
      assert Escape(x) + "\"" + rest == head + tail;
      ReadChar(x[0], tail, x[1..], rest);
      assert [x[0]] + x[1..] == x;
    }
  }

  /** One character of a literal, escaped when it must be, reads as itself. */
  lemma ReadChar(c: char, tail: string, y: string, rest: string)
    requires ReadString(tail) == Some((y, rest))
    ensures var head := if c == '"' || c == '\\' then ['\\', c] else [c];
      ReadString(head + tail) == Some(([c] + y, rest))
  {
    if c == '"' || c == '\\' {
      assert (['\\', c] + tail)[2..] == tail;
    } else {
      assert ([c] + tail)[1..] == tail;
    }
  }

  /** What follows one item of a list: the closing bracket, or a comma and more items. */
  function ItemsAfter(x: string, more: string): Option<seq<string>>
  {
    if more == "]" then Some([x])
    else if more != [] && more[0] == ',' then
      match ReadItems(more[1..])
      case None => None
      case Some(rest) => Some([x] + rest)
    else None
  }

  /** One item of a list: its literal, then either the closing bracket or a comma. */
  lemma ReadOneItem(x: string, more: string)
    ensures ReadItems(Quote(x) + more) == ItemsAfter(x, more)
  {
    var s := Quote(x) + more;
    assert s[0] == '"';
    assert s[1..] == Escape(x) + "\"" + more;
    ReadEscaped(x, more);
    ReadItemsStep(s, x, more);
  }

  lemma ReadItemsStep(s: string, x: string, more: string)
    requires s != [] && s[0] == '"' && ReadString(s[1..]) == Some((x, more))
    ensures ReadItems(s) == ItemsAfter(x, more)
  {
  }

  lemma {:induction false} ReadQuotedList(xs: seq<string>)
    requires xs != []
    ensures ReadItems(QuotedList(xs) + "]") == Some(xs)
  {
    if |xs| == 1 {
      assert QuotedList(xs) == Quote(xs[0]);
      ReadOneItem(xs[0], "]");
      assert xs == [xs[0]];
    } else {
      var tl := QuotedList(xs[1..]);
      var more := "," + tl + "]";
      assert QuotedList(xs) == Quote(xs[0]) + "," + tl;
      assert QuotedList(xs) + "]" == Quote(xs[0]) + more;
      assert more != "]" && more[1..] == tl + "]";
      ReadOneItem(xs[0], more);
      ReadQuotedList(xs[1..]);
      assert [xs[0]] + xs[1..] == xs;
    }
  }

  /** Decoding what the encoder writes gives back the same list. */
  lemma DecodeEncodeStrings(xs: seq<string>)
    ensures DecodeStrings(EncodeStrings(xs)) == Some(xs)
  {
    var s := EncodeStrings(xs);
    if xs != [] {
      assert s[1] == QuotedList(xs)[0];
      assert s != "[]";
      assert s[1..] == QuotedList(xs) + "]";
      ReadQuotedList(xs);
    }
  }
}

=== FILE: wrappers.dfy ===
/** Option and Result, used for partial decoders and for error paths. */
module Wrappers {

  datatype Option<+T> = None | Some(value: T)

  datatype Result<+T, +E> = Ok(value: T) | Err(error: E)
}
